=== FILE: README.md ===
# SwiftFrameGraph core, modelled in Dafny

This project models the core of SwiftFrameGraph, a Swift frame-graph renderer with Metal and Vulkan
backends, and proves properties of that model. There is one Dafny module per core source file,
plus a shared `Common` module:

- `ShaderTargets` (`targets.dfy`): the shader tool's compilation targets. It covers the backend
  each target cross-compiles to, the preprocessor define, the output, intermediates and SPIR-V
  directories, the optional Metal compiler, the description string and the MSL version encoding.
- `VulkanDevice` (`vulkan_device.dfy`): the queue set-up of the Vulkan device. It covers the
  capabilities of each queue family, which queues are activated, and the
  `VkDeviceQueueCreateInfo` list built from them. It also covers the queue-family lookup by
  capabilities, both exact-then-superset and all matching indices.
- `ResourceMaps` (`resource_map.dfy`): the per-frame maps from resource handles to backend values.
  - The persistent map and the transient map are each a class over an `array` that is
    reallocated on growth.
  - `ResourceMap` combines the two and routes each handle by its registry.
- `ArgumentEncoding` (`argument_encoding.dfy`):
  - binding-path resolution for argument keys;
  - the packing of the resource handle (index, flags, type) and its round trip;
  - the argument-buffer classes: enqueued bindings and their translation, the inline byte store,
    the per-queue wait indices, validity against the registries' generations, disposal, and the
    argument-buffer array's lazily created children.
- `VulkanImages` (`vulkan_image.dfy`): the image descriptor built from a texture descriptor, the
  descriptor compatibility test, the `VkImageCreateInfo`, the aspect masks and subresource ranges,
  and the image's cached views.
- `FrameGraphContexts` (`frame_graph_context.dfy`): frame submission.
  - A frame's encoders are grouped into command buffers.
  - Each committed buffer signals the next value of the queue's timeline counter and registers a
    completion handler.
  - Cross-queue waits are encoded only when they are not already satisfied.
  - The backend is reduced to the ordered log of events it is asked to perform. A
    `FrameGraphContext` class keeps the counter, the log and the pending completion handlers.
- `RenderTargets` (`render_target.dfy`): the Vulkan render-target descriptor.
  - Consecutive draw passes are merged while their attachments agree, with one subpass per pass
    and de-duplicated subpass dependencies.
  - Each merged pass's clear values are folded into the descriptor's load actions and clear values.
  - Finalisation chooses each attachment's load and store actions from the texture's usage history,
    marking preserved and input attachments in the subpasses.

Each operation that changes state in the source is a method of a class with the source's fields.
Its contract ties the new state to a specification function of the old state. The lemmas beside it
prove what the source promises about that function: round trips, invariants kept across a frame,
if-and-only-if characterisations and orderings. I/O, foreign Vulkan/Metal/VMA calls and clocks are
not modelled. Where a foreign call produces a value the modelled code uses, that value is a
parameter.

## Model

| member | source | states |
|---|---|---|
| ShaderTargets.IsMetal | Sources/ShaderTool/Targets.swift:26-33 | a target is Metal exactly when it is not the Vulkan target |
| ShaderTargets.Backend | Sources/ShaderTool/Targets.swift:35-42 | the SPIRV-Cross backend is MSL exactly for the Metal targets and none exactly for Vulkan |
| ShaderTargets.TargetDefineDistinct | Sources/ShaderTool/Targets.swift:44-53 | two targets get the same preprocessor define exactly when they are the same kind of target, whatever their version strings |
| ShaderTargets.OutputDirectory | Sources/ShaderTool/Targets.swift:66-73 | Metal targets write to "Compiled", Vulkan to "Compiled/Vulkan" |
| ShaderTargets.IntermediatesDirectory | Sources/ShaderTool/Targets.swift:55-64 | Vulkan's intermediates directory is its output directory; a Metal target's is a different one |
| ShaderTargets.SpirvDirectory | Sources/ShaderTool/Targets.swift:75-82 | Vulkan keeps SPIR-V in its intermediates directory; Metal targets keep it in the "/SPIRV" subdirectory of it |
| ShaderTargets.SpirvInsideIntermediates | Sources/ShaderTool/Targets.swift:55-82 | the SPIR-V directory always starts with the intermediates directory, and equals it exactly for Vulkan |
| ShaderTargets.Compiler | Sources/ShaderTool/Targets.swift:84-91 | there is no second-stage compiler exactly for Vulkan; a Metal target gets a Metal compiler for itself, which meets the compiler's Metal-only precondition (lines 120-124) |
| ShaderTargets.Description | Sources/ShaderTool/Targets.swift:94-105 | the description string of each kind of target, with its deployment target or version |
| ShaderTargets.DescriptionInjective | Sources/ShaderTool/Targets.swift:94-105 | two targets with the same description are the same target: the description loses nothing |
| ShaderTargets.MakeMSLVersion | Sources/ShaderTool/Targets.swift:126-128 | when major·10000 + minor·100 + patch fits in UInt32, the result fits in UInt32 |
| ShaderTargets.MSLVersionRoundTrip | Sources/ShaderTool/Targets.swift:126-128 | with minor and patch below 100, major, minor and patch are recovered from the encoded version by division and remainder |
| ShaderTargets.MSLVersionUsed | Sources/ShaderTool/Targets.swift:143 | the MSL version 2.1.0 that the Metal compiler requests encodes as 20100 |
| VulkanDevice.CapabilitiesOfFamily | Sources/FrameGraph/VulkanBackend/VulkanDevice.swift:19-30 | each queue family maps to exactly one capability: render for graphics and present, compute for compute, blit for copy |
| VulkanDevice.CapabilitiesForFlags | Sources/FrameGraph/VulkanBackend/VulkanDevice.swift:47-61 | a family can render iff it has the graphics bit and compute iff it has the compute bit; it can blit iff it has any of graphics, compute or transfer |
| VulkanDevice.PhysicalDeviceCapabilities | Sources/FrameGraph/VulkanBackend/VulkanDevice.swift:37-62 | one capability set per queue family, in order, each derived from that family's flags |
| VulkanDevice.GraphicsBeforeExists | Sources/FrameGraph/VulkanBackend/VulkanDevice.swift:95-116 | the loop's "render queue already chosen" flag before family n holds exactly when some earlier family has graphics |
| VulkanDevice.QueuesOfAreRequested | Sources/FrameGraph/VulkanBackend/VulkanDevice.swift:97-116 | the queues activated from one family are exactly the queues the selection rule requests from it: one for the first graphics family, none for a later graphics family, all queues of a non-graphics family |
| VulkanDevice.SelectedQueuesAreRequested | Sources/FrameGraph/VulkanBackend/VulkanDevice.swift:97-116 | after the first n families, the activated queues are exactly the requested queues of those families |
| VulkanDevice.SelectedQueuesAscending | Sources/FrameGraph/VulkanBackend/VulkanDevice.swift:97-116 | the activated queues are listed in increasing (family, queue) order, so none repeats |
| VulkanDevice.SelectedInfosUnique | Sources/FrameGraph/VulkanBackend/VulkanDevice.swift:97-116 | the corrected create-info list names each family at most once |
| VulkanDevice.SelectedInfosCounts | Sources/FrameGraph/VulkanBackend/VulkanDevice.swift:97-116 | each corrected create info asks for exactly as many queues as that family activates, at least one |
| VulkanDevice.SelectedInfosComplete | Sources/FrameGraph/VulkanBackend/VulkanDevice.swift:97-116 | every family that activates queues has its create info |
| VulkanDevice.SelectedQueuesPrefix | Sources/FrameGraph/VulkanBackend/VulkanDevice.swift:97-116 | the loop only appends: the queues chosen from fewer families are a prefix of those chosen from more |
| VulkanDevice.AsWrittenRepeatsFamilies | Sources/FrameGraph/VulkanBackend/VulkanDevice.swift:110-114 | as written, a non-graphics family with two or more queues yields repeated family indices in the create-info list |
| VulkanDevice.DuplicateCreateInfoExample | Sources/FrameGraph/VulkanBackend/VulkanDevice.swift:110-114 | a concrete device (a graphics family and a two-queue compute family) for which the as-written list repeats a family |
| VulkanDevice.SelectQueuesAsWritten | Sources/FrameGraph/VulkanBackend/VulkanDevice.swift:93-116 | the loop as written: the activated queues are the selection rule's, with one create info of count 1 per queue |
| VulkanDevice.SelectQueues | Sources/FrameGraph/VulkanBackend/VulkanDevice.swift:93-116 | the corrected loop: the same activated queues, with one create info per family carrying that family's queue count, so no family index appears twice among the create infos |
| VulkanDevice.FirstIndexOf | Sources/FrameGraph/VulkanBackend/VulkanDevice.swift:179 | the first family whose capabilities equal the request, or none exactly when no family's do |
| VulkanDevice.FirstSupersetIndex | Sources/FrameGraph/VulkanBackend/VulkanDevice.swift:184 | the first family whose capabilities include the request, or none exactly when no family's do |
| VulkanDevice.QueueFamilyIndex | Sources/FrameGraph/VulkanBackend/VulkanDevice.swift:175-199 | a four-tier first match: the first exact match of the requested capabilities; else the first family containing them; else the first exact match of the required capabilities; else the first family containing those. The result always covers the required capabilities, and it is none (the fatal error) exactly when no family covers them |
| VulkanDevice.QueueFamilyIndices | Sources/FrameGraph/VulkanBackend/VulkanDevice.swift:206-214 | exactly the families sharing a capability with the request, in increasing order |
| ResourceMaps.LiveEntriesMembership | Sources/FrameGraph/FrameGraph/ResourceMap.swift:182-188 | the entries a traversal visits are exactly the occupied slots |
| ResourceMaps.LiveEntriesAscending | Sources/FrameGraph/FrameGraph/ResourceMap.swift:182-188 | when every entry sits at its handle's index, the traversal visits entries in increasing index order, all within capacity |
| ResourceMaps.PersistentResourceMap.constructor | Sources/FrameGraph/FrameGraph/ResourceMap.swift:20-22 | a new persistent map has no slots |
| ResourceMaps.PersistentResourceMap.ReserveCapacity | Sources/FrameGraph/FrameGraph/ResourceMap.swift:41-74 | a capacity within the current one changes nothing; a larger one reallocates to the larger of the request and twice the old capacity, keeping every entry and leaving the new slots empty |
| ResourceMaps.PersistentResourceMap.Contains | Sources/FrameGraph/FrameGraph/ResourceMap.swift:90-97 | a transient handle is never contained; a contained handle is the one stored at its index, so a stale handle to a reused slot is not |
| ResourceMaps.PersistentResourceMap.Get | Sources/FrameGraph/FrameGraph/ResourceMap.swift:99-113 | a value is returned exactly when the handle is contained, and it is the value stored with that handle |
| ResourceMaps.PersistentResourceMap.GetOrDefault | Sources/FrameGraph/FrameGraph/ResourceMap.swift:135-143 | the stored value when contained, otherwise the default |
| ResourceMaps.PersistentResourceMap.Set | Sources/FrameGraph/FrameGraph/ResourceMap.swift:114-132 | afterwards Get returns what was set, the handle is contained exactly when a value was set, and every other slot is unchanged |
| ResourceMaps.PersistentResourceMap.RemoveValue | Sources/FrameGraph/FrameGraph/ResourceMap.swift:145-158 | returns the value Get gave before; afterwards the handle is not contained; only its own slot changes, and nothing changes when it was absent |
| ResourceMaps.PersistentResourceMap.RemoveAll | Sources/FrameGraph/FrameGraph/ResourceMap.swift:160-168 | every slot is empty afterwards |
| ResourceMaps.PersistentResourceMap.Drain | Sources/FrameGraph/FrameGraph/ResourceMap.swift:170-179 | visits every live entry in index order, tagged with the given registry flag, and empties every slot |
| ResourceMaps.PersistentResourceMap.RemoveAllIteratingAsWritten | Sources/FrameGraph/FrameGraph/ResourceMap.swift:170-179 | as written (line 174): every entry visited holds a persistent handle yet is reported as not persistent |
| ResourceMaps.PersistentResourceMap.RemoveAllIterating | Sources/FrameGraph/FrameGraph/ResourceMap.swift:170-179 | corrected: every live entry is visited in index order, reported persistent exactly when its handle is, and the map is emptied |
| ResourceMaps.PersistentResourceMap.ForEach | Sources/FrameGraph/FrameGraph/ResourceMap.swift:181-188 | visits exactly the live entries, in index order |
| ResourceMaps.PersistentResourceMap.ForEachMutating | Sources/FrameGraph/FrameGraph/ResourceMap.swift:190-200 | each live entry is replaced by the body's new value, or removed when the body asks; empty slots stay empty |
| ResourceMaps.PersistentResourceMap.WithValue | Sources/FrameGraph/FrameGraph/ResourceMap.swift:202-208 | the action gets the slot's value and whether the slot belongs to exactly this handle; what it writes through the slot's pointer becomes the handle's value when the handle is present, the key never changes, and no other slot changes |
| ResourceMaps.TransientResourceMap.constructor | Sources/FrameGraph/FrameGraph/ResourceMap.swift:225-228 | a new transient map has no slots |
| ResourceMaps.TransientResourceMap.ReserveCapacity | Sources/FrameGraph/FrameGraph/ResourceMap.swift:247-280 | a capacity within the current one changes nothing; a larger one reallocates to exactly the request, keeping every entry and leaving the new slots empty |
| ResourceMaps.TransientResourceMap.Contains | Sources/FrameGraph/FrameGraph/ResourceMap.swift:294-301 | a persistent handle is never contained; a contained handle is the one stored at its index |
| ResourceMaps.TransientResourceMap.Get | Sources/FrameGraph/FrameGraph/ResourceMap.swift:303-317 | a value is returned exactly when the handle is contained, and it is the value stored with it |
| ResourceMaps.TransientResourceMap.GetOrDefault | Sources/FrameGraph/FrameGraph/ResourceMap.swift:340-348 | the stored value when contained, otherwise the default |
| ResourceMaps.TransientResourceMap.Set | Sources/FrameGraph/FrameGraph/ResourceMap.swift:318-337 | afterwards Get returns what was set; every other slot is unchanged |
| ResourceMaps.TransientResourceMap.RemoveValue | Sources/FrameGraph/FrameGraph/ResourceMap.swift:350-364 | returns the previous value; the handle is not contained afterwards; only its own slot changes |
| ResourceMaps.TransientResourceMap.RemoveAll | Sources/FrameGraph/FrameGraph/ResourceMap.swift:366-374 | every slot is empty afterwards |
| ResourceMaps.TransientResourceMap.RemoveAllIterating | Sources/FrameGraph/FrameGraph/ResourceMap.swift:376-385 | every live entry is visited in index order, reported as not persistent, and the map is emptied |
| ResourceMaps.TransientResourceMap.ForEach | Sources/FrameGraph/FrameGraph/ResourceMap.swift:387-394 | visits exactly the live entries, in index order |
| ResourceMaps.TransientResourceMap.ForEachMutating | Sources/FrameGraph/FrameGraph/ResourceMap.swift:396-406 | each live entry is updated or removed as the body says; empty slots stay empty |
| ResourceMaps.TransientResourceMap.WithValue | Sources/FrameGraph/FrameGraph/ResourceMap.swift:408-414 | the same for the transient table: the action's write lands in the handle's slot only, and presence is unchanged |
| ResourceMaps.ResourceMap.constructor | Sources/FrameGraph/FrameGraph/ResourceMap.swift:428-433 | both underlying maps start empty |
| ResourceMaps.ResourceMap.PrepareFrame | Sources/FrameGraph/FrameGraph/ResourceMap.swift:435-438 | both maps reach at least the registries' capacities, never shrink, and keep every entry |
| ResourceMaps.ResourceMap.Contains | Sources/FrameGraph/FrameGraph/ResourceMap.swift:445-452 | a handle is looked up in the persistent map exactly when it uses the persistent registry, otherwise in the transient map |
| ResourceMaps.ResourceMap.Get | Sources/FrameGraph/FrameGraph/ResourceMap.swift:454-462 | the value from the handle's own map, present exactly when contained |
| ResourceMaps.ResourceMap.Set | Sources/FrameGraph/FrameGraph/ResourceMap.swift:463-469 | afterwards Get returns what was set, and the other registry's map is untouched |
| ResourceMaps.ResourceMap.RemoveValue | Sources/FrameGraph/FrameGraph/ResourceMap.swift:482-491 | returns the previous value; the handle is gone afterwards; the other registry's map is untouched |
| ResourceMaps.ResourceMap.RemoveAll | Sources/FrameGraph/FrameGraph/ResourceMap.swift:493-497 | both maps are emptied |
| ResourceMaps.ResourceMap.RemoveAllIterating | Sources/FrameGraph/FrameGraph/ResourceMap.swift:499-503 | visits the transient entries and then the persistent ones, each reported persistent exactly when its handle is, and empties both maps |
| ResourceMaps.ResourceMap.ForEach | Sources/FrameGraph/FrameGraph/ResourceMap.swift:505-509 | visits the transient entries, then the persistent ones |
| ResourceMaps.ResourceMap.ForEachMutating | Sources/FrameGraph/FrameGraph/ResourceMap.swift:511-515 | both maps' live entries are updated or removed as the body says |
| ResourceMaps.ResourceMap.WithValue | Sources/FrameGraph/FrameGraph/ResourceMap.swift:517-526 | the action runs on the slot of the handle's own table, its write is stored there, and the other table is untouched |
| ResourceMaps.SetThenRemove | Sources/FrameGraph/FrameGraph/ResourceMap.swift:114-158 | round trip: after setting a value, Get returns it, removing returns it, and the handle is then absent |
| ArgumentEncoding.OwnBindingPath | Sources/FrameGraph/FrameGraph/ArgumentEncoding.swift:43-46 | a key fixes its own binding path exactly when it is a Metal-indexed key; that path is the key's index plus the array index, with the key's type and stages and no argument buffer |
| ArgumentEncoding.ResolveBindingPath | Sources/FrameGraph/FrameGraph/ArgumentEncoding.swift:72-75 | the key's own path when it has one, otherwise the backend's reflection lookup |
| ArgumentEncoding.ComputedBindingPath | Sources/FrameGraph/FrameGraph/ArgumentEncoding.swift:77-80 | the path resolved outside any argument buffer at array index 0 |
| ArgumentEncoding.MetalIndexedIgnoresReflection | Sources/FrameGraph/FrameGraph/ArgumentEncoding.swift:43-46 | a Metal-indexed key always resolves, and to the same path whatever the reflection says |
| ArgumentEncoding.FlagBits | Sources/FrameGraph/FrameGraph/ArgumentEncoding.swift:129 | the raw value of a flag set that line 129 shifts into the handle, with one bit per flag as an option set's raw value has; the bit positions are the model's own (see Left out) |
| ArgumentEncoding.FlagBitsRoundTrip | Sources/FrameGraph/FrameGraph/ArgumentEncoding.swift:129 | the flags are recovered from their bits |
| ArgumentEncoding.TypeCode | Sources/FrameGraph/FrameGraph/ArgumentEncoding.swift:129 | the raw type code that line 129 shifts into the handle; the codes are the model's own (see Left out) |
| ArgumentEncoding.TypeCodeInjective | Sources/FrameGraph/FrameGraph/ArgumentEncoding.swift:129 | distinct resource types get distinct type codes |
| ArgumentEncoding.PackUnpack | Sources/FrameGraph/FrameGraph/ArgumentEncoding.swift:129 | packing index, flags and type at their shifts and unpacking gives back the three fields, when each fits its width |
| ArgumentEncoding.NewHandle | Sources/FrameGraph/FrameGraph/ArgumentEncoding.swift:114-131 | no handle for history-buffer flags (the precondition at line 116); otherwise a handle that unpacks to the slot index, the flags and the argument-buffer type |
| ArgumentEncoding.ChildHandle | Sources/FrameGraph/FrameGraph/ArgumentEncoding.swift:134-146 | a child argument buffer's handle unpacks to its slot index, its flags and the argument-buffer type |
| ArgumentEncoding.PendingStep | Sources/FrameGraph/FrameGraph/ArgumentEncoding.swift:299-310 | one turn of the in-place filter: a resolved binding is removed from the pending list and appended to the resolved ones; an unresolved one is kept in place |
| ArgumentEncoding.TranslationConserves | Sources/FrameGraph/FrameGraph/ArgumentEncoding.swift:297-321 | translation neither loses nor invents bindings: pending plus resolved is the original count |
| ArgumentEncoding.TranslationPartitions | Sources/FrameGraph/FrameGraph/ArgumentEncoding.swift:297-321 | the bindings still pending are exactly those that do not resolve; every resolved binding comes from an enqueued one with its path and resource |
| ArgumentEncoding.TranslationIdempotent | Sources/FrameGraph/FrameGraph/ArgumentEncoding.swift:297-321 | translating again, with the same resolver, changes nothing |
| ArgumentEncoding.PersistentRegistries.Dispose | Sources/FrameGraph/FrameGraph/ArgumentEncoding.swift:379 | the registry call made by dispose: the model records the disposal and advances the slot's generation by one, so older handles to the slot become stale (the registry's own dispose is defined elsewhere) |
| ArgumentEncoding.ArgumentBufferRecord.constructor | Sources/FrameGraph/FrameGraph/ArgumentEncoding.swift:114-131 | a new argument buffer has a valid handle with its kind, flags and index, no bindings or data, and zero wait indices for every queue |
| ArgumentEncoding.ArgumentBufferRecord.TranslateEnqueuedBindings | Sources/FrameGraph/FrameGraph/ArgumentEncoding.swift:297-321 | the pending list keeps exactly the bindings that do not resolve, in order; the resolved ones are appended to the bindings in order |
| ArgumentEncoding.ArgumentBufferRecord.CopyBytes | Sources/FrameGraph/FrameGraph/ArgumentEncoding.swift:333-350 | the bytes are appended to the store of the buffer's registry (its own data when persistent, the frame's transient data otherwise) and the returned offset is where they start |
| ArgumentEncoding.ArgumentBufferRecord.WaitIndex | Sources/FrameGraph/FrameGraph/ArgumentEncoding.swift:352-361 | a transient buffer waits on nothing; a persistent one returns the read or write wait index of the queue |
| ArgumentEncoding.ArgumentBufferRecord.SetWaitIndex | Sources/FrameGraph/FrameGraph/ArgumentEncoding.swift:362-373 | a transient buffer ignores the update; a persistent one sets the read index unless the access is write-only, and the write index unless it is read-only |
| ArgumentEncoding.ArgumentBufferRecord.IsValid | Sources/FrameGraph/FrameGraph/ArgumentEncoding.swift:382-390 | the handle is valid exactly when its generation matches its registry's current one |
| ArgumentEncoding.ArgumentBufferRecord.Dispose | Sources/FrameGraph/FrameGraph/ArgumentEncoding.swift:375-380 | a persistent buffer is disposed in its registry and a valid handle becomes invalid; a transient one leaves the registries untouched |
| ArgumentEncoding.ArgumentBufferRecord.SetBuffer | Sources/FrameGraph/FrameGraph/ArgumentEncoding.swift:576-583 | a buffer binding is enqueued for the key, and a missing buffer enqueues nothing |
| ArgumentEncoding.ArgumentBufferRecord.SetTexture | Sources/FrameGraph/FrameGraph/ArgumentEncoding.swift:586-591 | a texture binding is enqueued for the key |
| ArgumentEncoding.ArgumentBufferRecord.SetSampler | Sources/FrameGraph/FrameGraph/ArgumentEncoding.swift:594-598 | a sampler binding is enqueued for the key |
| ArgumentEncoding.ArgumentBufferRecord.SetBytes | Sources/FrameGraph/FrameGraph/ArgumentEncoding.swift:621-626 | the bytes are copied into the store, and the enqueued binding names exactly the offset and length where they now lie |
| ArgumentEncoding.ArgumentBufferRecord.SetBuffers | Sources/FrameGraph/FrameGraph/ArgumentEncoding.swift:632-636 | one buffer binding per (buffer, offset, key) triple, in order, as many as the shortest list |
| ArgumentEncoding.ArgumentBufferRecord.SetTextures | Sources/FrameGraph/FrameGraph/ArgumentEncoding.swift:638-642 | one texture binding per (texture, key) pair, in order, as many as the shorter list |
| ArgumentEncoding.ArgumentBufferRecord.SetSamplers | Sources/FrameGraph/FrameGraph/ArgumentEncoding.swift:644-648 | one sampler binding per (sampler, key) pair, in order, as many as the shorter list |
| ArgumentEncoding.ArgumentBufferArrayRecord.constructor | Sources/FrameGraph/FrameGraph/ArgumentEncoding.swift:403-418 | a new argument-buffer array has a valid handle with its kind, flags and index, and no children |
| ArgumentEncoding.ArgumentBufferArrayRecord.IsValid | Sources/FrameGraph/FrameGraph/ArgumentEncoding.swift:494-502 | the handle is valid exactly when its generation matches its registry's current one |
| ArgumentEncoding.ArgumentBufferArrayRecord.Subscript | Sources/FrameGraph/FrameGraph/ArgumentEncoding.swift:707-720 | the child list grows to cover the index, with new slots empty; an existing child is returned unchanged; otherwise a fresh, valid argument buffer flagged as a view of the array is stored at the index; other children are untouched |
| ArgumentEncoding.ArgumentBufferArrayRecord.Dispose | Sources/FrameGraph/FrameGraph/ArgumentEncoding.swift:420-428 | a persistent array disposes each existing child and then itself, in that order. The generation table is that sequence of disposals applied to the old one: every child's slot and the array's slot advance, so the array and every child that was valid become invalid, and every other slot keeps its generation. A transient array leaves the registries untouched |
| ArgumentEncoding.AfterDisposalsGeneration | Sources/FrameGraph/FrameGraph/ArgumentEncoding.swift:379 | with the registry's dispose modelled as a one-step bump, disposing of a sequence of handles advances each slot by the number of handles naming it |
| ArgumentEncoding.DisposalsOfNamed | Sources/FrameGraph/FrameGraph/ArgumentEncoding.swift:420-428 | a slot is advanced by a sequence of disposals exactly when some handle in it names that slot |
| VulkanImages.DepthStencilIsBoth | Sources/FrameGraph/VulkanBackend/VulkanImage.swift:319-351 | a format is a combined depth-stencil format exactly when it has both a depth and a stencil part |
| VulkanImages.FromTextureDescriptor | Sources/FrameGraph/VulkanBackend/VulkanImage.swift:237-258 | cube textures get the cube-compatible flag and six layers per array element; tiling is optimal exactly for private storage; a single sample; the given usage, sharing mode and layout; the texture's format, extent and mip count |
| VulkanImages.MatchesPreorder | Sources/FrameGraph/VulkanBackend/VulkanImage.swift:264-276 | descriptor matching is reflexive and transitive, and two descriptors that match each other differ at most in initial layout |
| VulkanImages.WiderUsageMatches | Sources/FrameGraph/VulkanBackend/VulkanImage.swift:237-276 | an image made with a superset of the usage flags can serve a request for fewer, but not the other way round |
| VulkanImages.CreateInfo | Sources/FrameGraph/VulkanBackend/VulkanImage.swift:278-310 | the create info copies every descriptor field; sharing is concurrent exactly when the descriptor is concurrent over other than one queue family, listing those families; otherwise exclusive with no families |
| VulkanImages.DefaultRange | Sources/FrameGraph/VulkanBackend/VulkanImage.swift:116-134 | the default view covers every mip level, and every layer (six for a cube view), with exactly one aspect: depth if the format has depth, else stencil if it has stencil, else colour |
| VulkanImages.AttachmentRange | Sources/FrameGraph/VulkanBackend/VulkanImage.swift:182-197 | an attachment view covers one level and one layer, the attachment's level and the larger of its slice and depth plane; both aspects for a depth-stencil format, otherwise the default aspect |
| VulkanImages.VulkanImageView.constructor | Sources/FrameGraph/VulkanBackend/VulkanImage.swift:209-212 | a view records the descriptor it was made for |
| VulkanImages.VulkanImage.constructor | Sources/FrameGraph/VulkanBackend/VulkanImage.swift:85-141 | a new image has the default view for its descriptor, no cached views, and its initial layout |
| VulkanImages.VulkanImage.View | Sources/FrameGraph/VulkanBackend/VulkanImage.swift:155-174 | views are cached by descriptor: a cached one is returned as is; otherwise a fresh view is made and cached, and nothing else changes |
| VulkanImages.VulkanImage.ViewForAttachment | Sources/FrameGraph/VulkanBackend/VulkanImage.swift:176-202 | level 0, slice 0 and plane 0 of a 2D image is the default view. Any other attachment gets the view for its attachment range through the cache: a cached view is returned and nothing changes, otherwise a fresh view is created and added under exactly that descriptor |
| FrameGraphContexts.PointwiseMaxAt | Sources/FrameGraph/FrameGraph/BackendExecution/FrameGraphContext.swift:168 | the running per-queue wait maximum takes, queue by queue, the larger of the two values |
| FrameGraphContexts.WaitEventsOn | Sources/FrameGraph/FrameGraph/BackendExecution/FrameGraphContext.swift:154-167 | the wait loop encodes a wait on queue q exactly when the value is above everything already waited on q and above what q has completed, and then only that value |
| FrameGraphContexts.ProcessSignals | Sources/FrameGraph/FrameGraph/BackendExecution/FrameGraphContext.swift:98-135 | committing the open buffer signals exactly one new value, the next counter value; with no open buffer nothing is signalled |
| FrameGraphContexts.ProcessCommits | Sources/FrameGraph/FrameGraph/BackendExecution/FrameGraphContext.swift:98-135 | committing the open buffer commits exactly that buffer, numbered by the committed count |
| FrameGraphContexts.ProcessKeeps | Sources/FrameGraph/FrameGraph/BackendExecution/FrameGraphContext.swift:98-135 | committing encodes no commands and no waits |
| FrameGraphContexts.StepCounters | Sources/FrameGraph/FrameGraph/BackendExecution/FrameGraphContext.swift:139-171 | after an encoder a buffer is open; the committed count, signal counter and handlers advance by one exactly when the encoder names a new buffer while one was open |
| FrameGraphContexts.StepSignals | Sources/FrameGraph/FrameGraph/BackendExecution/FrameGraphContext.swift:139-171 | an encoder turn signals the next value exactly when it closes the open buffer |
| FrameGraphContexts.StepCommits | Sources/FrameGraph/FrameGraph/BackendExecution/FrameGraphContext.swift:139-171 | an encoder turn commits the open buffer exactly when it names another buffer |
| FrameGraphContexts.StepEncodes | Sources/FrameGraph/FrameGraph/BackendExecution/FrameGraphContext.swift:139-171 | each encoder turn encodes that encoder's commands exactly once |
| FrameGraphContexts.StepWaits | Sources/FrameGraph/FrameGraph/BackendExecution/FrameGraphContext.swift:154-168 | the waits an encoder turn adds on a queue are exactly the one the skip rule lets through |
| FrameGraphContexts.RunSignals | Sources/FrameGraph/FrameGraph/BackendExecution/FrameGraphContext.swift:109-110 | over the loop, the counter is the start value plus the commits, and the signalled values are start+1, start+2, … in order |
| FrameGraphContexts.RunCommits | Sources/FrameGraph/FrameGraph/BackendExecution/FrameGraphContext.swift:117-131 | over the loop, buffers are committed as 0, 1, 2, … in order |
| FrameGraphContexts.RunEncodes | Sources/FrameGraph/FrameGraph/BackendExecution/FrameGraphContext.swift:139-171 | over the loop, every encoder's commands are encoded once, in encoder order |
| FrameGraphContexts.RunHandlers | Sources/FrameGraph/FrameGraph/BackendExecution/FrameGraphContext.swift:117-130 | handler j belongs to buffer j, carries signal value start+1+j, and is the last exactly when j is the frame's last buffer index |
| FrameGraphContexts.RunWaits | Sources/FrameGraph/FrameGraph/BackendExecution/FrameGraphContext.swift:155-168 | the waits on each queue are for strictly increasing values, all above what the queue has completed and at most the running maximum |
| FrameGraphContexts.WaitsCoverDependencies | Sources/FrameGraph/FrameGraph/BackendExecution/FrameGraphContext.swift:154-168 | skipping waits is sound: each wait value of each encoder is already completed by that queue or covered by a wait encoded at or before that encoder |
| FrameGraphContexts.FrameCounters | Sources/FrameGraph/FrameGraph/BackendExecution/FrameGraphContext.swift:88-173 | across a whole frame: consecutive signal values, consecutive commits, matching handlers, at most one handler marked last, every encoder encoded once, and the last buffer committed |
| FrameGraphContexts.RunOpen | Sources/FrameGraph/FrameGraph/BackendExecution/FrameGraphContext.swift:145-152 | once an encoder has run, a command buffer is open |
| FrameGraphContexts.RunFollowsBuffers | Sources/FrameGraph/FrameGraph/BackendExecution/FrameGraphContext.swift:139-152 | when buffer indices start at 0 and step by at most one, the open buffer is always the latest encoder's |
| FrameGraphContexts.CompletionFiresOnce | Sources/FrameGraph/FrameGraph/BackendExecution/FrameGraphContext.swift:125-129 | with such encoders, the frame commits all its buffers and exactly the last buffer's handler reports completion, so completion and the semaphore signal happen once per frame |
| FrameGraphContexts.FrameKeepsPendingOrdered | Sources/FrameGraph/FrameGraph/BackendExecution/FrameGraphContext.swift:109-130 | a frame's handlers carry values above every pending one, so pending completions stay in increasing order below the counter |
| FrameGraphContexts.FrameGraphContext.constructor | Sources/FrameGraph/FrameGraph/BackendExecution/FrameGraphContext.swift:21 | the counter starts at 0 with nothing pending |
| FrameGraphContexts.FrameGraphContext.ProcessCommandBuffer | Sources/FrameGraph/FrameGraph/BackendExecution/FrameGraphContext.swift:98-135 | the method's effect is processCommandBuffer's specification, and the last submitted value tracks the counter |
| FrameGraphContexts.FrameGraphContext.ExecuteFrameGraph | Sources/FrameGraph/FrameGraph/BackendExecution/FrameGraphContext.swift:61-174 | an empty frame prepares, completes, signals the semaphore and cleans up without committing; otherwise the log is prepare, the frame's events and clean-up; the counter and pending handlers advance as the frame specifies; the context stays valid |
| FrameGraphContexts.FrameGraphContext.EncodeFrame | Sources/FrameGraph/FrameGraph/BackendExecution/FrameGraphContext.swift:137-173 | the loop and the final commit perform exactly the frame's specified events, counter and handlers |
| FrameGraphContexts.FrameGraphContext.EncodeEncoder | Sources/FrameGraph/FrameGraph/BackendExecution/FrameGraphContext.swift:139-171 | one loop turn performs exactly the specified step |
| FrameGraphContexts.FrameGraphContext.EncodeWaits | Sources/FrameGraph/FrameGraph/BackendExecution/FrameGraphContext.swift:154-167 | the wait loop performs exactly the specified wait events and changes nothing else |
| FrameGraphContexts.FrameGraphContext.CommandBufferCompleted | Sources/FrameGraph/FrameGraph/BackendExecution/FrameGraphContext.swift:117-130 | the oldest pending handler runs: completion strictly advances to its value, and only the frame's last buffer reports completion and signals the semaphore |
| RenderTargets.TryUpdateOutcomes | Sources/FrameGraph/VulkanBackend/VulkanRenderTargetDescriptor.swift:161-185 | a slot is identical exactly when the pass names the same attachment and does not clear an occupied slot; incompatible exactly when both are occupied and the pass clears or names another attachment |
| RenderTargets.TryUpdateKeepsBoth | Sources/FrameGraph/VulkanBackend/VulkanRenderTargetDescriptor.swift:161-185 | a slot that merges keeps its attachment and holds the pass's: merging never drops or replaces one |
| RenderTargets.MergedColorsAt | Sources/FrameGraph/VulkanBackend/VulkanRenderTargetDescriptor.swift:199-208 | each merged colour slot is that slot's own merge outcome |
| RenderTargets.MergeWidens | Sources/FrameGraph/VulkanBackend/VulkanRenderTargetDescriptor.swift:187-251 | after a successful merge, every attachment of the descriptor and of the pass is in its slot of the merged descriptor |
| RenderTargets.SameTargetIsIdentical | Sources/FrameGraph/VulkanBackend/VulkanRenderTargetDescriptor.swift:187-226 | a pass with exactly the descriptor's attachments and no clears merges and is identical in every slot, so it shares the current subpass |
| RenderTargets.ClearOnUsedSlotIsIncompatible | Sources/FrameGraph/VulkanBackend/VulkanRenderTargetDescriptor.swift:199-208 | a clear requested on a colour slot already in use forbids the merge |
| RenderTargets.UpdatedLoadKeepsContents | Sources/FrameGraph/VulkanBackend/VulkanRenderTargetDescriptor.swift:83-133 | once a pass has asked for the contents no later pass makes the load don't-care, and a clear stays a clear; the load is don't-care exactly when it was and the pass discards |
| RenderTargets.Padded | Sources/FrameGraph/VulkanBackend/VulkanRenderTargetDescriptor.swift:87-89 | padding extends a list to the requested length with the fill value and keeps its prefix |
| RenderTargets.UpdatedColorSlot | Sources/FrameGraph/VulkanBackend/VulkanRenderTargetDescriptor.swift:83-107 | per colour slot: store actions are kept; a cleared slot gets the clear and its value; a kept slot loads unless already loaded or cleared; an unbound or discarded slot is unchanged; new slots start don't-care with the zero colour |
| RenderTargets.ColorClearValues | Sources/FrameGraph/VulkanBackend/VulkanRenderTargetDescriptor.swift:87-107 | the colour loop produces exactly the specified colour actions and clear colours |
| RenderTargets.PairIndex | Sources/FrameGraph/VulkanBackend/VulkanRenderTargetDescriptor.swift:142-159 | the first dependency for the same subpass pair, or none exactly when there is none |
| RenderTargets.WithDependencyKeepsUnique | Sources/FrameGraph/VulkanBackend/VulkanRenderTargetDescriptor.swift:142-159 | adding a dependency keeps one dependency per subpass pair, growing the list only for a new pair |
| RenderTargets.WithDependencyCovers | Sources/FrameGraph/VulkanBackend/VulkanRenderTargetDescriptor.swift:142-159 | afterwards some dependency for the pair covers all the new masks, and every earlier dependency keeps its pair and its masks |
| RenderTargets.WithDependencyIdempotent | Sources/FrameGraph/VulkanBackend/VulkanRenderTargetDescriptor.swift:142-159 | adding the same dependency twice is adding it once |
| RenderTargets.Horizon | Sources/FrameGraph/VulkanBackend/VulkanRenderTargetDescriptor.swift:293-331 | the uses the scan reads are those before the first use that needs the contents after the merged passes |
| RenderTargets.ScanLast | Sources/FrameGraph/VulkanBackend/VulkanRenderTargetDescriptor.swift:293-331 | "last usage" survives the scan exactly when it started set and no use needs the contents after the merged passes |
| RenderTargets.ScanFirst | Sources/FrameGraph/VulkanBackend/VulkanRenderTargetDescriptor.swift:293-331 | "first usage" survives exactly when it started set and no active use before the merged passes is seen before the scan stops |
| RenderTargets.ScanAdvance | Sources/FrameGraph/VulkanBackend/VulkanRenderTargetDescriptor.swift:293-331 | one use of the scan: it either ends the scan with "last usage" cleared, or the scan goes on with "first usage" updated |
| RenderTargets.ActionsStore | Sources/FrameGraph/VulkanBackend/VulkanRenderTargetDescriptor.swift:262-345 | an attachment is stored exactly when its texture is persistent, a window texture or an uninitialised history buffer, or some use after the merged passes needs its contents |
| RenderTargets.ActionsLoad | Sources/FrameGraph/VulkanBackend/VulkanRenderTargetDescriptor.swift:262-345 | a requested load becomes don't-care exactly when the texture was never initialised and no earlier use is seen; any other load action is kept |
| RenderTargets.VisibilityRejectsAfterSlots | Sources/FrameGraph/VulkanBackend/VulkanRenderTargetDescriptor.swift:228-241 | a pass with the descriptor's attachments and another visibility buffer passes every slot check, so the as-written code appends its subpass, and then the visibility check rejects it |
| RenderTargets.MergeColorSlots | Sources/FrameGraph/VulkanBackend/VulkanRenderTargetDescriptor.swift:199-208 | the colour loop rejects exactly when some colour slot is incompatible, reports identical exactly when every slot is, and otherwise yields the merged colour slots |
| RenderTargets.MergeSlots | Sources/FrameGraph/VulkanBackend/VulkanRenderTargetDescriptor.swift:199-226 | the slot checks reject exactly when some slot is incompatible, report identical exactly when all are, and otherwise yield the merged slots |
| RenderTargets.VulkanSubpass.constructor | Sources/FrameGraph/VulkanBackend/VulkanRenderTargetDescriptor.swift:30-33 | a new subpass has its descriptor and index and no input or preserved attachments |
| RenderTargets.VulkanSubpass.Preserve | Sources/FrameGraph/VulkanBackend/VulkanRenderTargetDescriptor.swift:35-46 | a slot is appended to the preserved list unless it is listed already or the subpass binds it, so a preserved slot is never one the subpass uses |
| RenderTargets.VulkanSubpass.ReadFrom | Sources/FrameGraph/VulkanBackend/VulkanRenderTargetDescriptor.swift:48-52 | the slot is listed as an input attachment, at most once |
| RenderTargets.StoredColorsPrefix | Sources/FrameGraph/VulkanBackend/VulkanRenderTargetDescriptor.swift:349-352 | the textures stored by the first n colour slots depend only on those slots' actions |
| RenderTargets.ColorsFinalisedStep | Sources/FrameGraph/VulkanBackend/VulkanRenderTargetDescriptor.swift:349-352 | the finalise loop's invariant is kept by one more colour slot |
| RenderTargets.VulkanRenderTargetDescriptor.constructor | Sources/FrameGraph/VulkanBackend/VulkanRenderTargetDescriptor.swift:74-81 | a descriptor for one pass has that pass's target, its clear values folded in, subpass 0 and no dependencies |
| RenderTargets.VulkanRenderTargetDescriptor.UpdateClearValues | Sources/FrameGraph/VulkanBackend/VulkanRenderTargetDescriptor.swift:83-133 | the pass's clear operations are folded into the colour, depth and stencil actions and values as specified, and nothing else changes |
| RenderTargets.VulkanRenderTargetDescriptor.SubpassForPassIndex | Sources/FrameGraph/VulkanBackend/VulkanRenderTargetDescriptor.swift:135-140 | a subpass exactly for the passes of the merged run, and it is that pass's subpass |
| RenderTargets.VulkanRenderTargetDescriptor.AddDependency | Sources/FrameGraph/VulkanBackend/VulkanRenderTargetDescriptor.swift:142-159 | the dependency list becomes the specified one, with masks merged for an existing pair, and nothing else changes |
| RenderTargets.VulkanRenderTargetDescriptor.AppendSubpass | Sources/FrameGraph/VulkanBackend/VulkanRenderTargetDescriptor.swift:228-235 | an identical pass shares the last subpass; a compatible one gets a fresh subpass for the merged target, numbered after the last |
| RenderTargets.VulkanRenderTargetDescriptor.Commit | Sources/FrameGraph/VulkanBackend/VulkanRenderTargetDescriptor.swift:237-248 | the descriptor takes the merged slots, the pass's visibility buffer and the larger array length; the clear values take the pass's; the pass joins |
| RenderTargets.VulkanRenderTargetDescriptor.TryMerge | Sources/FrameGraph/VulkanBackend/VulkanRenderTargetDescriptor.swift:187-251 | corrected: the pass joins exactly when it has the same colour slot count, no slot is incompatible and the visibility buffers agree; a rejected pass changes nothing; an accepted one yields the merged descriptor and its subpass, and the descriptor stays valid |
| RenderTargets.VulkanRenderTargetDescriptor.Absorb | Sources/FrameGraph/VulkanBackend/VulkanRenderTargetDescriptor.swift:228-248 | appending the subpass and committing keep the descriptor valid |
| RenderTargets.VulkanRenderTargetDescriptor.TryMergeAsWritten | Sources/FrameGraph/VulkanBackend/VulkanRenderTargetDescriptor.swift:187-251 | as written: the same accept condition, but a pass rejected only by the visibility check leaves one more subpass than there are passes |
| RenderTargets.VulkanRenderTargetDescriptor.PreserveAt | Sources/FrameGraph/VulkanBackend/VulkanRenderTargetDescriptor.swift:317 | the subpass of the given pass lists the slot as preserved or binds it, and a preserved run ending just before that pass now covers it; input lists are unchanged, preserve lists only grow and every subpass keeps its invariant |
| RenderTargets.VulkanRenderTargetDescriptor.PreserveUpTo | Sources/FrameGraph/VulkanBackend/VulkanRenderTargetDescriptor.swift:310-320 | the walk to a use's subpass stays within the merged passes and reaches that subpass or a later one; on the first local use it jumps there without marking anything, and otherwise every subpass it passes lists the slot as preserved or binds it, extending the preserved run behind it; input lists are unchanged, preserve lists only grow and every subpass keeps its invariant (a preserved slot is never one it binds) |
| RenderTargets.VulkanRenderTargetDescriptor.RecordRead | Sources/FrameGraph/VulkanBackend/VulkanRenderTargetDescriptor.swift:324-329 | the use's subpass lists the attachment as an input attachment; input lists only grow, preserve lists are unchanged, so every preserved run stays preserved, and every subpass keeps its invariant |
| RenderTargets.VulkanRenderTargetDescriptor.VisitUsage | Sources/FrameGraph/VulkanBackend/VulkanRenderTargetDescriptor.swift:293-331 | one use: the scan stops exactly at a use that needs the contents later; the flags update as the scan specifies; a read inside the merged passes is recorded as an input attachment of its subpass; the walk ends at or after the use's subpass, and, once past the first local use, every subpass it passes preserves the slot or binds it; lists only grow and every subpass keeps its invariant |
| RenderTargets.VulkanRenderTargetDescriptor.ScanStep | Sources/FrameGraph/VulkanBackend/VulkanRenderTargetDescriptor.swift:293-331 | one use of the usage loop keeps the walk invariant (WalkInv) from the first k uses to the first k + 1, stops exactly at a use that needs the contents later, and updates the flags as the scan specifies; lists only grow and every subpass keeps its invariant |
| RenderTargets.WalkAdvance | Sources/FrameGraph/VulkanBackend/VulkanRenderTargetDescriptor.swift:310-329 | what one use establishes (the walk's new position, its jump flag, the read recorded, the run preserved) extends the walk invariant by that use |
| RenderTargets.ScanConcluded | Sources/FrameGraph/VulkanBackend/VulkanRenderTargetDescriptor.swift:293-331 | where the usage loop stops, the walk invariant gives InputsRecorded and ScanPreserved for all the uses the scan reaches |
| RenderTargets.VulkanRenderTargetDescriptor.ScanUsages | Sources/FrameGraph/VulkanBackend/VulkanRenderTargetDescriptor.swift:293-331 | the usage loop's flags are exactly the scan's; it stops at the first use that needs the contents after the merged passes, or one use later when that use is not local; the walk invariant (WalkInv) holds there: every read it visited is recorded and every subpass from the first jump up to the walk's position preserves the slot or binds it; lists only grow and every subpass keeps its invariant |
| RenderTargets.VulkanRenderTargetDescriptor.LoadAndStoreActions | Sources/FrameGraph/VulkanBackend/VulkanRenderTargetDescriptor.swift:262-345 | the chosen actions are exactly those specified for the merged passes, and a stored texture is appended to the stored list; every reading use the scan reaches is recorded as an input attachment of its subpass (InputsRecorded); every subpass from the first jump that comes before a used subpass preserves the slot or binds it (ScanPreserved); lists only grow and every subpass keeps its invariant, so no subpass preserves a slot it binds (SubpassesGrown) |
| RenderTargets.VulkanRenderTargetDescriptor.FinaliseColor | Sources/FrameGraph/VulkanBackend/VulkanRenderTargetDescriptor.swift:350-351 | one colour slot gets its specified actions, don't-care when empty, and its stored texture is appended; the input attachments recorded for earlier slots stay recorded and this slot's reads are added; a bound slot's preserved subpasses are those of ScanPreserved; lists only grow and every subpass keeps its invariant |
| RenderTargets.VulkanRenderTargetDescriptor.FinaliseColors | Sources/FrameGraph/VulkanBackend/VulkanRenderTargetDescriptor.swift:349-352 | each colour slot gets its specified actions, don't-care when empty, and its stored texture is appended in slot order; every bound colour slot's reads are recorded as input attachments; lists only grow and every subpass keeps its invariant |
| RenderTargets.VulkanRenderTargetDescriptor.FinaliseSlot | Sources/FrameGraph/VulkanBackend/VulkanRenderTargetDescriptor.swift:354-360 | a bound depth or stencil slot gets its specified actions and its texture is appended when stored; an empty one keeps its actions; the slot's reads are recorded as input attachments and its preserved subpasses are those of ScanPreserved; reads already recorded for the colour slots and the depth slot stay recorded; lists only grow and every subpass keeps its invariant |
| RenderTargets.VulkanRenderTargetDescriptor.FinaliseAttachments | Sources/FrameGraph/VulkanBackend/VulkanRenderTargetDescriptor.swift:349-360 | the colour, depth and stencil slots get their specified actions, stored textures are appended in that order, every bound attachment's reads are recorded as input attachments, lists only grow and every subpass keeps its invariant |
| RenderTargets.VulkanRenderTargetDescriptor.SetActions | Sources/FrameGraph/VulkanBackend/VulkanRenderTargetDescriptor.swift:349-359 | finalise stores the chosen colour, depth and stencil actions and changes nothing else |
| RenderTargets.VulkanRenderTargetDescriptor.Finalise | Sources/FrameGraph/VulkanBackend/VulkanRenderTargetDescriptor.swift:347-361 | every attachment's actions are the specified ones, the stored textures are appended in colour, depth, stencil order, the clear values and everything else but the actions are unchanged, and the descriptor stays valid; lists only grow, every subpass keeps its invariant, and for every bound attachment each reading use the scan reaches lists it as an input attachment of its subpass |
| RenderTargets.VulkanRenderTargetDescriptor.DescriptorMergedWithPass | Sources/FrameGraph/VulkanBackend/VulkanRenderTargetDescriptor.swift:253-260 | a pass that can merge joins this descriptor; otherwise this descriptor is finalised, its stored textures appended, and a fresh descriptor starts with the pass alone |

## Left out

- Threads, locks and atomics are not modelled. This includes the dispatch of the frame-graph job
  manager (FrameGraphJobManager.swift is not part of this model), the locks around binding
  translation and byte copies, and the context's `DispatchSemaphore`, of which only the signal is
  recorded as an event. Every operation is treated as sequential.
- Backend calls are not modelled. These are the Vulkan, VMA, Metal and SPIRV-Cross calls, command
  buffer creation and presentation, and the present queue. Their results that the modelled code
  inspects are parameters: the queue family properties, the resource usages, the encoders' buffer
  indices and wait values, and whether a queue has a sync event.
- The spin-wait on a queue without a sync event (FrameGraphContext.swift:162-164) is one event,
  not a loop on the completed value.
- GPU timestamps and the completion's elapsed time are floating point and are not modelled. The
  frame's command generation and resource-command compaction (FrameGraphContext.swift:83-86) are
  not modelled either; the encoders they produce are inputs.
- `Target.defaultTarget` depends on the build platform, and `MetalCompiler.compile` runs external
  tools, so neither is modelled.
- Raw memory management is not modelled: allocation and freeing of the resource maps' buffers,
  every `deinit`, and the argument buffers' registry chunks. Handles are unpacked records. Their
  bit layout (the shifts) is a `HandleLayout` parameter rather than the registry's constants.
- ResourceMaps.PersistentResourceMap.WithValue, ResourceMaps.TransientResourceMap.WithValue and
  ResourceMaps.ResourceMap.WithValue model the value pointer as a read of the slot's value plus an
  optional write. Keys and values share one slot, so a write into a slot whose key is the invalid
  handle is dropped. In the source it initialises memory that no key-driven operation can reach.
  Address arithmetic and aliasing of the pointer are not modelled.
- ResourceMaps.PersistentResourceMap.ForEach, ResourceMaps.PersistentResourceMap.ForEachMutating,
  ResourceMaps.TransientResourceMap.ForEach, ResourceMaps.TransientResourceMap.ForEachMutating,
  ResourceMaps.ResourceMap.ForEach and ResourceMaps.ResourceMap.ForEachMutating take bodies that
  cannot throw. The source's `rethrows` lets a throwing body stop
  the traversal part way; the model always visits every live entry.
- ArgumentEncoding.FlagBits and ArgumentEncoding.TypeCode use raw values of the model's own
  choosing: bits 1, 2, 4 and 8 for the four modelled flags, and codes 1, 2, 3, 5 and 6 for the
  resource types. `ResourceFlags.rawValue` and `ResourceType.rawValue`, which
  ArgumentEncoding.swift:129 shifts into the handle, are defined outside these files. So the bound
  that these fields fit in four and three bits, and the four-bit gap `ValidLayout` demands between
  the shifts, hold for the model's values, not necessarily the source's. ArgumentEncoding.PackUnpack
  does not depend on the choice: it holds for any field values that fit their widths.
- ResourceMaps.ResourceMap.PrepareFrame takes the registries' capacities as parameters. The
  per-registry switches that compute them (ResourceMap.swift:24-39, 230-245) are not modelled.
- `_usesPersistentRegistry` is defined outside these files. It is modelled as "the handle has the
  persistent flag".
- The argument buffer's `setValue` (ArgumentEncoding.swift:601-618) is not modelled; it reinterprets
  a typed value as raw bytes. `ArgumentBufferArray.reserveCapacity` (703-705) is not modelled
  either: it only pre-sizes storage, and Subscript grows the child list as needed.
- ArgumentEncoding.ArgumentBufferArrayRecord.WaitIndex is modelled, but it always returns 0 in the
  source, so it has no row of its own.
- VulkanImages.Matches compares sharing modes with equality. The source uses its `~=` pattern
  operator (VulkanImage.swift:275), which is defined elsewhere.
- `allAspects` (VulkanImage.swift:260-262) and the image's last-usage fields are not modelled.
- The conversions from texture type to `VkImageType` and `VkImageViewType` are defined elsewhere.
  They are modelled as total functions of the texture type.
- Clear colours, depths and stencils are opaque integer tokens.
- The initial and final image layouts of render-target attachments are not modelled.
- Whether a usage reads its texture or is a render-target use is an input of each usage record.
- The warnings the source prints are not modelled.
- Forced downcasts (`as!`) are assumed to succeed.
- RenderTargets.VulkanRenderTargetDescriptor.LoadAndStoreActions is weaker than the source's
  intent. For the subpass lists it proves three things. Every reading use the scan reaches is an
  input attachment of its subpass (InputsRecorded). Every subpass from the walk's first jump that
  comes before a used subpass preserves the slot or binds it (ScanPreserved). Lists only grow and
  every subpass keeps VulkanSubpass.Valid, so no subpass preserves a slot it binds (SubpassesGrown).
  It does not prove that the scan marks no other subpass, so the exact preserved set is not stated.
- RenderTargets.VulkanRenderTargetDescriptor.FinaliseColors, RenderTargets.VulkanRenderTargetDescriptor.FinaliseAttachments
  and RenderTargets.VulkanRenderTargetDescriptor.Finalise carry InputsRecorded for every slot and
  SubpassesGrown. They do not carry ScanPreserved. FinaliseColor and FinaliseSlot state it only
  for the slot they finalise, not for the slots finalised before.
- RenderTargets.VulkanRenderTargetDescriptor.DescriptorMergedWithPass uses the corrected TryMerge,
  not TryMergeAsWritten.
- ResourceMaps.ResourceMap.RemoveAllIterating uses the corrected persistent-map traversal, not
  RemoveAllIteratingAsWritten.
- VulkanImages.FromTextureDescriptor requires a non-empty usage set, which the source asserts at
  line 238. It also requires every count to fit in UInt32, where the source's conversion would
  trap.
- VulkanImages.AttachmentRange and VulkanImages.VulkanImage.ViewForAttachment require the level,
  slice and depth plane to fit in UInt32. The source's `UInt32(...)` conversions
  (VulkanImage.swift:194-195) would trap on larger values; the model leaves that trap out.
- RenderTargets.VulkanRenderTargetDescriptor.TryMerge, RenderTargets.VulkanRenderTargetDescriptor.Absorb,
  RenderTargets.VulkanRenderTargetDescriptor.TryMergeAsWritten and
  RenderTargets.VulkanRenderTargetDescriptor.DescriptorMergedWithPass require the pass to come
  directly after the descriptor's last pass. The source's `tryMerge` (VulkanRenderTargetDescriptor.swift:187-251)
  accepts any pass. Only the later assertion at VulkanRenderTargetDescriptor.swift:282, that the
  pass indices form a range as long as the pass list, shows that callers merge consecutive passes.
  The model makes this a precondition, so merging a non-consecutive pass is not modelled.
- VulkanDevice.QueueFamilyIndex requires the requested capabilities to include the required ones,
  which the source asserts at line 176. The source's fatal error at line 198 is the `None` result.
- ArgumentEncoding.PersistentRegistries.Dispose stands for `PersistentArgumentBufferRegistry.dispose`
  (called at ArgumentEncoding.swift:379), which is defined elsewhere. It is modelled as a +1 bump of
  the slot's generation, with no wrap-around of the generation counter. The same holds where
  ArgumentEncoding.ArgumentBufferRecord.Dispose and ArgumentEncoding.ArgumentBufferArrayRecord.Dispose
  rely on it.
- ArgumentEncoding.ArgumentBufferRecord.SetBuffer, ArgumentEncoding.ArgumentBufferRecord.SetTexture,
  ArgumentEncoding.ArgumentBufferRecord.SetBuffers and ArgumentEncoding.ArgumentBufferRecord.SetTextures
  require a persistent argument buffer to receive only persistent resources. This mirrors the debug
  assertions at ArgumentEncoding.swift:579 and 587; a release build would not check it.
- ShaderTargets.MakeMSLVersion requires major·10000 + minor·100 + patch to fit in UInt32. The
  source's `UInt32(...)` conversion (Targets.swift:127) would trap otherwise. The only call
  (Targets.swift:143, version 2.1.0) meets the requirement.

## Findings

| source | as written | input that shows it | evidently intended | confidence | as-written member | corrected member |
|---|---|---|---|---|---|---|
| Sources/FrameGraph/VulkanBackend/VulkanDevice.swift:110-114 | one `VkDeviceQueueCreateInfo` with queue count 1 per activated queue of a non-graphics family, so a family with several queues appears several times | families [graphics+compute+transfer with 1 queue, compute+transfer with 2 queues] | one create info per family with that family's queue count, since Vulkan requires each family to appear once | not executed | VulkanDevice.SelectQueuesAsWritten (with VulkanDevice.AsWrittenRepeatsFamilies, VulkanDevice.DuplicateCreateInfoExample) | VulkanDevice.SelectQueues (with VulkanDevice.SelectedInfosUnique) |
| Sources/FrameGraph/FrameGraph/ResourceMap.swift:174 | the persistent map's `removeAll(iterating:)` reports every entry with `isPersistent` false | any persistent map holding one live entry | entries of the persistent map reported as persistent | not executed | ResourceMaps.PersistentResourceMap.RemoveAllIteratingAsWritten | ResourceMaps.PersistentResourceMap.RemoveAllIterating |
| Sources/FrameGraph/VulkanBackend/VulkanRenderTargetDescriptor.swift:228-241 | `tryMerge` appends the pass's subpass before checking the visibility-result buffer, so a pass rejected by that check leaves its subpass behind | a descriptor with visibility buffer 1 and a following pass with the same attachments, no clears and visibility buffer 2 | reject before changing anything, so there is one subpass per merged pass | not executed | RenderTargets.VulkanRenderTargetDescriptor.TryMergeAsWritten (with RenderTargets.VisibilityRejectsAfterSlots) | RenderTargets.VulkanRenderTargetDescriptor.TryMerge |

=== FILE: argument_encoding.dfy ===
/** Argument buffers: bindings recorded against function-argument keys and
    resolved later to binding paths, inline bytes copied into a store that
    hands back offsets, per-queue wait indices, handle packing, disposal and
    the lazily filled arrays of child argument buffers. */
module ArgumentEncoding {
  import opened Common

  // ---------------------------------------------------------------------
  // Binding paths and function-argument keys

  datatype RenderStage = VertexStage | FragmentStage | ComputeStage

  /** Metal's argument types, as far as a binding path records them. */
  datatype ArgumentKind = BufferArgument | TextureArgument | SamplerArgument | ThreadgroupMemoryArgument

  /** Where a resource is bound: stages, argument type, enclosing argument
      buffer (if any) and index. */
  datatype BindingPath = BindingPath(stages: set<RenderStage>, argumentType: ArgumentKind,
                                     argumentBufferIndex: Option<nat>, index: nat)

  /** A function-argument key: a name (a string, a string-backed enum case or
      a coding key), or a Metal argument addressed by type and index. */
  datatype FunctionArgumentKey =
    | NamedKey(name: string)
    | MetalIndexed(argumentType: ArgumentKind, index: nat, stages: set<RenderStage>)

  /** The pipeline-reflection lookup, supplied by the backend. */
  type Reflection = (FunctionArgumentKey, nat, Option<BindingPath>) -> Option<BindingPath>

  /** The path a key names by itself: only Metal indexed keys name one, at
      their index plus the array index. */
  function OwnBindingPath(key: FunctionArgumentKey, arrayIndex: nat): (r: Option<BindingPath>)
    ensures r.Some? <==> key.MetalIndexed?
    ensures r.Some? ==> r.value.index == key.index + arrayIndex
                        && r.value.argumentType == key.argumentType
                        && r.value.stages == key.stages
                        && r.value.argumentBufferIndex.None?
  {
    match key
    case MetalIndexed(t, index, stages) => Some(BindingPath(stages, t, None, index + arrayIndex))
    case NamedKey(_) => None
  }

  /** A key's own path wins; reflection is consulted only without one. */
  function ResolveBindingPath(key: FunctionArgumentKey, argumentBufferPath: Option<BindingPath>,
                              arrayIndex: nat, reflection: Reflection): (r: Option<BindingPath>)
    ensures OwnBindingPath(key, arrayIndex).Some? ==> r == OwnBindingPath(key, arrayIndex)
    ensures OwnBindingPath(key, arrayIndex).None? ==> r == reflection(key, arrayIndex, argumentBufferPath)
  {
    match OwnBindingPath(key, arrayIndex)
    case Some(path) => Some(path)
    case None => reflection(key, arrayIndex, argumentBufferPath)
  }

  /** The path of the first array element outside any argument buffer. */
  function ComputedBindingPath(key: FunctionArgumentKey, reflection: Reflection): (r: Option<BindingPath>)
    ensures r == ResolveBindingPath(key, None, 0, reflection)
  {
    match OwnBindingPath(key, 0)
    case Some(path) => Some(path)
    case None => reflection(key, 0, None)
  }

  /** A Metal indexed key resolves the same way whatever reflection says. */
  lemma MetalIndexedIgnoresReflection(key: FunctionArgumentKey, path: Option<BindingPath>,
                                      arrayIndex: nat, a: Reflection, b: Reflection)
    requires key.MetalIndexed?
    ensures ResolveBindingPath(key, path, arrayIndex, a) == ResolveBindingPath(key, path, arrayIndex, b)
    ensures ResolveBindingPath(key, path, arrayIndex, a).Some?
  {
  }

  // ---------------------------------------------------------------------
  // Handle packing

  /** Where the flag and type fields start in a 64-bit handle; the index
      occupies the bits below the flags. */
  datatype HandleLayout = HandleLayout(flagShift: nat, typeShift: nat)

  /** The four modelled flags need four bits between the two fields. */
  predicate ValidLayout(layout: HandleLayout) {
    0 < layout.flagShift && layout.flagShift + 4 <= layout.typeShift < 64
  }

  function Pow2(n: nat): (r: nat)
    ensures r >= 1
  {
    if n == 0 then 1 else 2 * Pow2(n - 1)
  }

  lemma {:induction false} Pow2Add(a: nat, b: nat)
    ensures Pow2(a + b) == Pow2(a) * Pow2(b)
  {
    if b > 0 {
      Pow2Add(a, b - 1);
      assert Pow2(a + b) == 2 * Pow2(a + b - 1);
    }
  }

  lemma {:induction false} Pow2Monotone(a: nat, b: nat)
    requires a <= b
    ensures Pow2(a) <= Pow2(b)
  {
    if a < b {
      Pow2Monotone(a, b - 1);
    }
  }

  /** The raw value of a flag set: one bit per flag. */
  function FlagBits(flags: set<ResourceFlag>): (r: nat)
    ensures r < 16
  {
    (if Persistent in flags then 1 else 0) + (if WindowHandle in flags then 2 else 0)
    + (if HistoryBuffer in flags then 4 else 0) + (if ResourceView in flags then 8 else 0)
  }

  /** The flag set a raw value stands for. */
  function FlagsOfBits(bits: nat): set<ResourceFlag>
  {
    (if bits % 2 == 1 then {Persistent} else {}) + (if bits / 2 % 2 == 1 then {WindowHandle} else {})
    + (if bits / 4 % 2 == 1 then {HistoryBuffer} else {}) + (if bits / 8 % 2 == 1 then {ResourceView} else {})
  }

  /** Flag sets survive the round trip through their raw value. */
  lemma FlagBitsRoundTrip(flags: set<ResourceFlag>)
    ensures FlagsOfBits(FlagBits(flags)) == flags
  {
    var decoded := FlagsOfBits(FlagBits(flags));
    forall f ensures f in decoded <==> f in flags {
      match f
      case Persistent =>
      case WindowHandle =>
      case HistoryBuffer =>
      case ResourceView =>
    }
  }

  /** The raw type codes of the resource kinds. */
  function TypeCode(t: ResourceType): (r: nat)
    ensures r < 8
  {
    match t
    case Buffer => 1
    case Texture => 2
    case Heap => 3
    case ArgumentBuffer => 5
    case ArgumentBufferArray => 6
  }

  lemma TypeCodeInjective(a: ResourceType, b: ResourceType)
    ensures TypeCode(a) == TypeCode(b) ==> a == b
  {
  }

  /** index | flags << flagShift | type << typeShift; the three fields do not
      overlap, so the bitwise or is a sum. */
  function PackHandle(index: nat, flagBits: nat, typeCode: nat, layout: HandleLayout): nat
    requires ValidLayout(layout)
  {
    index + flagBits * Pow2(layout.flagShift) + typeCode * Pow2(layout.typeShift)
  }

  datatype HandleFields = HandleFields(index: nat, flagBits: nat, typeCode: nat)

  /** Natural-number quotient and remainder, for the shifts and masks of a
      handle. */
  function Quot(a: nat, b: nat): nat
    requires b >= 1
  {
    a / b
  }

  function Rem(a: nat, b: nat): nat
    requires b >= 1
  {
    a % b
  }

  function UnpackHandle(handle: nat, layout: HandleLayout): HandleFields
    requires ValidLayout(layout)
  {
    var low := Pow2(layout.flagShift);
    var fieldWidth := Pow2(layout.typeShift - layout.flagShift);
    var high := Quot(handle, low);
    HandleFields(Rem(handle, low), Rem(high, fieldWidth), Quot(high, fieldWidth))
  }

  lemma RegroupHandle(index: int, flagBits: int, typeCode: int, a: int, b: int)
    ensures index + flagBits * a + typeCode * (a * b) == (flagBits + typeCode * b) * a + index
  {
  }

  /** Each field is read back unchanged from a packed handle. */
  lemma {:induction false} PackUnpack(index: nat, flagBits: nat, typeCode: nat, layout: HandleLayout)
    requires ValidLayout(layout)
    requires index < Pow2(layout.flagShift)
    requires flagBits < Pow2(layout.typeShift - layout.flagShift)
    ensures UnpackHandle(PackHandle(index, flagBits, typeCode, layout), layout)
            == HandleFields(index, flagBits, typeCode)
  {
    var a := Pow2(layout.flagShift);
    var b := Pow2(layout.typeShift - layout.flagShift);
    Pow2Add(layout.flagShift, layout.typeShift - layout.flagShift);
    assert Pow2(layout.typeShift) == a * b;
    var h := PackHandle(index, flagBits, typeCode, layout);
    RegroupHandle(index, flagBits, typeCode, a, b);
    DivModUnique(h, a, flagBits + typeCode * b, index);
    DivModUnique(flagBits + typeCode * b, b, typeCode, flagBits);
  }

  /** The handle of a new argument buffer (or argument-buffer array) for the
      slot index its registry handed out; a history-buffer flag is refused. */
  function NewHandle(kind: ResourceType, index: nat, flags: set<ResourceFlag>, layout: HandleLayout): (h: Option<nat>)
    requires kind == ArgumentBuffer || kind == ArgumentBufferArray
    requires ValidLayout(layout) && index < Pow2(layout.flagShift)
    ensures h.None? <==> HistoryBuffer in flags
    ensures h.Some? ==> UnpackHandle(h.value, layout) == HandleFields(index, FlagBits(flags), TypeCode(kind))
    ensures h.Some? ==> FlagsOfBits(UnpackHandle(h.value, layout).flagBits) == flags
  {
    if HistoryBuffer in flags then None
    else
      Pow2Monotone(4, layout.typeShift - layout.flagShift);
      PackUnpack(index, FlagBits(flags), TypeCode(kind), layout);
      FlagBitsRoundTrip(flags);
      Some(PackHandle(index, FlagBits(flags), TypeCode(kind), layout))
  }

  /** The handle of a child argument buffer created by an array; this path
      does not check the history-buffer flag. */
  function ChildHandle(index: nat, flags: set<ResourceFlag>, layout: HandleLayout): (h: nat)
    requires ValidLayout(layout) && index < Pow2(layout.flagShift)
    ensures UnpackHandle(h, layout) == HandleFields(index, FlagBits(flags), TypeCode(ArgumentBuffer))
  {
    Pow2Monotone(4, layout.typeShift - layout.flagShift);
    PackUnpack(index, FlagBits(flags), TypeCode(ArgumentBuffer), layout);
    PackHandle(index, FlagBits(flags), TypeCode(ArgumentBuffer), layout)
  }

  // ---------------------------------------------------------------------
  // Enqueued bindings and their translation

  /** Sampler state; its fields do not matter here. */
  datatype SamplerDescriptor = SamplerDescriptor(settings: seq<nat>)

  /** What an argument binds; for bytes, the offset and length of the data in
      the inline store. */
  datatype ArgumentResource =
    | BufferBinding(buffer: Resource, offset: nat)
    | TextureBinding(texture: Resource)
    | SamplerBinding(sampler: SamplerDescriptor)
    | BytesBinding(offset: nat, length: nat)

  datatype EnqueuedBinding = EnqueuedBinding(key: FunctionArgumentKey, arrayIndex: nat, resource: ArgumentResource)

  datatype ResolvedBinding = ResolvedBinding(path: BindingPath, resource: ArgumentResource)

  type Resolver = (FunctionArgumentKey, nat, ArgumentResource) -> Option<BindingPath>

  function Resolve(resolve: Resolver, e: EnqueuedBinding): Option<BindingPath> {
    resolve(e.key, e.arrayIndex, e.resource)
  }

  /** The entries the resolver leaves unresolved, in order. */
  function Unresolved(s: seq<EnqueuedBinding>, resolve: Resolver): seq<EnqueuedBinding>
  {
    if s == [] then []
    else
      var last := s[|s| - 1];
      Unresolved(s[..|s| - 1], resolve) + (if Resolve(resolve, last).None? then [last] else [])
  }

  /** The resolved entries, in order, paired with their paths. */
  function Resolved(s: seq<EnqueuedBinding>, resolve: Resolver): seq<ResolvedBinding>
  {
    if s == [] then []
    else
      var last := s[|s| - 1];
      Resolved(s[..|s| - 1], resolve)
      + (match Resolve(resolve, last)
         case Some(path) => [ResolvedBinding(path, last.resource)]
         case None => [])
  }

  /** translateEnqueuedBindings after the first k original entries: the
      unresolved ones among them, then the rest untouched, pending; the
      scan index at the first untouched entry. */
  predicate PendingAfter(original: seq<EnqueuedBinding>, k: nat, resolve: Resolver,
                         pending: seq<EnqueuedBinding>, i: nat)
  {
    && k <= |original|
    && pending == Unresolved(original[..k], resolve) + original[k..]
    && i == |Unresolved(original[..k], resolve)|
  }

  /** One more entry of the pending list: a resolved entry leaves the
      list and joins the resolved bindings, an unresolved one stays. */
  lemma PendingStep(original: seq<EnqueuedBinding>, k: nat, resolve: Resolver, pending: seq<EnqueuedBinding>, i: nat)
    requires PendingAfter(original, k, resolve, pending, i) && k < |original|
    ensures i < |pending| && pending[i] == original[k]
    ensures Resolve(resolve, original[k]).Some? ==>
              PendingAfter(original, k + 1, resolve, pending[..i] + pending[i + 1..], i)
    ensures Resolve(resolve, original[k]).None? ==> PendingAfter(original, k + 1, resolve, pending, i + 1)
    ensures Resolved(original[..k + 1], resolve)
            == Resolved(original[..k], resolve)
               + (match Resolve(resolve, original[k])
                  case Some(path) => [ResolvedBinding(path, original[k].resource)]
                  case None => [])
  {
    var u := Unresolved(original[..k], resolve);
    assert original[..k + 1][..k] == original[..k];
    assert original[k..] == [original[k]] + original[k + 1..];
    assert pending[i] == original[k];
    if Resolve(resolve, original[k]).Some? {
      assert pending[..i] == u;
      assert pending[i + 1..] == original[k + 1..];
    } else {
      assert pending == (u + [original[k]]) + original[k + 1..];
    }
  }

  /** Translation neither loses nor invents bindings. */
  lemma {:induction false} TranslationConserves(s: seq<EnqueuedBinding>, resolve: Resolver)
    ensures |Unresolved(s, resolve)| + |Resolved(s, resolve)| == |s|
  {
    if s != [] {
      TranslationConserves(s[..|s| - 1], resolve);
    }
  }

  /** An entry stays enqueued exactly when the resolver has no path for it,
      and every resolved binding carries the path the resolver gave. */
  lemma {:induction false} TranslationPartitions(s: seq<EnqueuedBinding>, resolve: Resolver)
    ensures forall e :: e in Unresolved(s, resolve) <==> e in s && Resolve(resolve, e).None?
    ensures forall b :: b in Resolved(s, resolve) ==>
              exists e :: e in s && Resolve(resolve, e) == Some(b.path) && e.resource == b.resource
  {
    if s != [] {
      var prefix := s[..|s| - 1];
      TranslationPartitions(prefix, resolve);
      assert s == prefix + [s[|s| - 1]];
    }
  }

  /** A second translation with the same resolver moves nothing. */
  lemma {:induction false} TranslationIdempotent(s: seq<EnqueuedBinding>, resolve: Resolver)
    ensures Unresolved(Unresolved(s, resolve), resolve) == Unresolved(s, resolve)
    ensures Resolved(Unresolved(s, resolve), resolve) == []
  {
    if s != [] {
      var prefix := s[..|s| - 1];
      TranslationIdempotent(prefix, resolve);
      var u := Unresolved(prefix, resolve);
      var last := s[|s| - 1];
      if Resolve(resolve, last).None? {
        var v := u + [last];
        assert Unresolved(s, resolve) == v;
        assert v[..|v| - 1] == u && v[|v| - 1] == last;
        assert Unresolved(v, resolve) == Unresolved(u, resolve) + [last];
        assert Resolved(v, resolve) == Resolved(u, resolve);
      } else {
        assert Unresolved(s, resolve) == u;
      }
    }
  }

  // ---------------------------------------------------------------------
  // Registries

  datatype ResourceAccessType = Read | Write | ReadWrite

  /** A slot's generation in a registry's table; a slot never disposed of is
      at generation 0. */
  function GenerationIn(generations: map<(ResourceType, nat), nat>, kind: ResourceType, index: nat): nat
  {
    if (kind, index) in generations then generations[(kind, index)] else 0
  }

  /** The generation table after the handles are disposed of in order, each
      disposal advancing its slot by one. */
  function AfterDisposals(generations: map<(ResourceType, nat), nat>, rs: seq<Resource>): map<(ResourceType, nat), nat>
  {
    if rs == [] then generations
    else
      var g := AfterDisposals(generations, rs[..|rs| - 1]);
      var r := rs[|rs| - 1];
      g[(r.kind, r.index) := GenerationIn(g, r.kind, r.index) + 1]
  }

  /** How many of the handles name the slot (kind, index). */
  function DisposalsOf(rs: seq<Resource>, kind: ResourceType, index: nat): nat
  {
    if rs == [] then 0
    else
      var r := rs[|rs| - 1];
      DisposalsOf(rs[..|rs| - 1], kind, index) + (if r.kind == kind && r.index == index then 1 else 0)
  }

  /** A slot is named by some handle exactly when it is counted. */
  lemma {:induction false} DisposalsOfNamed(rs: seq<Resource>, kind: ResourceType, index: nat)
    ensures DisposalsOf(rs, kind, index) > 0 <==> exists r :: r in rs && r.kind == kind && r.index == index
  {
    if rs != [] {
      var prefix := rs[..|rs| - 1];
      DisposalsOfNamed(prefix, kind, index);
      assert rs == prefix + [rs[|rs| - 1]];
    }
  }

  /** Disposing of a sequence of handles advances every slot by the number
      of handles naming it, and no other slot moves. */
  lemma {:induction false} AfterDisposalsGeneration(generations: map<(ResourceType, nat), nat>, rs: seq<Resource>,
                                                   kind: ResourceType, index: nat)
    ensures GenerationIn(AfterDisposals(generations, rs), kind, index)
              == GenerationIn(generations, kind, index) + DisposalsOf(rs, kind, index)
  {
    if rs != [] {
      AfterDisposalsGeneration(generations, rs[..|rs| - 1], kind, index);
    }
  }

  /** The persistent registries, reduced to what the modelled code uses: a
      generation per slot of each kind, and the order of disposals. */
  class PersistentRegistries {
    var generations: map<(ResourceType, nat), nat>
    var disposed: seq<Resource>

    constructor()
      ensures generations == map[] && disposed == []
    {
      generations := map[];
      disposed := [];
    }

    function Generation(kind: ResourceType, index: nat): nat
      reads this
    {
      GenerationIn(generations, kind, index)
    }

    /** Disposal frees the slot and bumps its generation, so every handle
        stamped with the old generation becomes stale. */
    method Dispose(r: Resource)
      modifies this
      ensures generations == old(generations)[(r.kind, r.index) := old(Generation(r.kind, r.index)) + 1]
      ensures disposed == old(disposed) + [r]
    {
      generations := generations[(r.kind, r.index) := Generation(r.kind, r.index) + 1];
      disposed := disposed + [r];
    }
  }

  /** One frame context's transient argument-buffer registry: its current
      generation and the inline byte store all its buffers share. */
  class TransientRegistry {
    var generation: nat
    var inlineData: seq<bv8>

    constructor(generation: nat)
      ensures this.generation == generation && inlineData == []
    {
      this.generation := generation;
      inlineData := [];
    }
  }

  /** Whether a handle is still live: its generation matches its persistent
      slot's, or its transient registry's. */
  function IsValidHandle(r: Resource, persistent: PersistentRegistries, transient: TransientRegistry): bool
    reads persistent, transient
  {
    if UsesPersistentRegistry(r) then persistent.Generation(r.kind, r.index) == r.generation
    else transient.generation == r.generation
  }

  /** The registry state of one argument buffer. */
  class ArgumentBufferRecord {
    const handle: Resource
    const registries: PersistentRegistries
    const transientRegistry: TransientRegistry
    var enqueuedBindings: seq<EnqueuedBinding>
    var bindings: seq<ResolvedBinding>
    /** Inline bytes of a persistent buffer; transient buffers use their
        registry's shared store instead. */
    var inlineData: seq<bv8>
    var readWaitIndices: seq<nat>
    var writeWaitIndices: seq<nat>

    /** The per-queue tables cover the same queues. */
    ghost predicate Valid()
      reads this
    {
      |readWaitIndices| == |writeWaitIndices|
    }

    /** A fresh record for an allocated slot, with one wait index per queue;
        argument buffers may not be history buffers. */
    constructor(flags: set<ResourceFlag>, index: nat, registries: PersistentRegistries,
                transientRegistry: TransientRegistry, queueCount: nat)
      requires HistoryBuffer !in flags
      ensures Valid()
      ensures handle.kind == ArgumentBuffer && handle.flags == flags && handle.index == index
      ensures IsValidHandle(handle, registries, transientRegistry)
      ensures this.registries == registries && this.transientRegistry == transientRegistry
      ensures enqueuedBindings == [] && bindings == [] && inlineData == []
      ensures |readWaitIndices| == queueCount
      ensures forall q :: 0 <= q < queueCount ==> readWaitIndices[q] == 0 && writeWaitIndices[q] == 0
    {
      var generation := if Persistent in flags then registries.Generation(ArgumentBuffer, index)
                        else transientRegistry.generation;
      handle := Resource(ArgumentBuffer, flags, index, generation);
      this.registries := registries;
      this.transientRegistry := transientRegistry;
      enqueuedBindings := [];
      bindings := [];
      inlineData := [];
      readWaitIndices := seq(queueCount, _ => 0);
      writeWaitIndices := seq(queueCount, _ => 0);
    }

    /** The inline store this buffer's bytes go to. */
    function Store(): seq<bv8>
      reads this, transientRegistry
    {
      if UsesPersistentRegistry(handle) then inlineData else transientRegistry.inlineData
    }

    /** translateEnqueuedBindings: every entry the resolver maps to a path
        moves, in order, from the pending list to the resolved bindings; the
        others stay pending in order. */
    method TranslateEnqueuedBindings(resolve: Resolver)
      modifies this
      ensures enqueuedBindings == Unresolved(old(enqueuedBindings), resolve)
      ensures bindings == old(bindings) + Resolved(old(enqueuedBindings), resolve)
      ensures inlineData == old(inlineData)
      ensures readWaitIndices == old(readWaitIndices) && writeWaitIndices == old(writeWaitIndices)
    {
      ghost var original := enqueuedBindings;
      ghost var k := 0;
      var pending, resolved := enqueuedBindings, bindings;
      var i := 0;
      while i < |pending|
        invariant PendingAfter(original, k, resolve, pending, i)
        invariant resolved == old(bindings) + Resolved(original[..k], resolve)
        invariant unchanged(this)
        decreases |original| - k
      {
        PendingStep(original, k, resolve, pending, i);
        var entry := pending[i];
        match resolve(entry.key, entry.arrayIndex, entry.resource) {
          case Some(path) =>
            pending := pending[..i] + pending[i + 1..];
            resolved := resolved + [ResolvedBinding(path, entry.resource)];
          case None =>
            i := i + 1;
        }
        k := k + 1;
      }
      assert original[..k] == original;
      enqueuedBindings, bindings := pending, resolved;
    }

    /** _copyBytes: appends the bytes to the buffer's inline store and returns
        the store's length before the append, which is where they start. */
    method CopyBytes(bytes: seq<bv8>) returns (offset: nat)
      modifies this, transientRegistry
      ensures offset == |old(Store())|
      ensures Store() == old(Store()) + bytes
      ensures UsesPersistentRegistry(handle) ==> transientRegistry.inlineData == old(transientRegistry.inlineData)
      ensures !UsesPersistentRegistry(handle) ==> inlineData == old(inlineData)
      ensures transientRegistry.generation == old(transientRegistry.generation)
      ensures enqueuedBindings == old(enqueuedBindings) && bindings == old(bindings)
      ensures readWaitIndices == old(readWaitIndices) && writeWaitIndices == old(writeWaitIndices)
    {
      if UsesPersistentRegistry(handle) {
        offset := |inlineData|;
        inlineData := inlineData + bytes;
      } else {
        offset := |transientRegistry.inlineData|;
        transientRegistry.inlineData := transientRegistry.inlineData + bytes;
      }
    }

    /** The wait index recorded for a queue: transient buffers have none;
        a read looks at the read table, anything else at the write table. */
    function WaitIndex(queue: nat, access: ResourceAccessType): (w: nat)
      reads this
      requires Valid() && queue < |readWaitIndices|
      ensures !UsesPersistentRegistry(handle) ==> w == 0
      ensures UsesPersistentRegistry(handle) && access == Read ==> w == readWaitIndices[queue]
      ensures UsesPersistentRegistry(handle) && access != Read ==> w == writeWaitIndices[queue]
    {
      if !UsesPersistentRegistry(handle) then 0
      else if access == Read then readWaitIndices[queue]
      else writeWaitIndices[queue]
    }

    /** Records a wait index: reads set the read entry, writes the write
        entry, read-write both; transient buffers ignore it. */
    method SetWaitIndex(queue: nat, access: ResourceAccessType, value: nat)
      requires Valid() && queue < |readWaitIndices|
      modifies this
      ensures Valid()
      ensures !UsesPersistentRegistry(handle) ==>
                readWaitIndices == old(readWaitIndices) && writeWaitIndices == old(writeWaitIndices)
      ensures UsesPersistentRegistry(handle) ==>
                && readWaitIndices == (if access != Write then old(readWaitIndices)[queue := value] else old(readWaitIndices))
                && writeWaitIndices == (if access != Read then old(writeWaitIndices)[queue := value] else old(writeWaitIndices))
      ensures enqueuedBindings == old(enqueuedBindings) && bindings == old(bindings)
      ensures inlineData == old(inlineData)
    {
      if !UsesPersistentRegistry(handle) {
        return;
      }
      if access == Read || access == ReadWrite {
        readWaitIndices := readWaitIndices[queue := value];
      }
      if access == Write || access == ReadWrite {
        writeWaitIndices := writeWaitIndices[queue := value];
      }
    }

    function IsValid(): (b: bool)
      reads this, registries, transientRegistry
      ensures b <==> IsValidHandle(handle, registries, transientRegistry)
    {
      if UsesPersistentRegistry(handle) then registries.Generation(handle.kind, handle.index) == handle.generation
      else transientRegistry.generation == handle.generation
    }

    /** dispose: a persistent buffer goes back to its registry and its handle
        goes stale; a transient one is left to its frame's reset. */
    method Dispose()
      modifies registries
      ensures UsesPersistentRegistry(handle) ==>
                && registries.disposed == old(registries.disposed) + [handle]
                && registries.generations == old(registries.generations)
                     [(handle.kind, handle.index) := old(registries.Generation(handle.kind, handle.index)) + 1]
                && (old(IsValid()) ==> !IsValid())
      ensures !UsesPersistentRegistry(handle) ==> unchanged(registries)
    {
      if !UsesPersistentRegistry(handle) {
        return;
      }
      registries.Dispose(handle);
    }

    /** setBuffer: a missing buffer records nothing; a persistent argument
        buffer may only hold persistent buffers. */
    method SetBuffer(buffer: Option<Resource>, offset: nat, key: FunctionArgumentKey, arrayIndex: nat)
      requires buffer.Some? && UsesPersistentRegistry(handle) ==> UsesPersistentRegistry(buffer.value)
      modifies this
      ensures buffer.None? ==> enqueuedBindings == old(enqueuedBindings)
      ensures buffer.Some? ==>
                enqueuedBindings == old(enqueuedBindings) + [EnqueuedBinding(key, arrayIndex, BufferBinding(buffer.value, offset))]
      ensures bindings == old(bindings) && inlineData == old(inlineData)
      ensures readWaitIndices == old(readWaitIndices) && writeWaitIndices == old(writeWaitIndices)
    {
      match buffer {
        case None =>
        case Some(b) =>
          enqueuedBindings := enqueuedBindings + [EnqueuedBinding(key, arrayIndex, BufferBinding(b, offset))];
      }
    }

    /** setTexture: a persistent argument buffer may only hold persistent
        textures. */
    method SetTexture(texture: Resource, key: FunctionArgumentKey, arrayIndex: nat)
      requires UsesPersistentRegistry(handle) ==> UsesPersistentRegistry(texture)
      modifies this
      ensures enqueuedBindings == old(enqueuedBindings) + [EnqueuedBinding(key, arrayIndex, TextureBinding(texture))]
      ensures bindings == old(bindings) && inlineData == old(inlineData)
      ensures readWaitIndices == old(readWaitIndices) && writeWaitIndices == old(writeWaitIndices)
    {
      enqueuedBindings := enqueuedBindings + [EnqueuedBinding(key, arrayIndex, TextureBinding(texture))];
    }

    method SetSampler(sampler: SamplerDescriptor, key: FunctionArgumentKey, arrayIndex: nat)
      modifies this
      ensures enqueuedBindings == old(enqueuedBindings) + [EnqueuedBinding(key, arrayIndex, SamplerBinding(sampler))]
      ensures bindings == old(bindings) && inlineData == old(inlineData)
      ensures readWaitIndices == old(readWaitIndices) && writeWaitIndices == old(writeWaitIndices)
    {
      enqueuedBindings := enqueuedBindings + [EnqueuedBinding(key, arrayIndex, SamplerBinding(sampler))];
    }

    /** setBytes: copies the bytes into the inline store and records where
        they went, so the recorded range reads back exactly these bytes. */
    method SetBytes(bytes: seq<bv8>, key: FunctionArgumentKey, arrayIndex: nat)
      modifies this, transientRegistry
      ensures enqueuedBindings == old(enqueuedBindings)
                + [EnqueuedBinding(key, arrayIndex, BytesBinding(|old(Store())|, |bytes|))]
      ensures Store() == old(Store()) + bytes
      ensures Store()[|old(Store())|..|old(Store())| + |bytes|] == bytes
      ensures transientRegistry.generation == old(transientRegistry.generation)
      ensures bindings == old(bindings)
      ensures readWaitIndices == old(readWaitIndices) && writeWaitIndices == old(writeWaitIndices)
    {
      var offset := CopyBytes(bytes);
      enqueuedBindings := enqueuedBindings + [EnqueuedBinding(key, arrayIndex, BytesBinding(offset, |bytes|))];
    }

    /** setBuffers: one buffer binding per position the three lists share. */
    method SetBuffers(buffers: seq<Resource>, offsets: seq<nat>, keys: seq<FunctionArgumentKey>)
      requires UsesPersistentRegistry(handle) ==>
                 forall i :: 0 <= i < |buffers| && i < |offsets| && i < |keys| ==> UsesPersistentRegistry(buffers[i])
      modifies this
      ensures var n := Min(|buffers|, Min(|offsets|, |keys|));
              enqueuedBindings == old(enqueuedBindings)
                + seq(n, i requires 0 <= i < n => EnqueuedBinding(keys[i], 0, BufferBinding(buffers[i], offsets[i])))
      ensures bindings == old(bindings) && inlineData == old(inlineData)
      ensures readWaitIndices == old(readWaitIndices) && writeWaitIndices == old(writeWaitIndices)
    {
      var n := Min(|buffers|, Min(|offsets|, |keys|));
      for i := 0 to n
        invariant enqueuedBindings == old(enqueuedBindings)
                    + seq(i, j requires 0 <= j < i => EnqueuedBinding(keys[j], 0, BufferBinding(buffers[j], offsets[j])))
        invariant bindings == old(bindings) && inlineData == old(inlineData)
        invariant readWaitIndices == old(readWaitIndices) && writeWaitIndices == old(writeWaitIndices)
      {
        SetBuffer(Some(buffers[i]), offsets[i], keys[i], 0);
      }
    }

    /** setTextures: one texture binding per position both lists share. */
    method SetTextures(textures: seq<Resource>, keys: seq<FunctionArgumentKey>)
      requires UsesPersistentRegistry(handle) ==>
                 forall i :: 0 <= i < |textures| && i < |keys| ==> UsesPersistentRegistry(textures[i])
      modifies this
      ensures var n := Min(|textures|, |keys|);
              enqueuedBindings == old(enqueuedBindings)
                + seq(n, i requires 0 <= i < n => EnqueuedBinding(keys[i], 0, TextureBinding(textures[i])))
      ensures bindings == old(bindings) && inlineData == old(inlineData)
      ensures readWaitIndices == old(readWaitIndices) && writeWaitIndices == old(writeWaitIndices)
    {
      var n := Min(|textures|, |keys|);
      for i := 0 to n
        invariant enqueuedBindings == old(enqueuedBindings)
                    + seq(i, j requires 0 <= j < i => EnqueuedBinding(keys[j], 0, TextureBinding(textures[j])))
        invariant bindings == old(bindings) && inlineData == old(inlineData)
        invariant readWaitIndices == old(readWaitIndices) && writeWaitIndices == old(writeWaitIndices)
      {
        SetTexture(textures[i], keys[i], 0);
      }
    }

    /** setSamplers: one sampler binding per position both lists share. */
    method SetSamplers(samplers: seq<SamplerDescriptor>, keys: seq<FunctionArgumentKey>)
      modifies this
      ensures var n := Min(|samplers|, |keys|);
              enqueuedBindings == old(enqueuedBindings)
                + seq(n, i requires 0 <= i < n => EnqueuedBinding(keys[i], 0, SamplerBinding(samplers[i])))
      ensures bindings == old(bindings) && inlineData == old(inlineData)
      ensures readWaitIndices == old(readWaitIndices) && writeWaitIndices == old(writeWaitIndices)
    {
      var n := Min(|samplers|, |keys|);
      for i := 0 to n
        invariant enqueuedBindings == old(enqueuedBindings)
                    + seq(i, j requires 0 <= j < i => EnqueuedBinding(keys[j], 0, SamplerBinding(samplers[j])))
        invariant bindings == old(bindings) && inlineData == old(inlineData)
        invariant readWaitIndices == old(readWaitIndices) && writeWaitIndices == old(writeWaitIndices)
      {
        SetSampler(samplers[i], keys[i], 0);
      }
    }
  }

  function Min(a: nat, b: nat): (m: nat)
    ensures m <= a && m <= b && (m == a || m == b)
  {
    if a <= b then a else b
  }

  /** The handles of the children an array has created, in order. */
  function ChildHandles(children: seq<Option<ArgumentBufferRecord>>): seq<Resource>
  {
    if children == [] then []
    else
      var last := children[|children| - 1];
      ChildHandles(children[..|children| - 1]) + (if last.Some? then [last.value.handle] else [])
  }

  /** Every child the array has created is among its child handles. */
  lemma {:induction false} ChildrenInHandles(children: seq<Option<ArgumentBufferRecord>>)
    ensures forall i :: 0 <= i < |children| && children[i].Some? ==> children[i].value.handle in ChildHandles(children)
  {
    if children != [] {
      var prefix := children[..|children| - 1];
      ChildrenInHandles(prefix);
      forall i | 0 <= i < |children| && children[i].Some?
        ensures children[i].value.handle in ChildHandles(children)
      {
        if i < |prefix| {
          assert children[i] == prefix[i];
        }
      }
    }
  }

  /** The registry state of one argument-buffer array: its children, created
      on first access. */
  class ArgumentBufferArrayRecord {
    const handle: Resource
    const registries: PersistentRegistries
    const transientRegistry: TransientRegistry
    const queueCount: nat
    var children: seq<Option<ArgumentBufferRecord>>

    /** Every child is a resource view of this array, sharing its registries
        and persistence. */
    ghost predicate Valid()
      reads this
    {
      && handle.kind == ArgumentBufferArray
      && HistoryBuffer !in handle.flags
      && forall i :: 0 <= i < |children| && children[i].Some? ==>
        && children[i].value.handle.kind == ArgumentBuffer
        && children[i].value.registries == registries
        && children[i].value.transientRegistry == transientRegistry
        && children[i].value.handle.flags == handle.flags + {ResourceView}
    }

    /** A fresh, empty array; arrays may not be history buffers. */
    constructor(flags: set<ResourceFlag>, index: nat, registries: PersistentRegistries,
                transientRegistry: TransientRegistry, queueCount: nat)
      requires HistoryBuffer !in flags
      ensures Valid()
      ensures handle.kind == ArgumentBufferArray && handle.flags == flags && handle.index == index
      ensures IsValidHandle(handle, registries, transientRegistry)
      ensures this.registries == registries && this.transientRegistry == transientRegistry
      ensures children == []
    {
      var generation := if Persistent in flags then registries.Generation(ArgumentBufferArray, index)
                        else transientRegistry.generation;
      handle := Resource(ArgumentBufferArray, flags, index, generation);
      this.registries := registries;
      this.transientRegistry := transientRegistry;
      this.queueCount := queueCount;
      children := [];
    }

    /** The array's wait index is always 0: waits are tracked per child. */
    function WaitIndex(queue: nat, access: ResourceAccessType): (w: nat)
      ensures w == 0
    {
      0
    }

    function IsValid(): (b: bool)
      reads this, registries, transientRegistry
      ensures b <==> IsValidHandle(handle, registries, transientRegistry)
    {
      if UsesPersistentRegistry(handle) then registries.Generation(handle.kind, handle.index) == handle.generation
      else transientRegistry.generation == handle.generation
    }

    /** The subscript: pads the child list with empty entries up to the
        index, then returns the child there, creating it (in the slot its
        registry hands out) when the entry is empty. */
    method Subscript(index: nat, slot: nat) returns (child: ArgumentBufferRecord)
      requires Valid()
      modifies this
      ensures Valid()
      ensures |children| == Max(old(|children|), index + 1)
      ensures children[index] == Some(child)
      ensures forall i :: 0 <= i < old(|children|) && i != index ==> children[i] == old(children[i])
      ensures forall i :: old(|children|) <= i < |children| && i != index ==> children[i].None?
      ensures index < old(|children|) && old(children[index]).Some? ==>
                child == old(children[index]).value && children == old(children)
      ensures index >= old(|children|) || old(children[index]).None? ==>
                && fresh(child)
                && child.handle.kind == ArgumentBuffer
                && child.handle.flags == handle.flags + {ResourceView}
                && child.handle.index == slot
                && child.IsValid()
    {
      if index >= |children| {
        children := children + seq(index - |children| + 1, _ => None);
      }
      match children[index] {
        case Some(existing) =>
          child := existing;
        case None =>
          child := new ArgumentBufferRecord(handle.flags + {ResourceView}, slot, registries, transientRegistry, queueCount);
          children := children[index := Some(child)];
      }
    }

    /** dispose: a persistent array disposes each of its children, in order,
        and then itself; a transient one does nothing. */
    method Dispose()
      requires Valid()
      modifies registries
      ensures UsesPersistentRegistry(handle) ==>
                registries.disposed == old(registries.disposed) + ChildHandles(children) + [handle]
      ensures UsesPersistentRegistry(handle) ==>
                registries.generations == AfterDisposals(old(registries.generations), ChildHandles(children) + [handle])
      ensures UsesPersistentRegistry(handle) ==>
                forall r :: r in ChildHandles(children) + [handle] ==>
                  registries.Generation(r.kind, r.index) > old(registries.Generation(r.kind, r.index))
      ensures UsesPersistentRegistry(handle) ==>
                forall kind, index ::
                  (forall r :: r in ChildHandles(children) + [handle] ==> r.kind != kind || r.index != index) ==>
                    registries.Generation(kind, index) == old(registries.Generation(kind, index))
      ensures UsesPersistentRegistry(handle) && old(IsValid()) ==> !IsValid()
      ensures UsesPersistentRegistry(handle) ==>
                forall i :: 0 <= i < |children| && children[i].Some? && old(children[i].value.IsValid()) ==>
                  !children[i].value.IsValid()
      ensures !UsesPersistentRegistry(handle) ==> unchanged(registries)
    {
      if !UsesPersistentRegistry(handle) {
        return;
      }
      for i := 0 to |children|
        invariant registries.disposed == old(registries.disposed) + ChildHandles(children[..i])
        invariant registries.generations == AfterDisposals(old(registries.generations), ChildHandles(children[..i]))
      {
        assert children[..i + 1][..i] == children[..i];
        match children[i] {
          case None =>
            assert ChildHandles(children[..i + 1]) == ChildHandles(children[..i]);
          case Some(c) =>
            assert UsesPersistentRegistry(c.handle) && c.registries == registries;
            c.Dispose();
            var done := ChildHandles(children[..i + 1]);
            assert done == ChildHandles(children[..i]) + [c.handle];
            assert done[..|done| - 1] == ChildHandles(children[..i]);
        }
      }
      assert children[..|children|] == children;
      var hs := ChildHandles(children) + [handle];
      assert hs[..|hs| - 1] == ChildHandles(children);
      registries.Dispose(handle);
      forall kind, index
        ensures registries.Generation(kind, index)
                  == old(registries.Generation(kind, index)) + DisposalsOf(hs, kind, index)
        ensures DisposalsOf(hs, kind, index) > 0 <==> exists r :: r in hs && r.kind == kind && r.index == index
      {
        AfterDisposalsGeneration(old(registries.generations), hs, kind, index);
        DisposalsOfNamed(hs, kind, index);
      }
      ChildrenInHandles(children);
    }
  }
}

=== FILE: common.dfy ===
/** Types shared by the frame-graph modules: optional values and resource
    handles. */
module Common {

  datatype Option<T> = None | Some(value: T)

  /** The larger of two counts. */
  function Max(a: nat, b: nat): (m: nat)
    ensures m >= a && m >= b && (m == a || m == b)
  {
    if a >= b then a else b
  }

  /** The kinds of frame-graph resource a handle can name. */
  datatype ResourceType = Buffer | Texture | Heap | ArgumentBuffer | ArgumentBufferArray

  /** The resource flags the modelled code inspects. */
  datatype ResourceFlag = Persistent | WindowHandle | HistoryBuffer | ResourceView

  /** A resource handle, unpacked: its kind, its flags, the slot index in its
      registry and the generation stamped on it when it was allocated. Two
      handles are equal exactly when all four agree. */
  datatype Resource = Resource(kind: ResourceType, flags: set<ResourceFlag>, index: nat, generation: nat)

  /** Whether the handle lives in a persistent registry rather than in a
      per-frame transient one. */
  predicate UsesPersistentRegistry(r: Resource) {
    Persistent in r.flags
  }

  /** Euclidean division is determined by quotient and remainder. */
  lemma {:induction false} DivModUnique(x: int, d: int, q: int, r: int)
    requires d > 0 && 0 <= r < d && x == q * d + r
    ensures x / d == q && x % d == r
  {
    var q', r' := x / d, x % d;
    assert x == q' * d + r';
    assert (q - q') * d == r' - r;
    if q' < q {
      MulAtLeast(q - q', d);
    } else if q < q' {
      MulAtLeast(q' - q, d);
    }
  }

  lemma MulAtLeast(a: int, d: int)
    requires a >= 1 && d > 0
    ensures a * d >= d
  {
  }
}

=== FILE: frame_graph_context.dfy ===
/** Frame submission: how a frame's command encoders are split into command
    buffers, which cross-queue waits are encoded, and how each committed
    buffer signals the queue's timeline value and reports completion. The
    backend is reduced to the events it is asked to perform, recorded in
    order. */
module FrameGraphContexts {
  import opened Common

  /** What the submission loop asks the backend to do. */
  datatype Event =
    | PrepareFrame
    | OpenCommandBuffer
    | WaitForEvent(queue: nat, value: nat)
    | SpinUntilCompleted(queue: nat, value: nat)
    | EncodeCommands(encoder: nat)
    | PresentSwapchains
    | SignalEvent(value: nat)
    | Commit(commandBuffer: nat, signalValue: nat)
    | Completion
    | SemaphoreSignal
    | Cleanup

  /** A command encoder: the command buffer it belongs to, and for every
      queue the signal value it must wait for. */
  datatype EncoderInfo = EncoderInfo(commandBufferIndex: nat, queueCommandWaitIndices: seq<nat>)

  /** What the loop knows about a queue: the last value it completed, and
      whether the backend has a sync event for it. */
  datatype QueueState = QueueState(lastCompletedCommand: nat, hasSyncEvent: bool)

  /** A completion handler registered with a commit. */
  datatype Handler = Handler(commandBuffer: nat, signalValue: nat, isLast: bool)

  /** The loop's state: whether a command buffer is open, how many were
      committed, the queue's signal counter, the highest wait value per
      queue, the events so far and the handlers registered so far. */
  datatype Submission = Submission(
    open: bool, committed: nat, signal: nat, waited: seq<nat>, log: seq<Event>, handlers: seq<Handler>)

  predicate WellFormed(encoders: seq<EncoderInfo>, queues: seq<QueueState>) {
    forall i :: 0 <= i < |encoders| ==> |encoders[i].queueCommandWaitIndices| == |queues|
  }

  function PointwiseMax(a: seq<nat>, b: seq<nat>): (r: seq<nat>)
    requires |a| == |b|
    ensures |r| == |a|
  {
    if a == [] then []
    else
      var n := |a| - 1;
      PointwiseMax(a[..n], b[..n]) + [if a[n] >= b[n] then a[n] else b[n]]
  }

  /** Each entry of the pointwise maximum is the larger of the two. */
  lemma {:induction false} PointwiseMaxAt(a: seq<nat>, b: seq<nat>, q: nat)
    requires |a| == |b| && q < |a|
    ensures PointwiseMax(a, b)[q] == if a[q] >= b[q] then a[q] else b[q]
  {
    var n := |a| - 1;
    if q < n {
      PointwiseMaxAt(a[..n], b[..n], q);
    }
  }

  function Zeros(n: nat): (r: seq<nat>)
    ensures |r| == n
  {
    if n == 0 then [] else Zeros(n - 1) + [0]
  }

  /** A wait on queue q is encoded only for a value above everything already
      waited for on q and above what q has completed. */
  predicate ShouldWait(waited: seq<nat>, wait: seq<nat>, queues: seq<QueueState>, q: nat)
    requires q < |queues| && |waited| == |queues| && |wait| == |queues|
  {
    waited[q] < wait[q] && wait[q] > queues[q].lastCompletedCommand
  }

  function WaitEvent(q: nat, value: nat, queue: QueueState): Event {
    if queue.hasSyncEvent then WaitForEvent(q, value) else SpinUntilCompleted(q, value)
  }

  /** The waits encoded for the first n queues. */
  function WaitEvents(waited: seq<nat>, wait: seq<nat>, queues: seq<QueueState>, n: nat): seq<Event>
    requires |waited| == |queues| && |wait| == |queues| && n <= |queues|
  {
    if n == 0 then []
    else WaitEvents(waited, wait, queues, n - 1)
         + (if ShouldWait(waited, wait, queues, n - 1) then [WaitEvent(n - 1, wait[n - 1], queues[n - 1])] else [])
  }

  /** processCommandBuffer: commit the open buffer, if any, signalling the
      next counter value. */
  function Process(s: Submission, lastIndex: int): Submission {
    if s.open then
      s.(open := false, committed := s.committed + 1, signal := s.signal + 1,
         log := s.log + [PresentSwapchains, SignalEvent(s.signal + 1), Commit(s.committed, s.signal + 1)],
         handlers := s.handlers + [Handler(s.committed, s.signal + 1, s.committed == lastIndex)])
    else s
  }

  /** One turn of the encoder loop. */
  function Step(s: Submission, e: EncoderInfo, i: nat, lastIndex: int, queues: seq<QueueState>): Submission
    requires |s.waited| == |queues| && |e.queueCommandWaitIndices| == |queues|
  {
    var s1 := if e.commandBufferIndex != s.committed then Process(s, lastIndex) else s;
    var s2 := if !s1.open then s1.(open := true, log := s1.log + [OpenCommandBuffer]) else s1;
    var wait := e.queueCommandWaitIndices;
    s2.(waited := PointwiseMax(wait, s2.waited),
        log := s2.log + WaitEvents(s2.waited, wait, queues, |queues|) + [EncodeCommands(i)])
  }

  function Start(c0: nat, queues: seq<QueueState>): Submission {
    Submission(false, 0, c0, Zeros(|queues|), [], [])
  }

  /** The state after the first n encoders. */
  function Run(c0: nat, encoders: seq<EncoderInfo>, n: nat, lastIndex: int, queues: seq<QueueState>): (r: Submission)
    requires n <= |encoders| && WellFormed(encoders, queues)
    ensures |r.waited| == |queues|
  {
    if n == 0 then Start(c0, queues)
    else Step(Run(c0, encoders, n - 1, lastIndex, queues), encoders[n - 1], n - 1, lastIndex, queues)
  }

  /** The whole frame: every encoder, then the final commit. */
  function Frame(c0: nat, encoders: seq<EncoderInfo>, commandBufferCount: nat, queues: seq<QueueState>): Submission
    requires WellFormed(encoders, queues)
  {
    Process(Run(c0, encoders, |encoders|, commandBufferCount - 1, queues), commandBufferCount - 1)
  }

  // ----- Reading the event log -----

  datatype Selector = Signals | Commits | Encodes | WaitsOn(queue: nat)

  function Select(sel: Selector, e: Event): Option<nat> {
    match sel
    case Signals => if e.SignalEvent? then Some(e.value) else None
    case Commits => if e.Commit? then Some(e.commandBuffer) else None
    case Encodes => if e.EncodeCommands? then Some(e.encoder) else None
    case WaitsOn(q) =>
      if (e.WaitForEvent? || e.SpinUntilCompleted?) && e.queue == q then Some(e.value) else None
  }

  function Picked(sel: Selector, e: Event): seq<nat> {
    match Select(sel, e)
    case Some(v) => [v]
    case None => []
  }

  /** The values the selector picks out of the log, in order. */
  function Pick(log: seq<Event>, sel: Selector): seq<nat> {
    if log == [] then [] else Pick(log[..|log| - 1], sel) + Picked(sel, log[|log| - 1])
  }

  lemma {:induction false} PickAppend(a: seq<Event>, b: seq<Event>, sel: Selector)
    ensures Pick(a + b, sel) == Pick(a, sel) + Pick(b, sel)
    decreases |b|
  {
    if b == [] {
      assert a + b == a;
    } else {
      var b' := b[..|b| - 1];
      assert (a + b)[..|a + b| - 1] == a + b';
      PickAppend(a, b', sel);
    }
  }

  lemma PickSnoc(a: seq<Event>, e: Event, sel: Selector)
    ensures Pick(a + [e], sel) == Pick(a, sel) + Picked(sel, e)
  {
    PickAppend(a, [e], sel);
    assert [e][..0] == [];
  }

  /** c0+1, c0+2, ..., c0+k. */
  function Consecutive(c0: nat, k: nat): seq<nat> {
    if k == 0 then [] else Consecutive(c0, k - 1) + [c0 + k]
  }

  /** 0, 1, ..., k-1. */
  function Indices(k: nat): seq<nat> {
    if k == 0 then [] else Indices(k - 1) + [k - 1]
  }

  predicate Increasing(s: seq<nat>) {
    forall j, k :: 0 <= j < k < |s| ==> s[j] < s[k]
  }

  predicate IsWait(e: Event) {
    e.WaitForEvent? || e.SpinUntilCompleted?
  }

  /** A log of waits holds no signal, commit or encode. */
  lemma {:induction false} PickOnlyWaits(log: seq<Event>, sel: Selector)
    requires !sel.WaitsOn? && forall k :: 0 <= k < |log| ==> IsWait(log[k])
    ensures Pick(log, sel) == []
    decreases |log|
  {
    if log != [] {
      PickOnlyWaits(log[..|log| - 1], sel);
    }
  }

  /** The waits encoded for the first n queues are waits only. */
  lemma {:induction false} WaitEventsAreWaits(waited: seq<nat>, wait: seq<nat>, queues: seq<QueueState>, n: nat)
    requires |waited| == |queues| && |wait| == |queues| && n <= |queues|
    ensures forall k :: 0 <= k < |WaitEvents(waited, wait, queues, n)| ==> IsWait(WaitEvents(waited, wait, queues, n)[k])
  {
    if n > 0 {
      WaitEventsAreWaits(waited, wait, queues, n - 1);
    }
  }

  /** The waits of an encoder hold no signal, commit or encode. */
  lemma WaitEventsPickNone(waited: seq<nat>, wait: seq<nat>, queues: seq<QueueState>, sel: Selector)
    requires |waited| == |queues| && |wait| == |queues| && !sel.WaitsOn?
    ensures Pick(WaitEvents(waited, wait, queues, |queues|), sel) == []
  {
    WaitEventsAreWaits(waited, wait, queues, |queues|);
    PickOnlyWaits(WaitEvents(waited, wait, queues, |queues|), sel);
  }

  /** The waits encoded for the first n queues wait on queue q once, for q's
      wait value, exactly when q should wait. */
  lemma {:induction false} WaitEventsOn(waited: seq<nat>, wait: seq<nat>, queues: seq<QueueState>, n: nat, q: nat)
    requires |waited| == |queues| && |wait| == |queues| && n <= |queues|
    ensures Pick(WaitEvents(waited, wait, queues, n), WaitsOn(q)) ==
              if q < n && ShouldWait(waited, wait, queues, q) then [wait[q]] else []
  {
    if n > 0 {
      var prefix := WaitEvents(waited, wait, queues, n - 1);
      WaitEventsOn(waited, wait, queues, n - 1, q);
      if ShouldWait(waited, wait, queues, n - 1) {
        var e := WaitEvent(n - 1, wait[n - 1], queues[n - 1]);
        PickSnoc(prefix, e, WaitsOn(q));
        PickedWaitEvent(n - 1, wait[n - 1], queues[n - 1], q);
      } else {
        assert WaitEvents(waited, wait, queues, n) == prefix;
      }
    }
  }

  /** A wait event is picked by the selector of its own queue only. */
  lemma PickedWaitEvent(k: nat, value: nat, queue: QueueState, q: nat)
    ensures Picked(WaitsOn(q), WaitEvent(k, value, queue)) == if k == q then [value] else []
  {
  }

  /** The log of a commit: present, signal the next value, commit. */
  lemma ProcessLog(s: Submission, lastIndex: int)
    requires s.open
    ensures Process(s, lastIndex).log ==
              s.log + [PresentSwapchains] + [SignalEvent(s.signal + 1)] + [Commit(s.committed, s.signal + 1)]
  {
  }

  /** A commit signals the next counter value. */
  lemma ProcessSignals(s: Submission, lastIndex: int)
    ensures Pick(Process(s, lastIndex).log, Signals) ==
              Pick(s.log, Signals) + if s.open then [s.signal + 1] else []
  {
    if s.open {
      ProcessLog(s, lastIndex);
      var a := s.log + [PresentSwapchains];
      var b := a + [SignalEvent(s.signal + 1)];
      PickSnoc(s.log, PresentSwapchains, Signals);
      PickSnoc(a, SignalEvent(s.signal + 1), Signals);
      PickSnoc(b, Commit(s.committed, s.signal + 1), Signals);
    }
  }

  /** A commit commits the next buffer index. */
  lemma ProcessCommits(s: Submission, lastIndex: int)
    ensures Pick(Process(s, lastIndex).log, Commits) ==
              Pick(s.log, Commits) + if s.open then [s.committed] else []
  {
    if s.open {
      ProcessLog(s, lastIndex);
      var a := s.log + [PresentSwapchains];
      var b := a + [SignalEvent(s.signal + 1)];
      PickSnoc(s.log, PresentSwapchains, Commits);
      PickSnoc(a, SignalEvent(s.signal + 1), Commits);
      PickSnoc(b, Commit(s.committed, s.signal + 1), Commits);
    }
  }

  /** A commit neither encodes nor waits. */
  lemma ProcessKeeps(s: Submission, lastIndex: int, sel: Selector)
    requires sel.Encodes? || sel.WaitsOn?
    ensures Pick(Process(s, lastIndex).log, sel) == Pick(s.log, sel)
  {
    if s.open {
      ProcessLog(s, lastIndex);
      var a := s.log + [PresentSwapchains];
      var b := a + [SignalEvent(s.signal + 1)];
      PickSnoc(s.log, PresentSwapchains, sel);
      PickSnoc(a, SignalEvent(s.signal + 1), sel);
      PickSnoc(b, Commit(s.committed, s.signal + 1), sel);
    }
  }

  /** The buffer state after the first half of a loop turn: the buffer
      closed if the encoder names another one, then a buffer opened if none
      is open. */
  function Reopen(s: Submission, e: EncoderInfo, lastIndex: int): Submission {
    var s1 := if e.commandBufferIndex != s.committed then Process(s, lastIndex) else s;
    if !s1.open then s1.(open := true, log := s1.log + [OpenCommandBuffer]) else s1
  }

  lemma StepLog(s: Submission, e: EncoderInfo, i: nat, lastIndex: int, queues: seq<QueueState>)
    requires |s.waited| == |queues| && |e.queueCommandWaitIndices| == |queues|
    ensures Step(s, e, i, lastIndex, queues).log ==
              Reopen(s, e, lastIndex).log + WaitEvents(s.waited, e.queueCommandWaitIndices, queues, |queues|)
              + [EncodeCommands(i)]
  {
  }

  /** Opening a buffer adds nothing the selectors pick. */
  lemma ReopenPick(s: Submission, e: EncoderInfo, lastIndex: int, sel: Selector)
    ensures var s1 := if e.commandBufferIndex != s.committed then Process(s, lastIndex) else s;
      Pick(Reopen(s, e, lastIndex).log, sel) == Pick(s1.log, sel)
  {
    var s1 := if e.commandBufferIndex != s.committed then Process(s, lastIndex) else s;
    if !s1.open {
      PickSnoc(s1.log, OpenCommandBuffer, sel);
      assert Picked(sel, OpenCommandBuffer) == [];
    }
  }

  lemma PickThree(pre: seq<Event>, waits: seq<Event>, i: nat, sel: Selector)
    ensures Pick(pre + waits + [EncodeCommands(i)], sel) ==
              Pick(pre, sel) + Pick(waits, sel) + Picked(sel, EncodeCommands(i))
  {
    PickSnoc(pre + waits, EncodeCommands(i), sel);
    PickAppend(pre, waits, sel);
  }

  /** A loop turn signals the next counter value exactly when it closes an
      open buffer. */
  lemma StepSignals(s: Submission, e: EncoderInfo, i: nat, lastIndex: int, queues: seq<QueueState>)
    requires |s.waited| == |queues| && |e.queueCommandWaitIndices| == |queues|
    ensures var closes := e.commandBufferIndex != s.committed && s.open;
      Pick(Step(s, e, i, lastIndex, queues).log, Signals) == Pick(s.log, Signals) + (if closes then [s.signal + 1] else [])
  {
    var waits := WaitEvents(s.waited, e.queueCommandWaitIndices, queues, |queues|);
    StepLog(s, e, i, lastIndex, queues);
    PickThree(Reopen(s, e, lastIndex).log, waits, i, Signals);
    ReopenPick(s, e, lastIndex, Signals);
    ProcessSignals(s, lastIndex);
    WaitEventsPickNone(s.waited, e.queueCommandWaitIndices, queues, Signals);
    assert Picked(Signals, EncodeCommands(i)) == [];
  }

  /** A loop turn commits the next buffer index exactly when it closes an
      open buffer. */
  lemma StepCommits(s: Submission, e: EncoderInfo, i: nat, lastIndex: int, queues: seq<QueueState>)
    requires |s.waited| == |queues| && |e.queueCommandWaitIndices| == |queues|
    ensures var closes := e.commandBufferIndex != s.committed && s.open;
      Pick(Step(s, e, i, lastIndex, queues).log, Commits) == Pick(s.log, Commits) + (if closes then [s.committed] else [])
  {
    var waits := WaitEvents(s.waited, e.queueCommandWaitIndices, queues, |queues|);
    StepLog(s, e, i, lastIndex, queues);
    PickThree(Reopen(s, e, lastIndex).log, waits, i, Commits);
    ReopenPick(s, e, lastIndex, Commits);
    ProcessCommits(s, lastIndex);
    WaitEventsPickNone(s.waited, e.queueCommandWaitIndices, queues, Commits);
    assert Picked(Commits, EncodeCommands(i)) == [];
  }

  /** The log of a loop turn, read by a selector that skips the encode:
      what the reopened buffer's log gives, then what the waits give. */
  lemma TurnPick(log: seq<Event>, pre: seq<Event>, waits: seq<Event>, base: seq<Event>, i: nat, sel: Selector,
                 extra: seq<nat>)
    requires log == pre + waits + [EncodeCommands(i)]
    requires Pick(pre, sel) == Pick(base, sel) && Pick(waits, sel) == extra
    ensures Pick(log, sel) == Pick(base, sel) + extra + Picked(sel, EncodeCommands(i))
  {
    PickThree(pre, waits, i, sel);
  }

  lemma ReopenKeeps(s: Submission, e: EncoderInfo, lastIndex: int, sel: Selector)
    requires sel.Encodes? || sel.WaitsOn?
    ensures Pick(Reopen(s, e, lastIndex).log, sel) == Pick(s.log, sel)
  {
    ReopenPick(s, e, lastIndex, sel);
    ProcessKeeps(s, lastIndex, sel);
  }

  /** A loop turn encodes its own encoder and nothing else. */
  lemma StepEncodes(s: Submission, e: EncoderInfo, i: nat, lastIndex: int, queues: seq<QueueState>)
    requires |s.waited| == |queues| && |e.queueCommandWaitIndices| == |queues|
    ensures Pick(Step(s, e, i, lastIndex, queues).log, Encodes) == Pick(s.log, Encodes) + [i]
  {
    var pre, waits := Reopen(s, e, lastIndex).log, WaitEvents(s.waited, e.queueCommandWaitIndices, queues, |queues|);
    assert Step(s, e, i, lastIndex, queues).log == pre + waits + [EncodeCommands(i)] by {
      StepLog(s, e, i, lastIndex, queues);
    }
    assert Pick(pre, Encodes) == Pick(s.log, Encodes) by {
      ReopenKeeps(s, e, lastIndex, Encodes);
    }
    assert Pick(waits, Encodes) == [] by {
      WaitEventsPickNone(s.waited, e.queueCommandWaitIndices, queues, Encodes);
    }
    assert Picked(Encodes, EncodeCommands(i)) == [i];
    TurnPick(Step(s, e, i, lastIndex, queues).log, pre, waits, s.log, i, Encodes, []);
  }

  /** A loop turn waits on queue q, for q's wait value, exactly when q
      should wait. */
  lemma StepWaits(s: Submission, e: EncoderInfo, i: nat, lastIndex: int, queues: seq<QueueState>, q: nat)
    requires |s.waited| == |queues| && |e.queueCommandWaitIndices| == |queues|
    requires q < |queues|
    ensures var wait := e.queueCommandWaitIndices;
      Pick(Step(s, e, i, lastIndex, queues).log, WaitsOn(q)) ==
        Pick(s.log, WaitsOn(q)) + (if ShouldWait(s.waited, wait, queues, q) then [wait[q]] else [])
  {
    var wait := e.queueCommandWaitIndices;
    var pre, waits := Reopen(s, e, lastIndex).log, WaitEvents(s.waited, wait, queues, |queues|);
    var extra := if ShouldWait(s.waited, wait, queues, q) then [wait[q]] else [];
    assert Step(s, e, i, lastIndex, queues).log == pre + waits + [EncodeCommands(i)] by {
      StepLog(s, e, i, lastIndex, queues);
    }
    assert Pick(pre, WaitsOn(q)) == Pick(s.log, WaitsOn(q)) by {
      ReopenKeeps(s, e, lastIndex, WaitsOn(q));
    }
    assert Pick(waits, WaitsOn(q)) == extra by {
      WaitEventsOn(s.waited, wait, queues, |queues|, q);
    }
    assert Picked(WaitsOn(q), EncodeCommands(i)) == [];
    TurnPick(Step(s, e, i, lastIndex, queues).log, pre, waits, s.log, i, WaitsOn(q), extra);
  }

  /** A loop turn commits, and counts a signal and a handler, exactly when
      it closes an open buffer. */
  lemma StepCounters(s: Submission, e: EncoderInfo, i: nat, lastIndex: int, queues: seq<QueueState>)
    requires |s.waited| == |queues| && |e.queueCommandWaitIndices| == |queues|
    ensures var closes := e.commandBufferIndex != s.committed && s.open;
      var r := Step(s, e, i, lastIndex, queues);
      && r.open
      && r.committed == (if closes then s.committed + 1 else s.committed)
      && r.signal == (if closes then s.signal + 1 else s.signal)
      && r.handlers == s.handlers + (if closes then [Handler(s.committed, s.signal + 1, s.committed == lastIndex)] else [])
  {
  }

  // ----- What the loop guarantees -----

  /** Each commit signalled the next counter value: the counter is the
      starting value plus the commits, and the signals were c0+1, c0+2, ... */
  predicate SignalsInv(c0: nat, s: Submission) {
    s.signal == c0 + s.committed && Pick(s.log, Signals) == Consecutive(c0, s.committed)
  }

  /** The commits numbered the buffers 0, 1, 2, ... in order. */
  predicate CommitsInv(s: Submission) {
    Pick(s.log, Commits) == Indices(s.committed)
  }

  /** Handler j belongs to buffer j, carries the signal value c0+1+j, and is
      the last one exactly when j is the frame's last buffer index. */
  predicate HandlersInv(c0: nat, lastIndex: int, s: Submission) {
    && |s.handlers| == s.committed
    && forall j :: 0 <= j < |s.handlers| ==> s.handlers[j] == Handler(j, c0 + 1 + j, j == lastIndex)
  }

  /** The waits on queue q: every one is for a value above q's completed
      value and at most the running maximum, the values strictly increase
      (no value is waited for twice), and the running maximum is either
      already completed by q or is the last value waited for. */
  predicate WaitsInv(queues: seq<QueueState>, q: nat, s: Submission)
    requires q < |queues| && |s.waited| == |queues|
  {
    var w := Pick(s.log, WaitsOn(q));
    WaitsBounded(w, queues[q].lastCompletedCommand, s.waited[q])
  }

  predicate WaitsBounded(w: seq<nat>, done: nat, max: nat) {
    && Increasing(w)
    && (forall j :: 0 <= j < |w| ==> done < w[j] <= max)
    && (max <= done || (|w| > 0 && w[|w| - 1] == max))
  }

  lemma ConsecutiveGrows(ps: seq<nat>, pr: seq<nat>, c0: nat, k: nat, closes: bool, next: nat)
    requires ps == Consecutive(c0, k) && next == c0 + k + 1
    requires pr == ps + (if closes then [next] else [])
    ensures pr == Consecutive(c0, if closes then k + 1 else k)
  {
  }

  /** Adding the waits of one encoder keeps the waits bounded, increasing and
      ending at the new maximum. */
  lemma WaitsExtend(w: seq<nat>, done: nat, max: nat, value: nat)
    requires WaitsBounded(w, done, max)
    ensures WaitsBounded(w + (if max < value && value > done then [value] else []), done,
                         if value >= max then value else max)
  {
  }

  lemma StepKeepsSignals(c0: nat, s: Submission, e: EncoderInfo, i: nat, lastIndex: int, queues: seq<QueueState>)
    requires |s.waited| == |queues| && |e.queueCommandWaitIndices| == |queues|
    requires SignalsInv(c0, s)
    ensures SignalsInv(c0, Step(s, e, i, lastIndex, queues))
  {
    StepSignals(s, e, i, lastIndex, queues);
    StepCounters(s, e, i, lastIndex, queues);
  }

  lemma StepKeepsCommits(s: Submission, e: EncoderInfo, i: nat, lastIndex: int, queues: seq<QueueState>)
    requires |s.waited| == |queues| && |e.queueCommandWaitIndices| == |queues|
    requires CommitsInv(s)
    ensures CommitsInv(Step(s, e, i, lastIndex, queues))
  {
    StepCommits(s, e, i, lastIndex, queues);
    StepCounters(s, e, i, lastIndex, queues);
  }

  lemma StepKeepsHandlers(c0: nat, s: Submission, e: EncoderInfo, i: nat, lastIndex: int, queues: seq<QueueState>)
    requires |s.waited| == |queues| && |e.queueCommandWaitIndices| == |queues|
    requires SignalsInv(c0, s) && HandlersInv(c0, lastIndex, s)
    ensures HandlersInv(c0, lastIndex, Step(s, e, i, lastIndex, queues))
  {
    StepCounters(s, e, i, lastIndex, queues);
  }

  lemma StepKeepsWaits(s: Submission, e: EncoderInfo, i: nat, lastIndex: int, queues: seq<QueueState>, q: nat)
    requires |s.waited| == |queues| && |e.queueCommandWaitIndices| == |queues| && q < |queues|
    requires WaitsInv(queues, q, s)
    ensures WaitsInv(queues, q, Step(s, e, i, lastIndex, queues))
  {
    var wait := e.queueCommandWaitIndices;
    StepWaits(s, e, i, lastIndex, queues, q);
    StepWaited(s, e, i, lastIndex, queues, q);
    WaitsExtend(Pick(s.log, WaitsOn(q)), queues[q].lastCompletedCommand, s.waited[q], wait[q]);
  }

  /** After a loop turn the running maximum on q covers the encoder's wait. */
  lemma StepWaited(s: Submission, e: EncoderInfo, i: nat, lastIndex: int, queues: seq<QueueState>, q: nat)
    requires |s.waited| == |queues| && |e.queueCommandWaitIndices| == |queues| && q < |queues|
    ensures var wait := e.queueCommandWaitIndices;
      Step(s, e, i, lastIndex, queues).waited[q] == if wait[q] >= s.waited[q] then wait[q] else s.waited[q]
  {
    PointwiseMaxAt(e.queueCommandWaitIndices, s.waited, q);
  }

  /** The counters and signals over the first n encoders. */
  lemma {:induction false} RunSignals(c0: nat, encoders: seq<EncoderInfo>, n: nat, lastIndex: int, queues: seq<QueueState>)
    requires n <= |encoders| && WellFormed(encoders, queues)
    ensures SignalsInv(c0, Run(c0, encoders, n, lastIndex, queues))
  {
    if n > 0 {
      RunSignals(c0, encoders, n - 1, lastIndex, queues);
      StepKeepsSignals(c0, Run(c0, encoders, n - 1, lastIndex, queues), encoders[n - 1], n - 1, lastIndex, queues);
    }
  }

  /** The commits over the first n encoders. */
  lemma {:induction false} RunCommits(c0: nat, encoders: seq<EncoderInfo>, n: nat, lastIndex: int, queues: seq<QueueState>)
    requires n <= |encoders| && WellFormed(encoders, queues)
    ensures CommitsInv(Run(c0, encoders, n, lastIndex, queues))
  {
    if n > 0 {
      RunCommits(c0, encoders, n - 1, lastIndex, queues);
      StepKeepsCommits(Run(c0, encoders, n - 1, lastIndex, queues), encoders[n - 1], n - 1, lastIndex, queues);
    }
  }

  /** The first n encoders were encoded once each, in order. */
  predicate EncodesInv(n: nat, s: Submission) {
    Pick(s.log, Encodes) == Indices(n)
  }

  lemma StepKeepsEncodes(n: nat, s: Submission, e: EncoderInfo, lastIndex: int, queues: seq<QueueState>)
    requires |s.waited| == |queues| && |e.queueCommandWaitIndices| == |queues|
    requires EncodesInv(n, s)
    ensures EncodesInv(n + 1, Step(s, e, n, lastIndex, queues))
  {
    StepEncodes(s, e, n, lastIndex, queues);
  }

  /** The encoders are encoded once each, in order. */
  lemma {:induction false} RunEncodes(c0: nat, encoders: seq<EncoderInfo>, n: nat, lastIndex: int, queues: seq<QueueState>)
    requires n <= |encoders| && WellFormed(encoders, queues)
    ensures EncodesInv(n, Run(c0, encoders, n, lastIndex, queues))
  {
    if n > 0 {
      RunEncodes(c0, encoders, n - 1, lastIndex, queues);
      StepKeepsEncodes(n - 1, Run(c0, encoders, n - 1, lastIndex, queues), encoders[n - 1], lastIndex, queues);
    }
  }

  /** The handlers registered over the first n encoders. */
  lemma {:induction false} RunHandlers(c0: nat, encoders: seq<EncoderInfo>, n: nat, lastIndex: int, queues: seq<QueueState>)
    requires n <= |encoders| && WellFormed(encoders, queues)
    ensures HandlersInv(c0, lastIndex, Run(c0, encoders, n, lastIndex, queues))
  {
    if n > 0 {
      var s := Run(c0, encoders, n - 1, lastIndex, queues);
      RunHandlers(c0, encoders, n - 1, lastIndex, queues);
      RunSignals(c0, encoders, n - 1, lastIndex, queues);
      StepKeepsHandlers(c0, s, encoders[n - 1], n - 1, lastIndex, queues);
    }
  }

  /** The waits on queue q over the first n encoders. */
  lemma {:induction false} RunWaits(c0: nat, encoders: seq<EncoderInfo>, n: nat, lastIndex: int, queues: seq<QueueState>, q: nat)
    requires n <= |encoders| && WellFormed(encoders, queues) && q < |queues|
    ensures WaitsInv(queues, q, Run(c0, encoders, n, lastIndex, queues))
  {
    if n == 0 {
      ZerosAt(|queues|, q);
    } else {
      RunWaits(c0, encoders, n - 1, lastIndex, queues, q);
      StepKeepsWaits(Run(c0, encoders, n - 1, lastIndex, queues), encoders[n - 1], n - 1, lastIndex, queues, q);
    }
  }

  lemma {:induction false} ZerosAt(n: nat, q: nat)
    requires q < n
    ensures Zeros(n)[q] == 0
  {
    if q < n - 1 {
      ZerosAt(n - 1, q);
    }
  }

  /** A wait value is covered when the queue has already completed it or a
      wait in w is for it or for a later value. */
  predicate Covered(value: nat, done: nat, w: seq<nat>) {
    value <= done || exists j :: 0 <= j < |w| && w[j] >= value
  }

  /** Skipping waits is sound: when encoder k is encoded, each of its wait
      values is either already completed by that queue or covered by a wait
      encoded at or before it. */
  lemma WaitsCoverDependencies(c0: nat, encoders: seq<EncoderInfo>, k: nat, lastIndex: int, queues: seq<QueueState>, q: nat)
    requires k < |encoders| && WellFormed(encoders, queues) && q < |queues|
    ensures Covered(encoders[k].queueCommandWaitIndices[q], queues[q].lastCompletedCommand,
                    Pick(Run(c0, encoders, k + 1, lastIndex, queues).log, WaitsOn(q)))
  {
    RunWaits(c0, encoders, k, lastIndex, queues, q);
    StepCovers(Run(c0, encoders, k, lastIndex, queues), encoders[k], k, lastIndex, queues, q);
  }

  lemma StepCovers(s: Submission, e: EncoderInfo, i: nat, lastIndex: int, queues: seq<QueueState>, q: nat)
    requires |s.waited| == |queues| && |e.queueCommandWaitIndices| == |queues| && q < |queues|
    requires WaitsInv(queues, q, s)
    ensures Covered(e.queueCommandWaitIndices[q], queues[q].lastCompletedCommand,
                    Pick(Step(s, e, i, lastIndex, queues).log, WaitsOn(q)))
  {
    var r := Step(s, e, i, lastIndex, queues);
    StepKeepsWaits(s, e, i, lastIndex, queues, q);
    StepWaited(s, e, i, lastIndex, queues, q);
    CoveredByLast(Pick(r.log, WaitsOn(q)), queues[q].lastCompletedCommand, r.waited[q],
                  e.queueCommandWaitIndices[q]);
  }

  lemma CoveredByLast(w: seq<nat>, done: nat, max: nat, value: nat)
    requires WaitsBounded(w, done, max) && value <= max
    ensures Covered(value, done, w)
  {
    if |w| > 0 {
      assert w[|w| - 1] >= w[|w| - 1];
    }
  }

  /** The final commit keeps the counters, signals, commits and handlers in
      step. */
  lemma ProcessKeepsInvariants(c0: nat, lastIndex: int, s: Submission)
    requires SignalsInv(c0, s) && CommitsInv(s) && HandlersInv(c0, lastIndex, s)
    ensures var f := Process(s, lastIndex);
      SignalsInv(c0, f) && CommitsInv(f) && HandlersInv(c0, lastIndex, f)
  {
    ProcessSignals(s, lastIndex);
    ProcessCommits(s, lastIndex);
  }

  /** The whole frame, final commit included: it signals c0+1, ..., c0+k for
      its k commits and leaves the counter at c0+k; its commits and handlers
      number the buffers in order, at most one handler is the last one, and
      every encoder is encoded once, in order. A frame with an encoder
      commits at least once and leaves no buffer open. */
  lemma FrameCounters(c0: nat, encoders: seq<EncoderInfo>, commandBufferCount: nat, queues: seq<QueueState>)
    requires WellFormed(encoders, queues)
    ensures var f := Frame(c0, encoders, commandBufferCount, queues);
      && SignalsInv(c0, f) && CommitsInv(f) && HandlersInv(c0, commandBufferCount - 1, f)
      && (forall j, k :: 0 <= j < k < |f.handlers| ==> !(f.handlers[j].isLast && f.handlers[k].isLast))
      && EncodesInv(|encoders|, f)
      && (|encoders| > 0 ==> f.committed > 0 && !f.open)
  {
    var lastIndex := commandBufferCount - 1;
    var r := Run(c0, encoders, |encoders|, lastIndex, queues);
    RunSignals(c0, encoders, |encoders|, lastIndex, queues);
    RunCommits(c0, encoders, |encoders|, lastIndex, queues);
    RunEncodes(c0, encoders, |encoders|, lastIndex, queues);
    RunHandlers(c0, encoders, |encoders|, lastIndex, queues);
    if |encoders| > 0 {
      RunOpen(c0, encoders, |encoders|, lastIndex, queues);
    }
    ProcessKeepsInvariants(c0, lastIndex, r);
    ProcessKeeps(r, lastIndex, Encodes);
  }

  /** After any encoder a command buffer is open. */
  lemma RunOpen(c0: nat, encoders: seq<EncoderInfo>, n: nat, lastIndex: int, queues: seq<QueueState>)
    requires 0 < n <= |encoders| && WellFormed(encoders, queues)
    ensures Run(c0, encoders, n, lastIndex, queues).open
  {
  }

  /** Encoders whose buffer indices start at 0 and step by at most one. */
  predicate ConsecutiveBuffers(encoders: seq<EncoderInfo>) {
    && |encoders| > 0
    && encoders[0].commandBufferIndex == 0
    && forall i :: 0 < i < |encoders| ==>
         encoders[i].commandBufferIndex == encoders[i - 1].commandBufferIndex
         || encoders[i].commandBufferIndex == encoders[i - 1].commandBufferIndex + 1
  }

  /** With consecutive buffer indices, the open buffer is always the one the
      latest encoder names. */
  lemma {:induction false} RunFollowsBuffers(c0: nat, encoders: seq<EncoderInfo>, n: nat, lastIndex: int, queues: seq<QueueState>)
    requires 0 < n <= |encoders| && WellFormed(encoders, queues) && ConsecutiveBuffers(encoders)
    ensures var r := Run(c0, encoders, n, lastIndex, queues);
      r.open && r.committed == encoders[n - 1].commandBufferIndex
  {
    if n > 1 {
      RunFollowsBuffers(c0, encoders, n - 1, lastIndex, queues);
    }
  }

  /** With consecutive buffer indices and the frame's buffer count, the frame
      commits every buffer and exactly the last handler reports completion,
      so completion and the semaphore signal happen once per frame. */
  lemma CompletionFiresOnce(c0: nat, encoders: seq<EncoderInfo>, queues: seq<QueueState>)
    requires WellFormed(encoders, queues) && ConsecutiveBuffers(encoders)
    ensures var count := encoders[|encoders| - 1].commandBufferIndex + 1;
      var f := Frame(c0, encoders, count, queues);
      && f.committed == count
      && forall j :: 0 <= j < |f.handlers| ==> (f.handlers[j].isLast <==> j == count - 1)
  {
    var count := encoders[|encoders| - 1].commandBufferIndex + 1;
    RunFollowsBuffers(c0, encoders, |encoders|, count - 1, queues);
    FrameCounters(c0, encoders, count, queues);
  }

  /** Completion trails the signal counter, and the handlers still pending
      carry strictly increasing values above the completed one and at most
      the counter. */
  predicate PendingOrdered(pending: seq<Handler>, completed: nat, counter: nat) {
    && completed <= counter
    && (forall j :: 0 <= j < |pending| ==> completed < pending[j].signalValue <= counter)
    && (forall j, k :: 0 <= j < k < |pending| ==> pending[j].signalValue < pending[k].signalValue)
  }

  /** A frame's handlers follow every handler already pending, so the pending
      handlers stay ordered under the advanced counter. */
  lemma FrameKeepsPendingOrdered(pending: seq<Handler>, completed: nat, c0: nat, lastIndex: int, f: Submission)
    requires PendingOrdered(pending, completed, c0)
    requires SignalsInv(c0, f) && HandlersInv(c0, lastIndex, f)
    ensures PendingOrdered(pending + f.handlers, completed, f.signal)
  {
    var p := pending + f.handlers;
    forall j | 0 <= j < |p|
      ensures completed < p[j].signalValue <= f.signal
    {
      if j >= |pending| {
        assert p[j] == f.handlers[j - |pending|];
      }
    }
  }

  // ----- The context -----

  class FrameGraphContext {
    var queueCommandBufferIndex: nat
    var lastSubmittedCommand: nat
    var lastCompletedCommand: nat
    var events: seq<Event>
    /** Handlers of committed buffers that have not completed, oldest first. */
    var pendingCompletions: seq<Handler>

    /** The queue's submitted value is its signal counter; completion trails
        it; pending handlers carry increasing values above the completed
        one. */
    ghost predicate Valid()
      reads this
    {
      lastSubmittedCommand == queueCommandBufferIndex
      && PendingOrdered(pendingCompletions, lastCompletedCommand, queueCommandBufferIndex)
    }

    constructor()
      ensures Valid()
      ensures queueCommandBufferIndex == 0 && events == [] && pendingCompletions == []
    {
      queueCommandBufferIndex := 0;
      lastSubmittedCommand := 0;
      lastCompletedCommand := 0;
      events := [];
      pendingCompletions := [];
    }

    /** processCommandBuffer, on the loop state s kept by the caller. */
    method ProcessCommandBuffer(open: bool, committed: nat, lastIndex: int,
                                ghost s: Submission, ghost base: seq<Event>, ghost basePending: seq<Handler>)
      returns (committed': nat)
      requires open == s.open && committed == s.committed && queueCommandBufferIndex == s.signal
      requires events == base + s.log && pendingCompletions == basePending + s.handlers
      requires lastSubmittedCommand == queueCommandBufferIndex
      modifies this
      ensures var r := Process(s, lastIndex);
        && committed' == r.committed && queueCommandBufferIndex == r.signal
        && events == base + r.log && pendingCompletions == basePending + r.handlers
      ensures lastSubmittedCommand == queueCommandBufferIndex
      ensures lastCompletedCommand == old(lastCompletedCommand)
    {
      committed' := committed;
      if open {
        events := events + [PresentSwapchains];
        queueCommandBufferIndex := queueCommandBufferIndex + 1;
        events := events + [SignalEvent(queueCommandBufferIndex)];
        lastSubmittedCommand := queueCommandBufferIndex;
        events := events + [Commit(committed, queueCommandBufferIndex)];
        pendingCompletions := pendingCompletions
          + [Handler(committed, queueCommandBufferIndex, committed == lastIndex)];
        committed' := committed + 1;
      }
    }

    /** executeFrameGraph. An empty frame reports completion and signals the
        semaphore at once; otherwise the encoders run through the loop and
        the last buffer is committed. Cleanup ends both paths. */
    method ExecuteFrameGraph(passesEmpty: bool, encoders: seq<EncoderInfo>, commandBufferCount: nat,
                             queues: seq<QueueState>)
      requires Valid() && WellFormed(encoders, queues)
      modifies this
      ensures Valid()
      ensures lastCompletedCommand == old(lastCompletedCommand)
      ensures passesEmpty ==>
                && events == old(events) + [PrepareFrame, Completion, SemaphoreSignal, Cleanup]
                && queueCommandBufferIndex == old(queueCommandBufferIndex)
                && pendingCompletions == old(pendingCompletions)
      ensures !passesEmpty ==>
                var f := Frame(old(queueCommandBufferIndex), encoders, commandBufferCount, queues);
                && events == old(events) + [PrepareFrame] + f.log + [Cleanup]
                && queueCommandBufferIndex == f.signal
                && pendingCompletions == old(pendingCompletions) + f.handlers
    {
      events := events + [PrepareFrame];
      if passesEmpty {
        events := events + [Completion, SemaphoreSignal, Cleanup];
        return;
      }
      ghost var c0 := queueCommandBufferIndex;
      ghost var pending := pendingCompletions;
      EncodeFrame(encoders, commandBufferCount, queues);
      events := events + [Cleanup];
      FrameCounters(c0, encoders, commandBufferCount, queues);
      FrameKeepsPendingOrdered(pending, lastCompletedCommand, c0, commandBufferCount - 1,
                               Frame(c0, encoders, commandBufferCount, queues));
    }

    /** The loop's locals and the context's fields are those of the loop
        state s, after the events and handlers already recorded in base and
        basePending. */
    ghost predicate Tracks(open: bool, committed: nat, waited: seq<nat>, base: seq<Event>,
                           basePending: seq<Handler>, s: Submission)
      reads this
    {
      && open == s.open && committed == s.committed && waited == s.waited
      && queueCommandBufferIndex == s.signal
      && events == base + s.log && pendingCompletions == basePending + s.handlers
    }

    /** The non-empty path of executeFrameGraph: the encoder loop and the
        final commit. */
    method EncodeFrame(encoders: seq<EncoderInfo>, commandBufferCount: nat, queues: seq<QueueState>)
      requires WellFormed(encoders, queues) && lastSubmittedCommand == queueCommandBufferIndex
      modifies this
      ensures var f := Frame(old(queueCommandBufferIndex), encoders, commandBufferCount, queues);
        && events == old(events) + f.log
        && queueCommandBufferIndex == f.signal
        && pendingCompletions == old(pendingCompletions) + f.handlers
      ensures lastSubmittedCommand == queueCommandBufferIndex
      ensures lastCompletedCommand == old(lastCompletedCommand)
    {
      var lastIndex: int := commandBufferCount - 1;
      ghost var c0 := queueCommandBufferIndex;
      ghost var base := events;
      ghost var basePending := pendingCompletions;
      var open := false;
      var committed := 0;
      var waited := Zeros(|queues|);
      for i := 0 to |encoders|
        invariant Tracks(open, committed, waited, base, basePending, Run(c0, encoders, i, lastIndex, queues))
        invariant lastSubmittedCommand == queueCommandBufferIndex
        invariant lastCompletedCommand == old(lastCompletedCommand)
      {
        ghost var s := Run(c0, encoders, i, lastIndex, queues);
        open, committed, waited := EncodeEncoder(open, committed, waited, encoders[i], i, lastIndex, queues,
                                                 s, base, basePending);
        assert Run(c0, encoders, i + 1, lastIndex, queues) == Step(s, encoders[i], i, lastIndex, queues);
      }
      ghost var r := Run(c0, encoders, |encoders|, lastIndex, queues);
      committed := ProcessCommandBuffer(open, committed, lastIndex, r, base, basePending);
    }

    /** One turn of the encoder loop, on the loop state s kept by the caller:
        commit the open buffer if the encoder names another one, open a
        buffer if none is open, encode the waits and then the encoder. */
    method EncodeEncoder(open: bool, committed: nat, waited: seq<nat>, e: EncoderInfo, i: nat, lastIndex: int,
                         queues: seq<QueueState>, ghost s: Submission, ghost base: seq<Event>,
                         ghost basePending: seq<Handler>)
      returns (open': bool, committed': nat, waited': seq<nat>)
      requires |s.waited| == |queues| && |e.queueCommandWaitIndices| == |queues|
      requires open == s.open && committed == s.committed && waited == s.waited && queueCommandBufferIndex == s.signal
      requires events == base + s.log && pendingCompletions == basePending + s.handlers
      requires lastSubmittedCommand == queueCommandBufferIndex
      modifies this
      ensures var r := Step(s, e, i, lastIndex, queues);
        && open' == r.open && committed' == r.committed && waited' == r.waited
        && queueCommandBufferIndex == r.signal
        && events == base + r.log && pendingCompletions == basePending + r.handlers
      ensures lastSubmittedCommand == queueCommandBufferIndex
      ensures lastCompletedCommand == old(lastCompletedCommand)
    {
      open', committed' := open, committed;
      ghost var s1 := s;
      if e.commandBufferIndex != committed {
        committed' := ProcessCommandBuffer(open, committed, lastIndex, s, base, basePending);
        open' := false;
        s1 := Process(s, lastIndex);
      }
      ghost var s2 := s1;
      if !open' {
        events := events + [OpenCommandBuffer];
        open' := true;
        s2 := s1.(open := true, log := s1.log + [OpenCommandBuffer]);
      }
      assert s2 == Reopen(s, e, lastIndex);
      EncodeWaits(waited, e.queueCommandWaitIndices, queues);
      waited' := PointwiseMax(e.queueCommandWaitIndices, waited);
      events := events + [EncodeCommands(i)];
      StepLog(s, e, i, lastIndex, queues);
      StepCounters(s, e, i, lastIndex, queues);
    }

    /** The waits of one encoder: for every queue whose wait value is above
        what was already waited for and above what the queue has completed,
        wait on its sync event, or spin until it completes when the backend
        has none. */
    method EncodeWaits(waited: seq<nat>, wait: seq<nat>, queues: seq<QueueState>)
      requires |waited| == |queues| && |wait| == |queues|
      modifies this
      ensures events == old(events) + WaitEvents(waited, wait, queues, |queues|)
      ensures queueCommandBufferIndex == old(queueCommandBufferIndex) && pendingCompletions == old(pendingCompletions)
      ensures lastSubmittedCommand == old(lastSubmittedCommand) && lastCompletedCommand == old(lastCompletedCommand)
    {
      for q := 0 to |queues|
        invariant events == old(events) + WaitEvents(waited, wait, queues, q)
        invariant queueCommandBufferIndex == old(queueCommandBufferIndex) && pendingCompletions == old(pendingCompletions)
        invariant lastSubmittedCommand == old(lastSubmittedCommand) && lastCompletedCommand == old(lastCompletedCommand)
      {
        if waited[q] < wait[q] && wait[q] > queues[q].lastCompletedCommand {
          if queues[q].hasSyncEvent {
            events := events + [WaitForEvent(q, wait[q])];
          } else {
            events := events + [SpinUntilCompleted(q, wait[q])];
          }
        }
      }
    }

    /** The completion handler of the oldest committed buffer: the queue's
        completed value advances to that buffer's signal value, and only the
        frame's last buffer reports completion and signals the semaphore. */
    method CommandBufferCompleted()
      requires Valid() && pendingCompletions != []
      modifies this
      ensures Valid()
      ensures var h := old(pendingCompletions[0]);
        && lastCompletedCommand == h.signalValue
        && pendingCompletions == old(pendingCompletions[1..])
        && events == old(events) + (if h.isLast then [Completion, SemaphoreSignal] else [])
      ensures lastCompletedCommand > old(lastCompletedCommand)
      ensures queueCommandBufferIndex == old(queueCommandBufferIndex)
    {
      var h := pendingCompletions[0];
      lastCompletedCommand := h.signalValue;
      if h.isLast {
        events := events + [Completion, SemaphoreSignal];
      }
      pendingCompletions := pendingCompletions[1..];
    }
  }
}

=== FILE: render_target.dfy ===
/** The Vulkan render-target merger: consecutive draw passes are merged
    greedily into one render pass with several subpasses while their
    attachments agree, and when the merged render pass is closed the load
    and store action of every attachment is chosen from the attachment's
    usage history. Clear values are opaque tokens. */
module RenderTargets {
  import opened Common

  // ----- Attachments and descriptors -----

  /** The outcome of comparing one attachment slot. */
  datatype MergeResult = Incompatible | Compatible | Identical

  /** A slot of the render target: the shared depth-stencil slot or colour
      slot i. */
  datatype AttachmentIndex = DepthStencilIndex | ColorIndex(i: nat)

  /** A texture's identity, which stays the same as its state changes. */
  type TextureId = nat

  /** A texture handle: its identity, its flags and whether its contents
      have been initialised. */
  datatype Texture = Texture(id: TextureId, flags: set<ResourceFlag>, initialised: bool)

  /** An attachment: the texture and the subresource it renders to. */
  datatype Attachment = Attachment(texture: Texture, level: nat, slice: nat, depthPlane: nat)

  datatype RenderTargetDescriptor = RenderTargetDescriptor(
    colorAttachments: seq<Option<Attachment>>,
    depthAttachment: Option<Attachment>,
    stencilAttachment: Option<Attachment>,
    visibilityResultBuffer: Option<nat>,
    renderTargetArrayLength: nat)

  /** What a pass asks for at the start of an attachment; a clear carries an
      opaque clear value. */
  datatype ClearOperation = Discard | Keep | Clear(value: int)

  /** A draw pass as the merger sees it: its position in the frame, whether
      it runs, its render target and its clear operations. */
  datatype RenderPassRecord = RenderPassRecord(
    passIndex: nat,
    isActive: bool,
    renderTargetDescriptor: RenderTargetDescriptor,
    colorClearOperation: nat -> ClearOperation,
    depthClearOperation: ClearOperation,
    stencilClearOperation: ClearOperation)

  /** tryUpdateDescriptor: the decision for one slot, and the slot's content
      afterwards. An empty slot adopts the pass's attachment; a pass that
      leaves the slot empty is compatible; a clear of an occupied slot, or a
      different attachment, is incompatible. */
  function TryUpdateDescriptor(current: Option<Attachment>, incoming: Option<Attachment>, clear: ClearOperation)
    : (MergeResult, Option<Attachment>)
  {
    if current.None? then (if incoming.None? then Identical else Compatible, incoming)
    else if incoming.None? then (Compatible, current)
    else if clear.Clear? then (Incompatible, current)
    else if current.value == incoming.value then (Identical, current)
    else (Incompatible, current)
  }

  /** The three outcomes, characterised: identical exactly when the pass
      names the same attachment (or none, like the slot) and does not clear
      an occupied slot; incompatible exactly when both are occupied and the
      pass clears or names another attachment. */
  lemma TryUpdateOutcomes(current: Option<Attachment>, incoming: Option<Attachment>, clear: ClearOperation)
    ensures var (r, _) := TryUpdateDescriptor(current, incoming, clear);
      && (r == Identical <==> incoming == current && !(current.Some? && clear.Clear?))
      && (r == Incompatible <==> current.Some? && incoming.Some? && (clear.Clear? || incoming != current))
  {
  }

  /** A slot that merges keeps the attachment it had and holds the pass's
      attachment: a merge never drops or replaces an attachment. */
  lemma TryUpdateKeepsBoth(current: Option<Attachment>, incoming: Option<Attachment>, clear: ClearOperation)
    ensures var (r, slot) := TryUpdateDescriptor(current, incoming, clear);
      r != Incompatible ==> (current.Some? ==> slot == current) && (incoming.Some? ==> slot == incoming)
  {
  }

  function ColorSlot(d: RenderTargetDescriptor, p: RenderPassRecord, i: nat): (MergeResult, Option<Attachment>)
    requires i < |d.colorAttachments| && i < |p.renderTargetDescriptor.colorAttachments|
  {
    TryUpdateDescriptor(d.colorAttachments[i], p.renderTargetDescriptor.colorAttachments[i], p.colorClearOperation(i))
  }

  function DepthSlot(d: RenderTargetDescriptor, p: RenderPassRecord): (MergeResult, Option<Attachment>) {
    TryUpdateDescriptor(d.depthAttachment, p.renderTargetDescriptor.depthAttachment, p.depthClearOperation)
  }

  function StencilSlot(d: RenderTargetDescriptor, p: RenderPassRecord): (MergeResult, Option<Attachment>) {
    TryUpdateDescriptor(d.stencilAttachment, p.renderTargetDescriptor.stencilAttachment, p.stencilClearOperation)
  }

  predicate SameColorCount(d: RenderTargetDescriptor, p: RenderPassRecord) {
    |p.renderTargetDescriptor.colorAttachments| == |d.colorAttachments|
  }

  /** None of the first n colour slots of the pass is incompatible. */
  predicate ColorsMerge(d: RenderTargetDescriptor, p: RenderPassRecord, n: nat)
    requires SameColorCount(d, p) && n <= |d.colorAttachments|
  {
    forall i :: 0 <= i < n ==> ColorSlot(d, p, i).0 != Incompatible
  }

  /** The first n colour slots of the pass are identical to the descriptor's. */
  predicate ColorsIdentical(d: RenderTargetDescriptor, p: RenderPassRecord, n: nat)
    requires SameColorCount(d, p) && n <= |d.colorAttachments|
  {
    forall i :: 0 <= i < n ==> ColorSlot(d, p, i).0 == Identical
  }

  /** No slot of the pass is incompatible with the descriptor. */
  predicate SlotsMerge(d: RenderTargetDescriptor, p: RenderPassRecord)
    requires SameColorCount(d, p)
  {
    && ColorsMerge(d, p, |d.colorAttachments|)
    && DepthSlot(d, p).0 != Incompatible
    && StencilSlot(d, p).0 != Incompatible
  }

  /** Every slot of the pass is identical to the descriptor's. */
  predicate SlotsIdentical(d: RenderTargetDescriptor, p: RenderPassRecord)
    requires SameColorCount(d, p)
  {
    && ColorsIdentical(d, p, |d.colorAttachments|)
    && DepthSlot(d, p).0 == Identical
    && StencilSlot(d, p).0 == Identical
  }

  /** The merged colour slots of the first n colour attachments. */
  function MergedColors(d: RenderTargetDescriptor, p: RenderPassRecord, n: nat): (r: seq<Option<Attachment>>)
    requires SameColorCount(d, p) && n <= |d.colorAttachments|
    ensures |r| == n
  {
    if n == 0 then [] else MergedColors(d, p, n - 1) + [ColorSlot(d, p, n - 1).1]
  }

  lemma {:induction false} MergedColorsAt(d: RenderTargetDescriptor, p: RenderPassRecord, n: nat, i: nat)
    requires SameColorCount(d, p) && i < n <= |d.colorAttachments|
    ensures MergedColors(d, p, n)[i] == ColorSlot(d, p, i).1
  {
    if i < n - 1 {
      MergedColorsAt(d, p, n - 1, i);
    }
  }

  /** The descriptor with every slot merged with the pass's. */
  function MergedSlots(d: RenderTargetDescriptor, p: RenderPassRecord): RenderTargetDescriptor
    requires SameColorCount(d, p)
  {
    d.(colorAttachments := MergedColors(d, p, |d.colorAttachments|),
       depthAttachment := DepthSlot(d, p).1,
       stencilAttachment := StencilSlot(d, p).1)
  }

  /** A successful merge widens the descriptor: every attachment it had and
      every attachment of the pass is in the merged descriptor, in its slot. */
  lemma MergeWidens(d: RenderTargetDescriptor, p: RenderPassRecord, i: nat)
    requires SameColorCount(d, p) && SlotsMerge(d, p) && i < |d.colorAttachments|
    ensures var m := MergedSlots(d, p);
      var n := p.renderTargetDescriptor;
      && (d.colorAttachments[i].Some? ==> m.colorAttachments[i] == d.colorAttachments[i])
      && (n.colorAttachments[i].Some? ==> m.colorAttachments[i] == n.colorAttachments[i])
      && (d.depthAttachment.Some? ==> m.depthAttachment == d.depthAttachment)
      && (n.depthAttachment.Some? ==> m.depthAttachment == n.depthAttachment)
      && (d.stencilAttachment.Some? ==> m.stencilAttachment == d.stencilAttachment)
      && (n.stencilAttachment.Some? ==> m.stencilAttachment == n.stencilAttachment)
  {
    MergedColorsAt(d, p, |d.colorAttachments|, i);
    TryUpdateKeepsBoth(d.colorAttachments[i], p.renderTargetDescriptor.colorAttachments[i], p.colorClearOperation(i));
    TryUpdateKeepsBoth(d.depthAttachment, p.renderTargetDescriptor.depthAttachment, p.depthClearOperation);
    TryUpdateKeepsBoth(d.stencilAttachment, p.renderTargetDescriptor.stencilAttachment, p.stencilClearOperation);
  }

  /** A pass naming exactly the descriptor's attachments, with no clears,
      is identical in every slot, so it shares the current subpass. */
  lemma SameTargetIsIdentical(d: RenderTargetDescriptor, p: RenderPassRecord)
    requires p.renderTargetDescriptor.colorAttachments == d.colorAttachments
    requires p.renderTargetDescriptor.depthAttachment == d.depthAttachment
    requires p.renderTargetDescriptor.stencilAttachment == d.stencilAttachment
    requires forall i :: 0 <= i < |d.colorAttachments| ==> !p.colorClearOperation(i).Clear?
    requires !p.depthClearOperation.Clear? && !p.stencilClearOperation.Clear?
    ensures SameColorCount(d, p) && SlotsMerge(d, p) && SlotsIdentical(d, p)
  {
  }

  /** A clear requested on a colour slot the descriptor already uses, by a
      pass that binds that slot, forbids the merge. */
  lemma ClearOnUsedSlotIsIncompatible(d: RenderTargetDescriptor, p: RenderPassRecord, i: nat)
    requires SameColorCount(d, p) && i < |d.colorAttachments|
    requires d.colorAttachments[i].Some? && p.renderTargetDescriptor.colorAttachments[i].Some?
    requires p.colorClearOperation(i).Clear?
    ensures !SlotsMerge(d, p)
  {
    assert ColorSlot(d, p, i).0 == Incompatible;
  }

  /** The visibility-result buffers conflict: the descriptor has one and the
      pass names another (or none). */
  predicate VisibilityConflict(d: RenderTargetDescriptor, p: RenderPassRecord) {
    d.visibilityResultBuffer.Some? && p.renderTargetDescriptor.visibilityResultBuffer != d.visibilityResultBuffer
  }

  /** The descriptor after a successful merge: the merged slots, the pass's
      visibility-result buffer and the larger array length. */
  function MergedDescriptor(d: RenderTargetDescriptor, p: RenderPassRecord): RenderTargetDescriptor
    requires SameColorCount(d, p)
  {
    MergedSlots(d, p).(visibilityResultBuffer := p.renderTargetDescriptor.visibilityResultBuffer,
                       renderTargetArrayLength := Max(d.renderTargetArrayLength,
                                                      p.renderTargetDescriptor.renderTargetArrayLength))
  }

  // ----- Load and store actions -----

  datatype LoadOp = LoadOpLoad | LoadOpClear | LoadOpDontCare
  datatype StoreOp = StoreOpStore | StoreOpDontCare
  datatype AttachmentActions = AttachmentActions(load: LoadOp, store: StoreOp)

  const DontCareActions := AttachmentActions(LoadOpDontCare, StoreOpDontCare)

  /** The clear value standing for the zero colour. */
  const ZeroClearColor: int := 0

  /** The load action after a pass asks for op: a clear always clears, a
      keep loads unless a load or clear is already chosen, a discard changes
      nothing. */
  function UpdatedLoad(op: ClearOperation, load: LoadOp): LoadOp {
    match op
    case Clear(_) => LoadOpClear
    case Keep => if load == LoadOpDontCare then LoadOpLoad else load
    case Discard => load
  }

  /** Once a pass has asked for the attachment's contents (a load or a
      clear), no later pass turns that back into don't-care; a clear is
      kept by every later pass. */
  lemma UpdatedLoadKeepsContents(op: ClearOperation, load: LoadOp)
    ensures load != LoadOpDontCare ==> UpdatedLoad(op, load) != LoadOpDontCare
    ensures load == LoadOpClear ==> UpdatedLoad(op, load) == LoadOpClear
    ensures UpdatedLoad(op, load) == LoadOpDontCare <==> load == LoadOpDontCare && op.Discard?
  {
  }

  function UpdatedClearValue(op: ClearOperation, value: int): int {
    if op.Clear? then op.value else value
  }

  function UpdatedActions(op: ClearOperation, a: AttachmentActions): AttachmentActions {
    a.(load := UpdatedLoad(op, a.load))
  }

  /** s extended to length n with fill. */
  function Padded<T>(s: seq<T>, n: nat, fill: T): (r: seq<T>)
    ensures |r| == Max(|s|, n)
    ensures forall i :: 0 <= i < |r| ==> r[i] == if i < |s| then s[i] else fill
  {
    if |s| >= n then s else s + seq(n - |s|, _ => fill)
  }

  // ----- Subpass dependencies -----

  /** A stage, access or dependency-flag mask, as the set of its bits; OR-ing
      two masks is their union. */
  type Mask = set<nat>

  datatype SubpassDependency = SubpassDependency(
    srcSubpass: nat, dstSubpass: nat,
    srcStageMask: Mask, dstStageMask: Mask,
    srcAccessMask: Mask, dstAccessMask: Mask,
    dependencyFlags: Mask)

  predicate SamePair(a: SubpassDependency, b: SubpassDependency) {
    a.srcSubpass == b.srcSubpass && a.dstSubpass == b.dstSubpass
  }

  /** A dependency with the masks of both. */
  function Combined(a: SubpassDependency, b: SubpassDependency): SubpassDependency {
    a.(srcStageMask := a.srcStageMask + b.srcStageMask,
       dstStageMask := a.dstStageMask + b.dstStageMask,
       srcAccessMask := a.srcAccessMask + b.srcAccessMask,
       dstAccessMask := a.dstAccessMask + b.dstAccessMask,
       dependencyFlags := a.dependencyFlags + b.dependencyFlags)
  }

  /** The position of the first dependency for d's subpass pair. */
  function PairIndex(deps: seq<SubpassDependency>, d: SubpassDependency): (r: Option<nat>)
    ensures r.None? <==> forall j :: 0 <= j < |deps| ==> !SamePair(deps[j], d)
    ensures r.Some? ==> r.value < |deps| && SamePair(deps[r.value], d)
                        && forall j :: 0 <= j < r.value ==> !SamePair(deps[j], d)
  {
    if deps == [] then None
    else if SamePair(deps[0], d) then Some(0)
    else match PairIndex(deps[1..], d)
      case None => None
      case Some(j) => Some(j + 1)
  }

  /** addDependency, on the list: the masks are OR-ed into the dependency
      for the same pair if there is one, otherwise d is appended. */
  function WithDependency(deps: seq<SubpassDependency>, d: SubpassDependency): seq<SubpassDependency> {
    match PairIndex(deps, d)
    case Some(j) => deps[j := Combined(deps[j], d)]
    case None => deps + [d]
  }

  /** At most one dependency per (source, destination) subpass pair. */
  predicate UniquePairs(deps: seq<SubpassDependency>) {
    forall j, k :: 0 <= j < k < |deps| ==> !SamePair(deps[j], deps[k])
  }

  /** Every mask of b is contained in a's. */
  predicate Covers(a: SubpassDependency, b: SubpassDependency) {
    && b.srcStageMask <= a.srcStageMask
    && b.dstStageMask <= a.dstStageMask
    && b.srcAccessMask <= a.srcAccessMask
    && b.dstAccessMask <= a.dstAccessMask
    && b.dependencyFlags <= a.dependencyFlags
  }

  /** Adding a dependency keeps one dependency per pair, and grows the list
      only when the pair is new. */
  lemma WithDependencyKeepsUnique(deps: seq<SubpassDependency>, d: SubpassDependency)
    requires UniquePairs(deps)
    ensures var r := WithDependency(deps, d);
      UniquePairs(r) && |r| == |deps| + (if PairIndex(deps, d).None? then 1 else 0)
  {
  }

  /** After adding d, the list has a dependency for d's pair covering d's
      masks, and every earlier dependency keeps its pair and is covered at
      its position: nothing is lost. */
  lemma WithDependencyCovers(deps: seq<SubpassDependency>, d: SubpassDependency)
    ensures var r := WithDependency(deps, d);
      && (exists j :: 0 <= j < |r| && SamePair(r[j], d) && Covers(r[j], d))
      && (forall j :: 0 <= j < |deps| ==> SamePair(r[j], deps[j]) && Covers(r[j], deps[j]))
  {
    var r := WithDependency(deps, d);
    match PairIndex(deps, d)
    case Some(j) =>
      assert SamePair(r[j], d) && Covers(r[j], d);
    case None =>
      assert SamePair(r[|deps|], d) && Covers(r[|deps|], d);
  }

  /** Adding the same dependency twice is adding it once. */
  lemma WithDependencyIdempotent(deps: seq<SubpassDependency>, d: SubpassDependency)
    ensures WithDependency(WithDependency(deps, d), d) == WithDependency(deps, d)
  {
    var r := WithDependency(deps, d);
    match PairIndex(deps, d)
    case Some(j) =>
      PairIndexIs(r, d, j);
      assert Combined(r[j], d) == r[j];
    case None =>
      PairIndexIs(r, d, |deps|);
      assert Combined(d, d) == d;
  }

  lemma PairIndexIs(deps: seq<SubpassDependency>, d: SubpassDependency, j: nat)
    requires j < |deps| && SamePair(deps[j], d)
    requires forall k :: 0 <= k < j ==> !SamePair(deps[k], d)
    ensures PairIndex(deps, d) == Some(j)
  {
    var r := PairIndex(deps, d);
    assert r.Some?;
  }

  // ----- Usage history -----

  datatype UsageType = ReadUsage | ReadWriteUsage | InputAttachmentUsage | OtherUsage

  /** One recorded use of a texture: the pass, whether the pass runs, the
      kind of use, and whether it reads the texture or binds it as a render
      target. */
  datatype Usage = Usage(passIndex: nat, isActive: bool, usageType: UsageType, isRead: bool, isRenderTarget: bool)

  /** A use that needs the attachment's contents after the merged passes
      [lower, upper): an active read after them, or an active depth or
      stencil render-target use (which reads too). */
  predicate NeedsContentsLater(u: Usage, upper: nat, isDepthStencil: bool) {
    u.isActive && u.passIndex >= upper && (u.isRead || (u.isRenderTarget && isDepthStencil))
  }

  /** An active use before the merged passes. */
  predicate UsedBefore(u: Usage, lower: nat) {
    u.isActive && u.passIndex < lower
  }

  /** The usage scan of loadAndStoreActions on its two flags: an earlier
      active use clears "first usage"; the first use that needs the contents
      later clears "last usage" and ends the scan; every other use is passed
      over. (The source tests "before the merged passes" ahead of "after
      them"; as lower <= upper for any descriptor, no use is both, so the
      order does not matter here.) */
  function Scan(us: seq<Usage>, lower: nat, upper: nat, isDepthStencil: bool, first: bool, last: bool): (bool, bool)
  {
    if us == [] then (first, last)
    else if NeedsContentsLater(us[0], upper, isDepthStencil) then (first, false)
    else Scan(us[1..], lower, upper, isDepthStencil, first && !UsedBefore(us[0], lower), last)
  }

  /** The number of uses the scan reads: up to and excluding the first use
      that needs the contents later. */
  function Horizon(us: seq<Usage>, upper: nat, isDepthStencil: bool): (h: nat)
    ensures h <= |us|
    ensures forall j :: 0 <= j < h ==> !NeedsContentsLater(us[j], upper, isDepthStencil)
    ensures h < |us| ==> NeedsContentsLater(us[h], upper, isDepthStencil)
  {
    if us == [] then 0
    else if NeedsContentsLater(us[0], upper, isDepthStencil) then 0
    else 1 + Horizon(us[1..], upper, isDepthStencil)
  }

  /** The scan's "last usage" holds exactly when it started so and no use
      needs the contents later. */
  lemma {:induction false} ScanLast(us: seq<Usage>, lower: nat, upper: nat, isDepthStencil: bool, first: bool, last: bool)
    ensures Scan(us, lower, upper, isDepthStencil, first, last).1 <==>
              last && forall j :: 0 <= j < |us| ==> !NeedsContentsLater(us[j], upper, isDepthStencil)
  {
    if us != [] {
      var f' := if UsedBefore(us[0], lower) then false else first;
      ScanLast(us[1..], lower, upper, isDepthStencil, f', last);
      assert forall j :: 1 <= j < |us| ==> us[j] == us[1..][j - 1];
    }
  }

  /** The scan's "first usage" holds exactly when it started so and no
      active use before the merged passes comes before the scan stops. */
  lemma {:induction false} ScanFirst(us: seq<Usage>, lower: nat, upper: nat, isDepthStencil: bool, first: bool, last: bool)
    ensures Scan(us, lower, upper, isDepthStencil, first, last).0 <==>
              first && forall j :: 0 <= j < Horizon(us, upper, isDepthStencil) ==> !UsedBefore(us[j], lower)
  {
    if us != [] && !NeedsContentsLater(us[0], upper, isDepthStencil) {
      var f' := if UsedBefore(us[0], lower) then false else first;
      ScanFirst(us[1..], lower, upper, isDepthStencil, f', last);
      assert forall j :: 1 <= j < |us| ==> us[j] == us[1..][j - 1];
    }
  }

  /** The state of the usage scan after the first k uses: the scan of the
      rest from the current flags gives the scan of all, and none of the
      first k uses needed the contents later. */
  predicate ScanInv(us: seq<Usage>, k: nat, lower: nat, upper: nat, isDepthStencil: bool,
                    first0: bool, last0: bool, first: bool, last: bool)
  {
    && k <= |us|
    && Scan(us, lower, upper, isDepthStencil, first0, last0) == Scan(us[k..], lower, upper, isDepthStencil, first, last)
    && forall j :: 0 <= j < k ==> !NeedsContentsLater(us[j], upper, isDepthStencil)
  }

  /** One more use: either it needs the contents later, and the scan ends
      there with "last usage" cleared, or the scan goes on with "first
      usage" cleared by an earlier use. */
  lemma ScanAdvance(us: seq<Usage>, k: nat, lower: nat, upper: nat, isDepthStencil: bool,
                    first0: bool, last0: bool, first: bool, last: bool)
    requires k < |us| && ScanInv(us, k, lower, upper, isDepthStencil, first0, last0, first, last)
    ensures NeedsContentsLater(us[k], upper, isDepthStencil) ==>
      (first, false) == Scan(us, lower, upper, isDepthStencil, first0, last0) && Horizon(us, upper, isDepthStencil) == k
    ensures !NeedsContentsLater(us[k], upper, isDepthStencil) ==>
      ScanInv(us, k + 1, lower, upper, isDepthStencil, first0, last0, first && !UsedBefore(us[k], lower), last)
  {
    assert us[k..][1..] == us[k + 1..];
  }

  /** All uses read: the flags are the scan's, and every use was read. */
  lemma ScanDone(us: seq<Usage>, lower: nat, upper: nat, isDepthStencil: bool,
                 first0: bool, last0: bool, first: bool, last: bool)
    requires ScanInv(us, |us|, lower, upper, isDepthStencil, first0, last0, first, last)
    ensures (first, last) == Scan(us, lower, upper, isDepthStencil, first0, last0)
    ensures Horizon(us, upper, isDepthStencil) == |us|
  {
    assert us[|us|..] == [];
  }

  /** Before the scan: a texture that was never initialised is at its first
      usage; a persistent or window texture, or an uninitialised history
      buffer, must keep its contents. */
  function InitialFlags(t: Texture): (bool, bool) {
    (!t.initialised,
     Persistent !in t.flags && WindowHandle !in t.flags && !(HistoryBuffer in t.flags && !t.initialised))
  }

  /** A load of contents that nothing wrote is dropped to don't-care. */
  function LoadFor(firstUsage: bool, load: LoadOp): LoadOp {
    if firstUsage && load == LoadOpLoad then LoadOpDontCare else load
  }

  function StoreFor(lastUsage: bool): StoreOp {
    if lastUsage then StoreOpDontCare else StoreOpStore
  }

  /** The actions loadAndStoreActions chooses for an attachment of texture t
      whose merged passes are [lower, upper) and whose load was load. */
  function ActionsFor(t: Texture, us: seq<Usage>, lower: nat, upper: nat, isDepthStencil: bool, load: LoadOp)
    : AttachmentActions
  {
    var (first, last) := Scan(us, lower, upper, isDepthStencil, InitialFlags(t).0, InitialFlags(t).1);
    AttachmentActions(LoadFor(first, load), StoreFor(last))
  }

  /** ActionsFor from the scan's flags. */
  lemma ActionsFromFlags(t: Texture, us: seq<Usage>, lower: nat, upper: nat, isDepthStencil: bool, load: LoadOp,
                         first: bool, last: bool)
    requires (first, last) == Scan(us, lower, upper, isDepthStencil, InitialFlags(t).0, InitialFlags(t).1)
    ensures ActionsFor(t, us, lower, upper, isDepthStencil, load) == AttachmentActions(LoadFor(first, load), StoreFor(last))
  {
  }

  /** The store action: STORE exactly when the texture must keep its
      contents (persistent, window, uninitialised history buffer) or some
      use after the merged passes needs them. */
  lemma ActionsStore(t: Texture, us: seq<Usage>, lower: nat, upper: nat, isDepthStencil: bool, load: LoadOp)
    ensures ActionsFor(t, us, lower, upper, isDepthStencil, load).store == StoreOpStore <==>
              (Persistent in t.flags || WindowHandle in t.flags || (HistoryBuffer in t.flags && !t.initialised)
               || exists j :: 0 <= j < |us| && NeedsContentsLater(us[j], upper, isDepthStencil))
  {
    ScanLast(us, lower, upper, isDepthStencil, InitialFlags(t).0, InitialFlags(t).1);
  }

  /** The load action: a requested LOAD is dropped to DONT_CARE exactly when
      the texture was never initialised and no active use before the merged
      passes is seen; any other load action is kept. */
  lemma ActionsLoad(t: Texture, us: seq<Usage>, lower: nat, upper: nat, isDepthStencil: bool, load: LoadOp)
    ensures var a := ActionsFor(t, us, lower, upper, isDepthStencil, load);
      && (load != LoadOpLoad ==> a.load == load)
      && (load == LoadOpLoad ==>
            (a.load == LoadOpDontCare <==>
               !t.initialised && forall j :: 0 <= j < Horizon(us, upper, isDepthStencil) ==> !UsedBefore(us[j], lower)))
      && (a.load != LoadOpDontCare ==> a.load == load)
  {
    ScanFirst(us, lower, upper, isDepthStencil, InitialFlags(t).0, InitialFlags(t).1);
  }

  // ----- Clear values -----

  /** The colour actions after updateClearValues: extended with don't-care
      actions to the pass's attachment count, and the load action of every
      slot the pass binds updated by the pass's clear operation. */
  function UpdatedColorActions(actions: seq<AttachmentActions>, p: RenderPassRecord): (r: seq<AttachmentActions>)
    ensures |r| == Max(|actions|, |p.renderTargetDescriptor.colorAttachments|)
  {
    var colors := p.renderTargetDescriptor.colorAttachments;
    seq(Max(|actions|, |colors|), i =>
      var a := if 0 <= i < |actions| then actions[i] else DontCareActions;
      if 0 <= i < |colors| && colors[i].Some? then UpdatedActions(p.colorClearOperation(i), a) else a)
  }

  /** The clear colours after updateClearValues, extended with the zero
      colour in the same way. */
  function UpdatedClearColors(clears: seq<int>, p: RenderPassRecord): (r: seq<int>)
    ensures |r| == Max(|clears|, |p.renderTargetDescriptor.colorAttachments|)
  {
    var colors := p.renderTargetDescriptor.colorAttachments;
    seq(Max(|clears|, |colors|), i =>
      var c := if 0 <= i < |clears| then clears[i] else ZeroClearColor;
      if 0 <= i < |colors| && colors[i].Some? then UpdatedClearValue(p.colorClearOperation(i), c) else c)
  }

  /** What updateClearValues promises for a colour slot: the slots of the
      earlier passes keep their store action, and their contents once asked
      for; a slot the pass clears is cleared with the pass's value; a slot
      the pass keeps is loaded unless already cleared; a slot the pass does
      not bind is unchanged; new slots start as don't-care with the zero
      colour. */
  lemma UpdatedColorSlot(actions: seq<AttachmentActions>, clears: seq<int>, p: RenderPassRecord, i: nat)
    requires |actions| == |clears| && i < Max(|actions|, |p.renderTargetDescriptor.colorAttachments|)
    ensures var a := UpdatedColorActions(actions, p)[i];
      var c := UpdatedClearColors(clears, p)[i];
      var before := if i < |actions| then actions[i] else DontCareActions;
      var clearBefore := if i < |clears| then clears[i] else ZeroClearColor;
      var binds := i < |p.renderTargetDescriptor.colorAttachments| && p.renderTargetDescriptor.colorAttachments[i].Some?;
      && a.store == before.store
      && (before.load != LoadOpDontCare ==> a.load != LoadOpDontCare)
      && (binds && p.colorClearOperation(i).Clear? ==> a.load == LoadOpClear && c == p.colorClearOperation(i).value)
      && (binds && p.colorClearOperation(i).Keep? ==>
            a.load == (if before.load == LoadOpDontCare then LoadOpLoad else before.load) && c == clearBefore)
      && (!binds || p.colorClearOperation(i).Discard? ==> a == before && c == clearBefore)
  {
    var before := if i < |actions| then actions[i] else DontCareActions;
    UpdatedLoadKeepsContents(p.colorClearOperation(i), before.load);
  }

  /** The colour part of updateClearValues: pad both lists to the pass's
      slot count, then fold in the clear operation of each bound slot. */
  method ColorClearValues(actionsBefore: seq<AttachmentActions>, clearsBefore: seq<int>, pass: RenderPassRecord)
    returns (actions: seq<AttachmentActions>, clears: seq<int>)
    requires |actionsBefore| == |clearsBefore|
    ensures actions == UpdatedColorActions(actionsBefore, pass)
    ensures clears == UpdatedClearColors(clearsBefore, pass)
  {
    var colors := pass.renderTargetDescriptor.colorAttachments;
    var toAdd := if |colors| > |clearsBefore| then |colors| - |clearsBefore| else 0;
    clears := clearsBefore + seq(toAdd, _ => ZeroClearColor);
    actions := actionsBefore + seq(toAdd, _ => DontCareActions);
    ghost var paddedActions, paddedClears := actions, clears;
    for i := 0 to |colors|
      invariant |actions| == |paddedActions| && |clears| == |paddedClears|
      invariant forall j :: 0 <= j < |actions| ==>
        actions[j] == (if j < i && colors[j].Some? then UpdatedActions(pass.colorClearOperation(j), paddedActions[j])
                       else paddedActions[j])
      invariant forall j :: 0 <= j < |clears| ==>
        clears[j] == (if j < i && colors[j].Some? then UpdatedClearValue(pass.colorClearOperation(j), paddedClears[j])
                      else paddedClears[j])
    {
      if colors[i].Some? {
        match pass.colorClearOperation(i)
        case Clear(value) =>
          clears := clears[i := value];
          actions := actions[i := actions[i].(load := LoadOpClear)];
        case Keep =>
          if actions[i].load == LoadOpDontCare {
            actions := actions[i := actions[i].(load := LoadOpLoad)];
          }
        case Discard =>
      }
    }
    assert forall j :: 0 <= j < |actions| ==> actions[j] == UpdatedColorActions(actionsBefore, pass)[j];
    assert forall j :: 0 <= j < |clears| ==> clears[j] == UpdatedClearColors(clearsBefore, pass)[j];
  }

  /** The colour loop of tryMerge: merge the colour slots in order,
      stopping at the first incompatible one; the result is identical while
      every slot was. (The source pads the colour slots to the pass's count
      first; with equal counts, which tryMerge checks before, that pads
      nothing.) */
  method MergeColorSlots(d: RenderTargetDescriptor, pass: RenderPassRecord)
    returns (result: MergeResult, colors: seq<Option<Attachment>>)
    requires SameColorCount(d, pass)
    ensures result == Incompatible <==> !ColorsMerge(d, pass, |d.colorAttachments|)
    ensures result != Incompatible ==> colors == MergedColors(d, pass, |d.colorAttachments|)
    ensures result == Identical <==> ColorsIdentical(d, pass, |d.colorAttachments|)
  {
    colors := d.colorAttachments;
    result := Identical;
    for i := 0 to |d.colorAttachments|
      invariant |colors| == |d.colorAttachments|
      invariant forall j :: 0 <= j < |colors| ==> colors[j] == if j < i then ColorSlot(d, pass, j).1 else d.colorAttachments[j]
      invariant ColorsMerge(d, pass, i) && result != Incompatible
      invariant result == Identical <==> ColorsIdentical(d, pass, i)
    {
      var outcome := TryUpdateDescriptor(colors[i], pass.renderTargetDescriptor.colorAttachments[i],
                                         pass.colorClearOperation(i));
      assert outcome == ColorSlot(d, pass, i);
      if outcome.0 == Incompatible {
        return Incompatible, colors;
      }
      if outcome.0 == Compatible {
        result := Compatible;
      }
      colors := colors[i := outcome.1];
    }
    forall j | 0 <= j < |colors|
      ensures colors[j] == MergedColors(d, pass, |d.colorAttachments|)[j]
    {
      MergedColorsAt(d, pass, |d.colorAttachments|, j);
    }
  }

  /** The slot checks of tryMerge: the colour slots, then depth, then
      stencil, stopping at the first incompatible slot. */
  method MergeSlots(d: RenderTargetDescriptor, pass: RenderPassRecord) returns (result: MergeResult, merged: RenderTargetDescriptor)
    requires SameColorCount(d, pass)
    ensures result == Incompatible <==> !SlotsMerge(d, pass)
    ensures result != Incompatible ==> merged == MergedSlots(d, pass)
    ensures result == Identical <==> SlotsIdentical(d, pass)
  {
    var colors;
    result, colors := MergeColorSlots(d, pass);
    merged := d.(colorAttachments := colors);
    if result == Incompatible {
      return;
    }
    var (r, slot) := TryUpdateDescriptor(d.depthAttachment, pass.renderTargetDescriptor.depthAttachment,
                                         pass.depthClearOperation);
    if r == Incompatible {
      return Incompatible, merged;
    }
    if r == Compatible {
      result := Compatible;
    }
    merged := merged.(depthAttachment := slot);
    var (r', slot') := TryUpdateDescriptor(d.stencilAttachment, pass.renderTargetDescriptor.stencilAttachment,
                                           pass.stencilClearOperation);
    if r' == Incompatible {
      return Incompatible, merged;
    }
    if r' == Compatible {
      result := Compatible;
    }
    merged := merged.(stencilAttachment := slot');
  }

  /** A pass naming exactly the descriptor's attachments, with no clears,
      passes every slot check of tryMerge; when the descriptor already has a
      visibility-result buffer and the pass names another, the visibility
      check still rejects it. */
  lemma VisibilityRejectsAfterSlots(d: RenderTargetDescriptor, p: RenderPassRecord)
    requires p.renderTargetDescriptor == d.(visibilityResultBuffer := p.renderTargetDescriptor.visibilityResultBuffer)
    requires forall i :: 0 <= i < |d.colorAttachments| ==> !p.colorClearOperation(i).Clear?
    requires !p.depthClearOperation.Clear? && !p.stencilClearOperation.Clear?
    requires d.visibilityResultBuffer.Some? && p.renderTargetDescriptor.visibilityResultBuffer != d.visibilityResultBuffer
    ensures SameColorCount(d, p) && SlotsMerge(d, p) && SlotsIdentical(d, p) && VisibilityConflict(d, p)
  {
    SameTargetIsIdentical(d, p);
  }

  // ----- Subpasses -----

  /** Every element of b is in a. */
  predicate Includes<T(==)>(a: seq<T>, b: seq<T>) {
    forall x :: x in b ==> x in a
  }

  lemma IncludesTransitive<T>(a: seq<T>, b: seq<T>, c: seq<T>)
    requires Includes(a, b) && Includes(b, c)
    ensures Includes(a, c)
  {
  }

  predicate NoDuplicates<T(==)>(s: seq<T>) {
    forall j, k :: 0 <= j < k < |s| ==> s[j] != s[k]
  }

  /** The slot exists in the descriptor (a colour index past the end would
      trap). */
  predicate Addressable(d: RenderTargetDescriptor, a: AttachmentIndex) {
    a.ColorIndex? ==> a.i < |d.colorAttachments|
  }

  /** The descriptor binds something to the slot. */
  predicate Binds(d: RenderTargetDescriptor, a: AttachmentIndex)
    requires Addressable(d, a)
  {
    match a
    case DepthStencilIndex => d.depthAttachment.Some? || d.stencilAttachment.Some?
    case ColorIndex(i) => d.colorAttachments[i].Some?
  }

  class VulkanSubpass {
    const descriptor: RenderTargetDescriptor
    const index: nat
    var inputAttachments: seq<AttachmentIndex>
    var preserveAttachments: seq<AttachmentIndex>

    /** No slot is listed twice, and a preserved slot is never one the
        subpass itself binds. */
    ghost predicate Valid()
      reads this
    {
      && NoDuplicates(inputAttachments)
      && NoDuplicates(preserveAttachments)
      && forall k :: 0 <= k < |preserveAttachments| ==>
           Addressable(descriptor, preserveAttachments[k]) && !Binds(descriptor, preserveAttachments[k])
    }

    constructor(descriptor: RenderTargetDescriptor, index: nat)
      ensures Valid()
      ensures this.descriptor == descriptor && this.index == index
      ensures inputAttachments == [] && preserveAttachments == []
    {
      this.descriptor := descriptor;
      this.index := index;
      inputAttachments := [];
      preserveAttachments := [];
    }

    /** preserve: list the slot as preserved unless it is listed already or
        the subpass binds it. */
    method Preserve(attachmentIndex: AttachmentIndex)
      requires Addressable(descriptor, attachmentIndex)
      modifies this
      ensures old(Valid()) ==> Valid()
      ensures preserveAttachments == old(preserveAttachments) +
                (if attachmentIndex in old(preserveAttachments) || Binds(descriptor, attachmentIndex) then []
                 else [attachmentIndex])
      ensures inputAttachments == old(inputAttachments)
    {
      if attachmentIndex !in preserveAttachments {
        if attachmentIndex.DepthStencilIndex? && (descriptor.depthAttachment.Some? || descriptor.stencilAttachment.Some?) {
          return;
        }
        if attachmentIndex.ColorIndex? && descriptor.colorAttachments[attachmentIndex.i].Some? {
          return;
        }
        preserveAttachments := preserveAttachments + [attachmentIndex];
      }
    }

    /** readFrom: list the slot as an input attachment unless it is listed
        already. */
    method ReadFrom(attachmentIndex: AttachmentIndex)
      modifies this
      ensures old(Valid()) ==> Valid()
      ensures inputAttachments == old(inputAttachments) +
                (if attachmentIndex in old(inputAttachments) then [] else [attachmentIndex])
      ensures attachmentIndex in inputAttachments
      ensures preserveAttachments == old(preserveAttachments)
    {
      if attachmentIndex !in inputAttachments {
        inputAttachments := inputAttachments + [attachmentIndex];
      }
    }
  }

  /** The subpass lists slot a as preserved, or binds it itself (preserve
      skips a bound slot). */
  ghost predicate PreservedIn(s: VulkanSubpass, a: AttachmentIndex)
    reads s
  {
    Addressable(s.descriptor, a) && (a in s.preserveAttachments || Binds(s.descriptor, a))
  }

  /** Every pass from <= p < to has slot a preserved in its subpass; ss[m]
      is the subpass of pass lower + m. */
  ghost predicate PreservedBetween(ss: seq<VulkanSubpass>, a: AttachmentIndex, from: nat, to: nat, lower: nat)
    reads ss
  {
    forall m :: 0 <= m < |ss| && from <= lower + m < to ==> PreservedIn(ss[m], a)
  }

  /** An active use inside the merged passes [lower, upper). */
  predicate LocalUse(u: Usage, lower: nat, upper: nat) {
    u.isActive && lower <= u.passIndex < upper
  }

  /** An active use, inside the merged passes [lower, upper), that reads
      the attachment in the shader (as a texture, a storage image or an
      input attachment). */
  predicate ReadsInside(u: Usage, lower: nat, upper: nat) {
    u.isActive && lower <= u.passIndex < upper && u.usageType != OtherUsage
  }

  /** The input-attachment lists of the subpasses, in order. */
  ghost function InputLists(ss: seq<VulkanSubpass>): (r: seq<seq<AttachmentIndex>>)
    reads ss
    ensures |r| == |ss| && forall m :: 0 <= m < |ss| ==> r[m] == ss[m].inputAttachments
  {
    if |ss| == 0 then [] else InputLists(ss[..|ss| - 1]) + [ss[|ss| - 1].inputAttachments]
  }

  /** Each list of ins includes the list at the same place in ins0. */
  predicate ListsGrown(ins: seq<seq<AttachmentIndex>>, ins0: seq<seq<AttachmentIndex>>) {
    |ins| == |ins0| && forall m :: 0 <= m < |ins| ==> Includes(ins[m], ins0[m])
  }

  /** Every use the usage scan reaches (those before Horizon) that reads the
      attachment inside the merged passes finds slot a in the input
      attachments of its pass's subpass; ins[m] is the input list of the
      subpass of pass lower + m (InputLists). */
  predicate InputsRecorded(ins: seq<seq<AttachmentIndex>>, a: AttachmentIndex, us: seq<Usage>, lower: nat, upper: nat) {
    forall j ::
      0 <= j < Horizon(us, upper, a.DepthStencilIndex?) && ReadsInside(us[j], lower, upper)
      && us[j].passIndex - lower < |ins|
      ==> a in ins[us[j].passIndex - lower]
  }

  /** Recorded reads stay recorded while the input lists only grow. */
  lemma InputsRecordedGrown(ins: seq<seq<AttachmentIndex>>, ins0: seq<seq<AttachmentIndex>>,
                            a: AttachmentIndex, us: seq<Usage>, lower: nat, upper: nat)
    requires ListsGrown(ins, ins0) && InputsRecorded(ins0, a, us, lower, upper)
    ensures InputsRecorded(ins, a, us, lower, upper)
  {
  }

  /** A use that makes the walk jump on its first local use: inside the
      merged passes, in a subpass after the first (subpass indices start at
      0 with ss[0]). */
  predicate Jumps(u: Usage, ss: seq<VulkanSubpass>, lower: nat, upper: nat) {
    LocalUse(u, lower, upper) && u.passIndex - lower < |ss| && 0 < ss[u.passIndex - lower].index
  }

  /** The pass the walk first jumps to, among the uses us, if any. */
  function FirstJump(us: seq<Usage>, ss: seq<VulkanSubpass>, lower: nat, upper: nat): Option<nat>
    decreases |us|
  {
    if |us| == 0 then None
    else if FirstJump(us[..|us| - 1], ss, lower, upper).Some? then FirstJump(us[..|us| - 1], ss, lower, upper)
    else if Jumps(us[|us| - 1], ss, lower, upper) then Some(us[|us| - 1].passIndex)
    else None
  }

  /** The preserve marking of a run of uses whose walk first jumped to
      pass f: from f on, every pass whose subpass comes before the subpass
      of some use inside the merged passes has slot a preserved (or binds
      it). */
  ghost predicate PreservedFrom(ss: seq<VulkanSubpass>, a: AttachmentIndex, us: seq<Usage>, f: Option<nat>,
                                lower: nat, upper: nat)
    reads ss
  {
    f.Some? ==>
      forall j, m ::
        0 <= j < |us| && LocalUse(us[j], lower, upper) && us[j].passIndex - lower < |ss|
        && 0 <= m < |ss| && f.value <= lower + m && ss[m].index < ss[us[j].passIndex - lower].index
        ==> PreservedIn(ss[m], a)
  }

  /** The preserve marking of the usage scan: that of the uses the scan
      reaches (those before Horizon), from the pass its walk first jumps
      to. */
  ghost predicate ScanPreserved(ss: seq<VulkanSubpass>, a: AttachmentIndex, us: seq<Usage>, lower: nat, upper: nat)
    reads ss
  {
    PreservedFrom(ss, a, us[..Horizon(us, upper, a.DepthStencilIndex?)],
                  FirstJump(us[..Horizon(us, upper, a.DepthStencilIndex?)], ss, lower, upper), lower, upper)
  }

  /** Since the earlier state, every subpass's input and preserve lists
      have only gained entries and every subpass that kept its invariant
      still keeps it. */
  twostate predicate SubpassesGrown(ss: seq<VulkanSubpass>)
    reads ss
  {
    forall m :: 0 <= m < |ss| ==>
      && Includes(ss[m].inputAttachments, old(ss[m].inputAttachments))
      && Includes(ss[m].preserveAttachments, old(ss[m].preserveAttachments))
      && (old(ss[m].Valid()) ==> ss[m].Valid())
  }

  /** The usage loop's state after the first k uses: every reading use
      among them inside the merged passes has slot a among its subpass's
      input attachments; current is the pass the preserve walk has reached,
      isFirstLocalUsage holds until the walk's first jump, every pass from
      that jump up to current has slot a preserved, and the subpass of
      current is not before that of any local use seen. */
  ghost predicate WalkInv(ss: seq<VulkanSubpass>, a: AttachmentIndex, us: seq<Usage>, k: nat,
                          lower: nat, upper: nat, current: nat, isFirstLocalUsage: bool)
    reads ss
  {
    && k <= |us| && lower <= current < lower + |ss|
    && (forall j :: 0 <= j < k && ReadsInside(us[j], lower, upper) ==>
          us[j].passIndex - lower < |ss| && a in ss[us[j].passIndex - lower].inputAttachments)
    && (isFirstLocalUsage <==> FirstJump(us[..k], ss, lower, upper).None?)
    && (isFirstLocalUsage ==> current == lower)
    && (FirstJump(us[..k], ss, lower, upper).Some? ==>
          FirstJump(us[..k], ss, lower, upper).value <= current
          && PreservedBetween(ss, a, FirstJump(us[..k], ss, lower, upper).value, current, lower))
    && (forall j :: 0 <= j < k && LocalUse(us[j], lower, upper) ==>
          us[j].passIndex - lower < |ss| && ss[current - lower].index >= ss[us[j].passIndex - lower].index)
  }

  /** One use further: the usage loop's state after the first k uses, the
      preserve walk's step over use k (as VisitUsage reports it) and the
      recording and preserve marking that step leaves behind give the state
      after the first k + 1 uses. */
  lemma WalkAdvance(ss: seq<VulkanSubpass>, a: AttachmentIndex, us: seq<Usage>, k: nat, lower: nat, upper: nat,
                    current: nat, isFirstLocalUsage: bool, current': nat, isFirstLocalUsage': bool)
    requires k < |us| && upper == lower + |ss| && lower <= current <= current' < upper
    requires ss[0].index == 0 && forall i, j :: 0 <= i <= j < |ss| ==> ss[i].index <= ss[j].index
    requires isFirstLocalUsage <==> FirstJump(us[..k], ss, lower, upper).None?
    requires isFirstLocalUsage ==> current == lower
    requires FirstJump(us[..k], ss, lower, upper).Some? ==> FirstJump(us[..k], ss, lower, upper).value <= current
    requires forall j :: 0 <= j < k && LocalUse(us[j], lower, upper) ==>
               ss[current - lower].index >= ss[us[j].passIndex - lower].index
    requires isFirstLocalUsage ==>
               (isFirstLocalUsage' <==>
                  !(LocalUse(us[k], lower, upper)
                    && ss[current - lower].index < ss[us[k].passIndex - lower].index))
    requires isFirstLocalUsage' ==> current' == current
    requires isFirstLocalUsage && !isFirstLocalUsage' ==> current' == us[k].passIndex
    requires !isFirstLocalUsage ==> !isFirstLocalUsage'
    requires LocalUse(us[k], lower, upper) ==> ss[current' - lower].index >= ss[us[k].passIndex - lower].index
    requires forall j :: 0 <= j <= k && ReadsInside(us[j], lower, upper) ==>
               a in ss[us[j].passIndex - lower].inputAttachments
    requires FirstJump(us[..k], ss, lower, upper).Some? ==>
               PreservedBetween(ss, a, FirstJump(us[..k], ss, lower, upper).value, current', lower)
    ensures WalkInv(ss, a, us, k + 1, lower, upper, current', isFirstLocalUsage')
  {
    assert us[..k + 1][..k] == us[..k];
    assert ss[current - lower].index <= ss[current' - lower].index;
  }

  /** The usage loop's state when it stops, after the uses up to the
      horizon (and the use after it, when that lies after the merged
      passes): every reading use the scan reaches is recorded and the
      scan's preserve marking holds. */
  lemma ScanConcluded(ss: seq<VulkanSubpass>, a: AttachmentIndex, us: seq<Usage>, lower: nat, upper: nat,
                      k: nat, current: nat, isFirstLocalUsage: bool)
    requires forall i, j :: 0 <= i <= j < |ss| ==> ss[i].index <= ss[j].index
    requires k <= |us|
    requires Horizon(us, upper, a.DepthStencilIndex?) == k
             || (Horizon(us, upper, a.DepthStencilIndex?) + 1 == k && !LocalUse(us[k - 1], lower, upper))
    requires WalkInv(ss, a, us, k, lower, upper, current, isFirstLocalUsage)
    ensures InputsRecorded(InputLists(ss), a, us, lower, upper)
    ensures ScanPreserved(ss, a, us, lower, upper)
  {
    var h := Horizon(us, upper, a.DepthStencilIndex?);
    forall j | 0 <= j < h && ReadsInside(us[j], lower, upper) && us[j].passIndex - lower < |ss|
      ensures a in InputLists(ss)[us[j].passIndex - lower]
    {
    }
    if h < k {
      assert us[..k][..h] == us[..h];
    }
    assert FirstJump(us[..h], ss, lower, upper) == FirstJump(us[..k], ss, lower, upper);
  }

  /** Every bound colour slot before slot n has its reads recorded. */
  predicate ColorsRecorded(ins: seq<seq<AttachmentIndex>>, colors: seq<Option<Attachment>>,
                           usages: map<TextureId, seq<Usage>>, lower: nat, upper: nat, n: nat)
  {
    forall c :: 0 <= c < n && c < |colors| && colors[c].Some? ==>
      InputsRecorded(ins, ColorIndex(c), UsagesOf(usages, colors[c].value.texture), lower, upper)
  }

  /** Recorded colour reads stay recorded while the input lists only grow. */
  lemma ColorsRecordedGrown(ins: seq<seq<AttachmentIndex>>, ins0: seq<seq<AttachmentIndex>>,
                            colors: seq<Option<Attachment>>, usages: map<TextureId, seq<Usage>>,
                            lower: nat, upper: nat, n: nat)
    requires ListsGrown(ins, ins0) && ColorsRecorded(ins0, colors, usages, lower, upper, n)
    ensures ColorsRecorded(ins, colors, usages, lower, upper, n)
  {
    forall c | 0 <= c < n && c < |colors| && colors[c].Some?
      ensures InputsRecorded(ins, ColorIndex(c), UsagesOf(usages, colors[c].value.texture), lower, upper)
    {
      InputsRecordedGrown(ins, ins0, ColorIndex(c), UsagesOf(usages, colors[c].value.texture), lower, upper);
    }
  }

  /** The depth or stencil slot, when bound, has its reads recorded. */
  predicate SlotRecorded(ins: seq<seq<AttachmentIndex>>, slot: Option<Attachment>,
                         usages: map<TextureId, seq<Usage>>, lower: nat, upper: nat)
  {
    slot.Some? ==> InputsRecorded(ins, DepthStencilIndex, UsagesOf(usages, slot.value.texture), lower, upper)
  }

  /** Every bound attachment of the descriptor has its reads recorded. */
  predicate AttachmentsRecorded(ins: seq<seq<AttachmentIndex>>, d: RenderTargetDescriptor,
                                usages: map<TextureId, seq<Usage>>, lower: nat, upper: nat)
  {
    && ColorsRecorded(ins, d.colorAttachments, usages, lower, upper, |d.colorAttachments|)
    && SlotRecorded(ins, d.depthAttachment, usages, lower, upper)
    && SlotRecorded(ins, d.stencilAttachment, usages, lower, upper)
  }

  /** The recorded uses of a texture in the frame (none when it has no
      entry). */
  function UsagesOf(usages: map<TextureId, seq<Usage>>, t: Texture): seq<Usage> {
    if t.id in usages then usages[t.id] else []
  }

  /** The actions finalise chooses for colour slot i: don't-care for an
      empty slot, otherwise those of loadAndStoreActions from the slot's
      load action. */
  function FinalColorActions(d: RenderTargetDescriptor, actions: seq<AttachmentActions>, usages: map<TextureId, seq<Usage>>,
                             lower: nat, upper: nat, i: nat): AttachmentActions
    requires i < |d.colorAttachments| && |actions| == |d.colorAttachments|
  {
    match d.colorAttachments[i]
    case None => DontCareActions
    case Some(a) => ActionsFor(a.texture, UsagesOf(usages, a.texture), lower, upper, false, actions[i].load)
  }

  /** The actions finalise chooses for the depth or the stencil slot. */
  function FinalActions(slot: Option<Attachment>, actions: AttachmentActions, usages: map<TextureId, seq<Usage>>,
                        lower: nat, upper: nat): AttachmentActions
  {
    match slot
    case None => actions
    case Some(a) => ActionsFor(a.texture, UsagesOf(usages, a.texture), lower, upper, true, actions.load)
  }

  /** The texture of a slot whose chosen actions store it. */
  function Stored(slot: Option<Attachment>, actions: AttachmentActions): seq<Texture> {
    if slot.Some? && actions.store == StoreOpStore then [slot.value.texture] else []
  }

  /** The textures of the first n colour slots whose actions store them,
      in slot order. */
  function StoredColors(colors: seq<Option<Attachment>>, actions: seq<AttachmentActions>, n: nat): seq<Texture>
    requires n <= |colors| && n <= |actions|
  {
    if n == 0 then [] else StoredColors(colors, actions, n - 1) + Stored(colors[n - 1], actions[n - 1])
  }

  /** Actions after the first n do not matter. */
  lemma {:induction false} StoredColorsPrefix(colors: seq<Option<Attachment>>, actions: seq<AttachmentActions>,
                                              more: seq<AttachmentActions>, n: nat)
    requires n <= |colors| && n <= |actions|
    ensures StoredColors(colors, actions + more, n) == StoredColors(colors, actions, n)
  {
    if n > 0 {
      StoredColorsPrefix(colors, actions, more, n - 1);
      assert (actions + more)[n - 1] == actions[n - 1];
    }
  }

  /** The colour loop of finalise after i slots: the actions of those
      slots chosen, and the textures they store appended. */
  predicate ColorsFinalised(d: RenderTargetDescriptor, before: seq<AttachmentActions>, usages: map<TextureId, seq<Usage>>,
                            lower: nat, upper: nat, i: nat, actions: seq<AttachmentActions>,
                            storedTextures: seq<Texture>, stored: seq<Texture>)
  {
    && i <= |d.colorAttachments| && |before| == |d.colorAttachments| && |actions| == i
    && (forall j :: 0 <= j < i ==> actions[j] == FinalColorActions(d, before, usages, lower, upper, j))
    && stored == storedTextures + StoredColors(d.colorAttachments, actions, i)
  }

  /** One more colour slot. */
  lemma ColorsFinalisedStep(d: RenderTargetDescriptor, before: seq<AttachmentActions>, usages: map<TextureId, seq<Usage>>,
                            lower: nat, upper: nat, i: nat, actions: seq<AttachmentActions>,
                            storedTextures: seq<Texture>, stored: seq<Texture>,
                            slotActions: AttachmentActions, stored': seq<Texture>)
    requires ColorsFinalised(d, before, usages, lower, upper, i, actions, storedTextures, stored)
    requires i < |d.colorAttachments| && slotActions == FinalColorActions(d, before, usages, lower, upper, i)
    requires stored' == stored + Stored(d.colorAttachments[i], slotActions)
    ensures ColorsFinalised(d, before, usages, lower, upper, i + 1, actions + [slotActions], storedTextures, stored')
  {
    var actions' := actions + [slotActions];
    forall j | 0 <= j < i + 1
      ensures actions'[j] == FinalColorActions(d, before, usages, lower, upper, j)
    {
      if j < i {
        assert actions'[j] == actions[j];
      }
    }
    StoredColorsPrefix(d.colorAttachments, actions, [slotActions], i);
    assert StoredColors(d.colorAttachments, actions', i + 1)
           == StoredColors(d.colorAttachments, actions, i) + Stored(d.colorAttachments[i], slotActions);
  }

  /** tryMerge accepts a pass exactly when it has the descriptor's colour
      slot count, every slot merges and the visibility buffers agree. */
  predicate CanMerge(d: RenderTargetDescriptor, p: RenderPassRecord) {
    SameColorCount(d, p) && SlotsMerge(d, p) && !VisibilityConflict(d, p)
  }

  // ----- The render-target descriptor -----

  /** The subpass list of a descriptor with colorCount colour slots:
      numbered from 0, where each pass either shares the previous pass's
      subpass or opens the next one, so the numbers never decrease; every
      subpass with the descriptor's colour slot count. (Subpass numbers and
      descriptors never change, so this reads no mutable state.) */
  predicate SubpassesNumbered(subpasses: seq<VulkanSubpass>, colorCount: nat) {
    && |subpasses| >= 1
    && subpasses[0].index == 0
    && (forall k :: 0 <= k < |subpasses| - 1 ==>
          subpasses[k + 1] == subpasses[k] || subpasses[k + 1].index == subpasses[k].index + 1)
    && (forall j, k :: 0 <= j <= k < |subpasses| ==> subpasses[j].index <= subpasses[k].index)
    && (forall k :: 0 <= k < |subpasses| ==> |subpasses[k].descriptor.colorAttachments| == colorCount)
  }

  /** The backend descriptor of a run of merged draw passes: the merged
      attachments, the passes, the load and store actions and clear values
      of every attachment, one subpass per pass (passes that share
      attachments share their subpass object) and the subpass dependencies. */
  class VulkanRenderTargetDescriptor {
    var descriptor: RenderTargetDescriptor
    var renderPasses: seq<RenderPassRecord>
    var colorActions: seq<AttachmentActions>
    var depthActions: AttachmentActions
    var stencilActions: AttachmentActions
    var clearColors: seq<int>
    var clearDepth: int
    var clearStencil: int
    var subpasses: seq<VulkanSubpass>
    var dependencies: seq<SubpassDependency>

    /** The merged passes are consecutive and each has its subpass. */
    ghost predicate Indexed()
      reads this
    {
      && |renderPasses| >= 1
      && |subpasses| == |renderPasses|
      && forall k :: 0 <= k < |renderPasses| ==> renderPasses[k].passIndex == renderPasses[0].passIndex + k
    }

    function FirstPass(): nat
      reads this
      requires |renderPasses| >= 1
    {
      renderPasses[0].passIndex
    }

    function LastPass(): nat
      reads this
      requires |renderPasses| >= 1
    {
      renderPasses[|renderPasses| - 1].passIndex
    }

    /** The descriptor's invariant: consecutive passes with their subpasses;
        one action and one clear colour per colour slot; one dependency per
        subpass pair; numbered subpasses. (Each subpass keeps its own
        invariant, VulkanSubpass.Valid, through its own operations.) */
    ghost predicate Valid()
      reads this
    {
      && Indexed()
      && |colorActions| == |descriptor.colorAttachments|
      && |clearColors| == |descriptor.colorAttachments|
      && UniquePairs(dependencies)
      && SubpassesNumbered(subpasses, |descriptor.colorAttachments|)
    }

    /** A descriptor for a single pass, with that pass's clear values and
        subpass 0. */
    constructor(renderPass: RenderPassRecord)
      ensures Valid()
      ensures descriptor == renderPass.renderTargetDescriptor && renderPasses == [renderPass]
      ensures colorActions == UpdatedColorActions([], renderPass)
      ensures clearColors == UpdatedClearColors([], renderPass)
      ensures depthActions == (if renderPass.renderTargetDescriptor.depthAttachment.Some?
                               then UpdatedActions(renderPass.depthClearOperation, DontCareActions) else DontCareActions)
      ensures stencilActions == (if renderPass.renderTargetDescriptor.stencilAttachment.Some?
                                 then UpdatedActions(renderPass.stencilClearOperation, DontCareActions) else DontCareActions)
      ensures |subpasses| == 1 && fresh(subpasses[0])
      ensures subpasses[0].descriptor == renderPass.renderTargetDescriptor
      ensures subpasses[0].inputAttachments == [] && subpasses[0].preserveAttachments == []
      ensures dependencies == []
    {
      descriptor := renderPass.renderTargetDescriptor;
      renderPasses := [renderPass];
      colorActions := [];
      depthActions := DontCareActions;
      stencilActions := DontCareActions;
      clearColors := [];
      clearDepth := 0;
      clearStencil := 0;
      subpasses := [];
      dependencies := [];
      new;
      UpdateClearValues(renderPass);
      var subpass := new VulkanSubpass(renderPass.renderTargetDescriptor, 0);
      subpasses := [subpass];
    }

    /** The clear values after updateClearValues(pass), against those
        before: each colour slot as UpdatedColorActions and
        UpdatedClearColors say, and the depth and stencil actions and values
        updated by the pass's operation when the pass binds them. */
    twostate predicate ClearValuesFolded(pass: RenderPassRecord)
      reads this
    {
      && colorActions == UpdatedColorActions(old(colorActions), pass)
      && clearColors == UpdatedClearColors(old(clearColors), pass)
      && depthActions == (if pass.renderTargetDescriptor.depthAttachment.Some?
                          then UpdatedActions(pass.depthClearOperation, old(depthActions)) else old(depthActions))
      && clearDepth == (if pass.renderTargetDescriptor.depthAttachment.Some?
                        then UpdatedClearValue(pass.depthClearOperation, old(clearDepth)) else old(clearDepth))
      && stencilActions == (if pass.renderTargetDescriptor.stencilAttachment.Some?
                            then UpdatedActions(pass.stencilClearOperation, old(stencilActions)) else old(stencilActions))
      && clearStencil == (if pass.renderTargetDescriptor.stencilAttachment.Some?
                          then UpdatedClearValue(pass.stencilClearOperation, old(clearStencil)) else old(clearStencil))
    }

    /** updateClearValues: grow the colour actions and clear colours to the
        pass's slot count, and fold the pass's clear operations into the
        load actions and clear values of the slots it binds. */
    method UpdateClearValues(pass: RenderPassRecord)
      requires |colorActions| == |clearColors|
      modifies this
      ensures ClearValuesFolded(pass)
      ensures descriptor == old(descriptor) && renderPasses == old(renderPasses)
      ensures subpasses == old(subpasses) && dependencies == old(dependencies)
    {
      colorActions, clearColors := ColorClearValues(colorActions, clearColors, pass);
      if pass.renderTargetDescriptor.depthAttachment.Some? {
        match pass.depthClearOperation
        case Clear(value) =>
          clearDepth := value;
          depthActions := depthActions.(load := LoadOpClear);
        case Keep =>
          if depthActions.load == LoadOpDontCare {
            depthActions := depthActions.(load := LoadOpLoad);
          }
        case Discard =>
      }
      if pass.renderTargetDescriptor.stencilAttachment.Some? {
        match pass.stencilClearOperation
        case Clear(value) =>
          clearStencil := value;
          stencilActions := stencilActions.(load := LoadOpClear);
        case Keep =>
          if stencilActions.load == LoadOpDontCare {
            stencilActions := stencilActions.(load := LoadOpLoad);
          }
        case Discard =>
      }
    }

    /** subpassForPassIndex: the subpass of a merged pass, and none for a
        pass outside the merged run. */
    function SubpassForPassIndex(passIndex: nat): (r: Option<VulkanSubpass>)
      reads this
      requires Indexed()
      ensures r.Some? <==> FirstPass() <= passIndex <= LastPass()
      ensures r.Some? ==> r.value == subpasses[passIndex - FirstPass()]
    {
      if FirstPass() <= passIndex <= LastPass() then Some(subpasses[passIndex - FirstPass()]) else None
    }

    /** addDependency: OR the masks into the dependency for the same subpass
        pair, or append a new one. */
    method AddDependency(dependency: SubpassDependency)
      modifies this
      ensures dependencies == WithDependency(old(dependencies), dependency)
      ensures descriptor == old(descriptor) && renderPasses == old(renderPasses) && subpasses == old(subpasses)
      ensures colorActions == old(colorActions) && depthActions == old(depthActions)
      ensures stencilActions == old(stencilActions) && clearColors == old(clearColors)
      ensures clearDepth == old(clearDepth) && clearStencil == old(clearStencil)
    {
      var i := 0;
      while i < |dependencies|
        invariant 0 <= i <= |dependencies|
        invariant dependencies == old(dependencies)
        invariant forall j :: 0 <= j < i ==> !SamePair(dependencies[j], dependency)
      {
        if SamePair(dependencies[i], dependency) {
          PairIndexIs(dependencies, dependency, i);
          dependencies := dependencies[i := Combined(dependencies[i], dependency)];
          return;
        }
        i := i + 1;
      }
      dependencies := dependencies + [dependency];
    }
 
    /** The subpass of the merged pass: the last subpass again when every
        slot was identical, otherwise a new subpass for the merged slots,
        numbered after the last. */
    method AppendSubpass(result: MergeResult, merged: RenderTargetDescriptor)
      requires result != Incompatible && SubpassesNumbered(subpasses, |merged.colorAttachments|)
      modifies this
      ensures SubpassesNumbered(subpasses, |merged.colorAttachments|)
      ensures |subpasses| == |old(subpasses)| + 1 && subpasses[..|old(subpasses)|] == old(subpasses)
      ensures result == Identical ==> subpasses[|old(subpasses)|] == old(subpasses)[|old(subpasses)| - 1]
      ensures result == Compatible ==>
        var s := subpasses[|old(subpasses)|];
        && fresh(s) && s.Valid() && s.descriptor == merged
        && s.index == old(subpasses)[|old(subpasses)| - 1].index + 1
      ensures descriptor == old(descriptor) && renderPasses == old(renderPasses) && dependencies == old(dependencies)
      ensures colorActions == old(colorActions) && depthActions == old(depthActions)
      ensures stencilActions == old(stencilActions) && clearColors == old(clearColors)
      ensures clearDepth == old(clearDepth) && clearStencil == old(clearStencil)
    {
      var last := subpasses[|subpasses| - 1];
      if result == Identical {
        subpasses := subpasses + [last];
      } else {
        var subpass := new VulkanSubpass(merged, last.index + 1);
        subpasses := subpasses + [subpass];
      }
    }

    /** The end of a successful tryMerge: the descriptor takes the merged
        slots, the pass's visibility-result buffer and the larger array
        length, the clear values take the pass's, and the pass joins. */
    method Commit(pass: RenderPassRecord, merged: RenderTargetDescriptor)
      requires |colorActions| == |clearColors|
      modifies this
      ensures descriptor == merged.(visibilityResultBuffer := pass.renderTargetDescriptor.visibilityResultBuffer,
                                    renderTargetArrayLength := Max(merged.renderTargetArrayLength,
                                                                   pass.renderTargetDescriptor.renderTargetArrayLength))
      ensures renderPasses == old(renderPasses) + [pass]
      ensures ClearValuesFolded(pass)
      ensures subpasses == old(subpasses) && dependencies == old(dependencies)
    {
      var newDescriptor := merged.(visibilityResultBuffer := pass.renderTargetDescriptor.visibilityResultBuffer);
      UpdateClearValues(pass);
      newDescriptor := newDescriptor.(renderTargetArrayLength :=
        Max(newDescriptor.renderTargetArrayLength, pass.renderTargetDescriptor.renderTargetArrayLength));
      descriptor := newDescriptor;
      renderPasses := renderPasses + [pass];
    }

    /** tryMerge, with the visibility-result check made before the subpass
        is appended: the pass joins the descriptor exactly when it has the
        same colour slot count, no slot is incompatible and the visibility
        buffers agree; then the descriptor takes the merged slots, the
        pass's visibility buffer and the larger array length, the clear
        values take the pass's, and the pass gets its subpass. A rejected
        pass changes nothing. */
    method TryMerge(pass: RenderPassRecord) returns (merged: bool)
      requires Valid() && pass.passIndex == LastPass() + 1
      modifies this
      ensures Valid()
      ensures merged <==> && SameColorCount(old(descriptor), pass) && SlotsMerge(old(descriptor), pass)
                          && !VisibilityConflict(old(descriptor), pass)
      ensures !merged ==> unchanged(this)
      ensures merged ==>
        && descriptor == MergedDescriptor(old(descriptor), pass)
        && renderPasses == old(renderPasses) + [pass]
        && ClearValuesFolded(pass)
        && dependencies == old(dependencies)
        && |subpasses| == |old(subpasses)| + 1 && subpasses[..|old(subpasses)|] == old(subpasses)
      ensures merged && SlotsIdentical(old(descriptor), pass) ==>
        subpasses[|old(subpasses)|] == old(subpasses)[|old(subpasses)| - 1]
      ensures merged && !SlotsIdentical(old(descriptor), pass) ==>
        var s := subpasses[|old(subpasses)|];
        && fresh(s) && s.descriptor == MergedSlots(old(descriptor), pass)
        && s.index == old(subpasses)[|old(subpasses)| - 1].index + 1
    {
      if |pass.renderTargetDescriptor.colorAttachments| != |descriptor.colorAttachments| {
        return false;
      }
      var result, newDescriptor := MergeSlots(descriptor, pass);
      if result == Incompatible {
        return false;
      }
      if newDescriptor.visibilityResultBuffer.Some?
         && pass.renderTargetDescriptor.visibilityResultBuffer != newDescriptor.visibilityResultBuffer {
        return false;
      }
      Absorb(pass, result, newDescriptor);
      return true;
    }

    /** The pass joins: its subpass is appended, then the merge is
        committed; the descriptor stays valid. */
    method Absorb(pass: RenderPassRecord, result: MergeResult, merged: RenderTargetDescriptor)
      requires Valid() && pass.passIndex == LastPass() + 1
      requires result != Incompatible && SameColorCount(descriptor, pass)
      requires |merged.colorAttachments| == |descriptor.colorAttachments|
      modifies this
      ensures Valid()
      ensures descriptor == merged.(visibilityResultBuffer := pass.renderTargetDescriptor.visibilityResultBuffer,
                                    renderTargetArrayLength := Max(merged.renderTargetArrayLength,
                                                                   pass.renderTargetDescriptor.renderTargetArrayLength))
      ensures renderPasses == old(renderPasses) + [pass] && ClearValuesFolded(pass) && dependencies == old(dependencies)
      ensures |subpasses| == |old(subpasses)| + 1 && subpasses[..|old(subpasses)|] == old(subpasses)
      ensures result == Identical ==> subpasses[|old(subpasses)|] == old(subpasses)[|old(subpasses)| - 1]
      ensures result == Compatible ==>
        var s := subpasses[|old(subpasses)|];
        && fresh(s) && s.descriptor == merged
        && s.index == old(subpasses)[|old(subpasses)| - 1].index + 1
    {
      AppendSubpass(result, merged);
      Commit(pass, merged);
      assert Indexed();
    }

    /** tryMerge as written: the subpass is appended before the
        visibility-result check, so a pass whose slots merge but whose
        visibility buffer conflicts is rejected with its subpass left
        behind, one more subpass than there are passes. */
    method TryMergeAsWritten(pass: RenderPassRecord) returns (merged: bool)
      requires Valid() && pass.passIndex == LastPass() + 1
      modifies this
      ensures merged <==> && SameColorCount(old(descriptor), pass) && SlotsMerge(old(descriptor), pass)
                          && !VisibilityConflict(old(descriptor), pass)
      ensures merged ==> Valid() && descriptor == MergedDescriptor(old(descriptor), pass)
      ensures !merged && SameColorCount(old(descriptor), pass) && SlotsMerge(old(descriptor), pass) ==>
        && descriptor == old(descriptor) && renderPasses == old(renderPasses)
        && |subpasses| == |renderPasses| + 1 && !Indexed()
      ensures !(SameColorCount(old(descriptor), pass) && SlotsMerge(old(descriptor), pass)) ==> unchanged(this)
    {
      if |pass.renderTargetDescriptor.colorAttachments| != |descriptor.colorAttachments| {
        return false;
      }
      var result, newDescriptor := MergeSlots(descriptor, pass);
      if result == Incompatible {
        return false;
      }
      AppendSubpass(result, newDescriptor);
      if newDescriptor.visibilityResultBuffer.Some?
         && pass.renderTargetDescriptor.visibilityResultBuffer != newDescriptor.visibilityResultBuffer {
        return false;
      }
      Commit(pass, newDescriptor);
      assert Indexed();
      return true;
    }
 
    /** One step of the walk: the subpass of the pass lists the attachment
        as preserved (or binds it), so a preserved run of passes ending at
        it grows by one; preserve lists only grow, input lists do not
        change, and every subpass keeps its invariant. */
    method PreserveAt(passIndex: nat, attachmentIndex: AttachmentIndex, ghost ss: seq<VulkanSubpass>, lower: nat)
      requires Valid() && Addressable(descriptor, attachmentIndex)
      requires ss == subpasses && lower == FirstPass() && lower <= passIndex <= LastPass()
      modifies subpasses
      ensures unchanged(this)
      ensures PreservedIn(ss[passIndex - lower], attachmentIndex)
      ensures forall from: nat :: old(PreservedBetween(ss, attachmentIndex, from, passIndex, lower)) ==>
                PreservedBetween(ss, attachmentIndex, from, passIndex + 1, lower)
      ensures forall k :: 0 <= k < |ss| ==> ss[k].inputAttachments == old(ss[k].inputAttachments)
      ensures forall k :: 0 <= k < |ss| ==>
                Includes(ss[k].preserveAttachments, old(ss[k].preserveAttachments))
      ensures forall k :: 0 <= k < |ss| && old(ss[k].Valid()) ==> ss[k].Valid()
    {
      subpasses[passIndex - lower].Preserve(attachmentIndex);
    }

    /** The inner loop of loadAndStoreActions: walk from the current pass to
        the subpass of the pass at usagePass, listing the attachment as
        preserved in every subpass passed over and stopping at the first
        pass of that subpass; on the first local use, jump straight to it
        instead. No input attachment list changes, preserve lists only
        grow, and every subpass keeps its invariant. */
    method PreserveUpTo(attachmentIndex: AttachmentIndex, usagePass: nat, current: nat, isFirstLocalUsage: bool,
                         ghost ss: seq<VulkanSubpass>, lower: nat, upper: nat)
      returns (current': nat, isFirstLocalUsage': bool)
      requires Valid() && Addressable(descriptor, attachmentIndex)
      requires ss == subpasses && lower == FirstPass() && upper == LastPass() + 1
      requires lower <= current < upper && lower <= usagePass < upper
      modifies subpasses
      ensures unchanged(this)
      ensures current <= current' < upper
      ensures ss[current' - lower].index >= ss[usagePass - lower].index
      ensures isFirstLocalUsage ==>
                (isFirstLocalUsage' <==> ss[current - lower].index >= ss[usagePass - lower].index)
      ensures isFirstLocalUsage' ==> current' == current
      ensures isFirstLocalUsage && !isFirstLocalUsage' ==> current' == usagePass
      ensures !isFirstLocalUsage ==> !isFirstLocalUsage'
      ensures !isFirstLocalUsage && current < current' ==>
                ss[current' - 1 - lower].index < ss[usagePass - lower].index
      ensures !isFirstLocalUsage ==> PreservedBetween(ss, attachmentIndex, current, current', lower)
      ensures forall from: nat ::
                from <= current && !isFirstLocalUsage
                && old(PreservedBetween(ss, attachmentIndex, from, current, lower))
                ==> PreservedBetween(ss, attachmentIndex, from, current', lower)
      ensures forall k :: 0 <= k < |ss| ==> ss[k].inputAttachments == old(ss[k].inputAttachments)
      ensures forall k :: 0 <= k < |ss| ==>
                Includes(ss[k].preserveAttachments, old(ss[k].preserveAttachments))
      ensures forall k :: 0 <= k < |ss| && old(ss[k].Valid()) ==> ss[k].Valid()
    {
      current', isFirstLocalUsage' := current, isFirstLocalUsage;
      while SubpassForPassIndex(current').value.index < SubpassForPassIndex(usagePass).value.index
        invariant unchanged(this) && ss == subpasses
        invariant current <= current' < upper
        invariant isFirstLocalUsage' ==> current' == current
        invariant isFirstLocalUsage && !isFirstLocalUsage' ==>
                    current' == usagePass && ss[current - lower].index < ss[usagePass - lower].index
        invariant !isFirstLocalUsage ==> !isFirstLocalUsage'
        invariant !isFirstLocalUsage && current < current' ==>
                    ss[current' - 1 - lower].index < ss[usagePass - lower].index
        invariant !isFirstLocalUsage ==> PreservedBetween(ss, attachmentIndex, current, current', lower)
        invariant forall from: nat ::
                    from <= current && !isFirstLocalUsage
                    && old(PreservedBetween(ss, attachmentIndex, from, current, lower))
                    ==> PreservedBetween(ss, attachmentIndex, from, current', lower)
        invariant forall k :: 0 <= k < |ss| ==> ss[k].inputAttachments == old(ss[k].inputAttachments)
        invariant forall k :: 0 <= k < |ss| ==> Includes(ss[k].preserveAttachments, old(ss[k].preserveAttachments))
        invariant forall k :: 0 <= k < |ss| && old(ss[k].Valid()) ==> ss[k].Valid()
        decreases (if isFirstLocalUsage' then 1 else 0) + upper - current'
      {
        assert current' < usagePass;
        if isFirstLocalUsage' {
          current' := usagePass;
          isFirstLocalUsage' := false;
        } else {
          PreserveAt(current', attachmentIndex, ss, lower);
          current' := current' + 1;
        }
      }
    }
 
    /** The readFrom step of loadAndStoreActions: the subpass of the pass
        lists the attachment as an input attachment; input attachment lists
        only grow, the preserved lists do not change, and every subpass keeps
        its invariant. */
    method RecordRead(passIndex: nat, attachmentIndex: AttachmentIndex, ghost ss: seq<VulkanSubpass>, lower: nat)
      requires Valid() && ss == subpasses && lower == FirstPass()
      requires lower <= passIndex <= LastPass()
      modifies subpasses
      ensures unchanged(this)
      ensures attachmentIndex in ss[passIndex - lower].inputAttachments
      ensures forall k :: 0 <= k < |ss| ==>
        Includes(ss[k].inputAttachments, old(ss[k].inputAttachments))
      ensures forall k :: 0 <= k < |ss| ==> ss[k].preserveAttachments == old(ss[k].preserveAttachments)
      ensures forall from: nat, to: nat ::
                old(PreservedBetween(ss, attachmentIndex, from, to, lower))
                ==> PreservedBetween(ss, attachmentIndex, from, to, lower)
      ensures forall k :: 0 <= k < |ss| && old(ss[k].Valid()) ==> ss[k].Valid()
    {
      subpasses[passIndex - lower].ReadFrom(attachmentIndex);
    }

    /** One use of loadAndStoreActions's scan, over the state of the scan:
        an inactive use is skipped; an earlier use clears "first usage"; a
        later use that needs the contents clears "last usage" and stops the
        scan; a use inside the merged passes walks the subpasses up to its
        pass and, when it reads the attachment, records it as an input
        attachment there. */
    method VisitUsage(attachmentIndex: AttachmentIndex, usage: Usage, isFirstUsage: bool, isLastUsage: bool,
                      current: nat, isFirstLocalUsage: bool, ghost ss: seq<VulkanSubpass>, lower: nat, upper: nat)
      returns (isFirstUsage': bool, isLastUsage': bool, current': nat, isFirstLocalUsage': bool, stop: bool)
      requires Valid() && Addressable(descriptor, attachmentIndex)
      requires ss == subpasses && lower == FirstPass() && upper == LastPass() + 1
      requires lower <= current < upper
      modifies subpasses
      ensures unchanged(this)
      ensures lower <= current' < upper
      ensures stop <==> NeedsContentsLater(usage, upper, attachmentIndex.DepthStencilIndex?)
      ensures stop ==> isFirstUsage' == isFirstUsage && !isLastUsage'
      ensures !stop ==> isFirstUsage' == (isFirstUsage && !UsedBefore(usage, lower)) && isLastUsage' == isLastUsage
      ensures forall k :: 0 <= k < |ss| ==>
        Includes(ss[k].inputAttachments, old(ss[k].inputAttachments))
      ensures ReadsInside(usage, lower, upper) ==>
        attachmentIndex in ss[usage.passIndex - lower].inputAttachments
      ensures current <= current'
      ensures isFirstLocalUsage ==>
                (isFirstLocalUsage' <==>
                   !(LocalUse(usage, lower, upper)
                     && ss[current - lower].index < ss[usage.passIndex - lower].index))
      ensures isFirstLocalUsage' ==> current' == current
      ensures isFirstLocalUsage && !isFirstLocalUsage' ==> current' == usage.passIndex
      ensures !isFirstLocalUsage ==> !isFirstLocalUsage'
      ensures !isFirstLocalUsage ==> PreservedBetween(ss, attachmentIndex, current, current', lower)
      ensures forall from: nat ::
                from <= current && !isFirstLocalUsage
                && old(PreservedBetween(ss, attachmentIndex, from, current, lower))
                ==> PreservedBetween(ss, attachmentIndex, from, current', lower)
      ensures LocalUse(usage, lower, upper) ==>
                ss[current' - lower].index >= ss[usage.passIndex - lower].index
      ensures forall k :: 0 <= k < |ss| ==>
                Includes(ss[k].preserveAttachments, old(ss[k].preserveAttachments))
      ensures forall k :: 0 <= k < |ss| && old(ss[k].Valid()) ==> ss[k].Valid()
    {
      isFirstUsage', isLastUsage', current', isFirstLocalUsage', stop :=
        isFirstUsage, isLastUsage, current, isFirstLocalUsage, false;
      if !usage.isActive {
        return;
      }
      if usage.passIndex < lower {
        isFirstUsage' := false;
        return;
      }
      if usage.passIndex >= upper {
        if usage.isRead || (usage.isRenderTarget && attachmentIndex.DepthStencilIndex?) {
          isLastUsage' := false;
          stop := true;
        }
        return;
      }
      current', isFirstLocalUsage' := PreserveUpTo(attachmentIndex, usage.passIndex, current, isFirstLocalUsage, ss, lower, upper);
      if usage.usageType != OtherUsage {
        RecordRead(usage.passIndex, attachmentIndex, ss, lower);
      }
    }

    /** One step of the usage loop: visit use k, keeping the walk's state
        (WalkInv) from the first k uses to the first k + 1. */
    method ScanStep(attachmentIndex: AttachmentIndex, usages: seq<Usage>, k: nat, isFirstUsage: bool,
                    isLastUsage: bool, current: nat, isFirstLocalUsage: bool,
                    ghost ss: seq<VulkanSubpass>, lower: nat, upper: nat)
      returns (isFirstUsage': bool, isLastUsage': bool, current': nat, isFirstLocalUsage': bool, stop: bool)
      requires Valid() && Addressable(descriptor, attachmentIndex) && k < |usages|
      requires ss == subpasses && lower == FirstPass() && upper == LastPass() + 1
      requires WalkInv(ss, attachmentIndex, usages, k, lower, upper, current, isFirstLocalUsage)
      modifies subpasses
      ensures unchanged(this)
      ensures lower <= current' < upper
      ensures stop <==> NeedsContentsLater(usages[k], upper, attachmentIndex.DepthStencilIndex?)
      ensures stop ==> isFirstUsage' == isFirstUsage && !isLastUsage'
      ensures !stop ==> isFirstUsage' == (isFirstUsage && !UsedBefore(usages[k], lower))
                        && isLastUsage' == isLastUsage
      ensures SubpassesGrown(ss)
      ensures WalkInv(ss, attachmentIndex, usages, k + 1, lower, upper, current', isFirstLocalUsage')
    {
      ghost var before := FirstJump(usages[..k], ss, lower, upper);
      isFirstUsage', isLastUsage', current', isFirstLocalUsage', stop :=
        VisitUsage(attachmentIndex, usages[k], isFirstUsage, isLastUsage, current, isFirstLocalUsage, ss, lower, upper);
      forall j | 0 <= j < k && ReadsInside(usages[j], lower, upper)
        ensures attachmentIndex in ss[usages[j].passIndex - lower].inputAttachments
      {
        assert attachmentIndex in old(ss[usages[j].passIndex - lower].inputAttachments);
      }
      if before.Some? {
        assert PreservedBetween(ss, attachmentIndex, before.value, current', lower);
      }
      WalkAdvance(ss, attachmentIndex, usages, k, lower, upper, current, isFirstLocalUsage, current', isFirstLocalUsage');
    }

    /** The usage loop of loadAndStoreActions: visit the uses in order
        until one needs the contents after the merged passes. The flags come
        out as Scan computes them; the loop visits the uses up to that one
        (visited is Horizon, or one more when the use it stopped at lies
        after the merged passes); current and isFirstLocalUsage are where
        the preserve walk ended, with WalkInv holding of the visited uses;
        subpass lists only gain entries and every subpass keeps its
        invariant. */
    method ScanUsages(attachmentIndex: AttachmentIndex, usages: seq<Usage>, lower: nat, upper: nat,
                      first0: bool, last0: bool, ghost ss: seq<VulkanSubpass>)
      returns (isFirstUsage: bool, isLastUsage: bool, visited: nat, current: nat, isFirstLocalUsage: bool)
      requires Valid() && Addressable(descriptor, attachmentIndex)
      requires ss == subpasses && lower == FirstPass() && upper == LastPass() + 1
      modifies subpasses
      ensures unchanged(this)
      ensures (isFirstUsage, isLastUsage)
              == Scan(usages, lower, upper, attachmentIndex.DepthStencilIndex?, first0, last0)
      ensures visited <= |usages|
      ensures Horizon(usages, upper, attachmentIndex.DepthStencilIndex?) == visited
              || (Horizon(usages, upper, attachmentIndex.DepthStencilIndex?) + 1 == visited
                  && !LocalUse(usages[visited - 1], lower, upper))
      ensures WalkInv(ss, attachmentIndex, usages, visited, lower, upper, current, isFirstLocalUsage)
      ensures SubpassesGrown(ss)
    {
      var isDepthStencil := attachmentIndex.DepthStencilIndex?;
      isFirstUsage, isLastUsage := first0, last0;
      current := lower;
      isFirstLocalUsage := true;
      visited := 0;
      ghost var stopped := false;
      while visited < |usages|
        invariant unchanged(this) && ss == subpasses
        invariant lower <= current < upper && !stopped
        invariant ScanInv(usages, visited, lower, upper, isDepthStencil, first0, last0, isFirstUsage, isLastUsage)
        invariant WalkInv(ss, attachmentIndex, usages, visited, lower, upper, current, isFirstLocalUsage)
        invariant SubpassesGrown(ss)
      {
        ScanAdvance(usages, visited, lower, upper, isDepthStencil, first0, last0, isFirstUsage, isLastUsage);
        var stop;
        label Step:
        isFirstUsage, isLastUsage, current, isFirstLocalUsage, stop :=
          ScanStep(attachmentIndex, usages, visited, isFirstUsage, isLastUsage, current, isFirstLocalUsage,
                   ss, lower, upper);
        forall m | 0 <= m < |ss|
          ensures Includes(ss[m].inputAttachments, old(ss[m].inputAttachments))
          ensures Includes(ss[m].preserveAttachments, old(ss[m].preserveAttachments))
          ensures old(ss[m].Valid()) ==> ss[m].Valid()
        {
          IncludesTransitive(ss[m].inputAttachments, old@Step(ss[m].inputAttachments), old(ss[m].inputAttachments));
          IncludesTransitive(ss[m].preserveAttachments, old@Step(ss[m].preserveAttachments),
                             old(ss[m].preserveAttachments));
        }
        visited := visited + 1;
        if stop {
          stopped := true;
          break;
        }
      }
      if !stopped {
        ScanDone(usages, lower, upper, isDepthStencil, first0, last0, isFirstUsage, isLastUsage);
      }
    }

    /** loadAndStoreActions: scan the texture's uses, listing the attachment
        as preserved in the subpasses between its uses and as an input
        attachment of the subpass of every reading use the scan reaches
        (InputsRecorded, ScanPreserved), and choose the load and store actions: those of
        ActionsFor for the merged passes. A stored texture is appended to
        the stored list. */
    method LoadAndStoreActions(attachment: Attachment, attachmentIndex: AttachmentIndex, usages: seq<Usage>,
                               loadAction: LoadOp, storedTextures: seq<Texture>,
                               lower: nat, upper: nat, ghost ss: seq<VulkanSubpass>)
      returns (actions: AttachmentActions, stored: seq<Texture>)
      requires Valid() && Addressable(descriptor, attachmentIndex)
      requires ss == subpasses && lower == FirstPass() && upper == LastPass() + 1
      modifies subpasses
      ensures unchanged(this)
      ensures actions == ActionsFor(attachment.texture, usages, lower, upper,
                                    attachmentIndex.DepthStencilIndex?, loadAction)
      ensures stored == storedTextures + (if actions.store == StoreOpStore then [attachment.texture] else [])
      ensures InputsRecorded(InputLists(ss), attachmentIndex, usages, lower, upper)
      ensures ScanPreserved(ss, attachmentIndex, usages, lower, upper)
      ensures SubpassesGrown(ss)
    {
      var isFirstUsage, isLastUsage, visited, current, isFirstLocalUsage :=
        ScanUsages(attachmentIndex, usages, lower, upper,
                   InitialFlags(attachment.texture).0, InitialFlags(attachment.texture).1, ss);
      ScanConcluded(ss, attachmentIndex, usages, lower, upper, visited, current, isFirstLocalUsage);
      ActionsFromFlags(attachment.texture, usages, lower, upper, attachmentIndex.DepthStencilIndex?,
                       loadAction, isFirstUsage, isLastUsage);
      var load := loadAction;
      if isFirstUsage && load == LoadOpLoad {
        load := LoadOpDontCare;
      }
      var store := if isLastUsage then StoreOpDontCare else StoreOpStore;
      stored := storedTextures;
      if store == StoreOpStore {
        stored := stored + [attachment.texture];
      }
      actions := AttachmentActions(load, store);
    }
 
    /** One colour slot of finalise: don't-care actions for an empty slot,
        otherwise loadAndStoreActions from the slot's load action; the reads
        of the slots before it stay recorded. */
    method FinaliseColor(i: nat, lower: nat, upper: nat, usages: map<TextureId, seq<Usage>>,
                         storedTextures: seq<Texture>, ghost ss: seq<VulkanSubpass>)
      returns (slotActions: AttachmentActions, stored: seq<Texture>)
      requires Valid() && ss == subpasses && lower == FirstPass() && upper == LastPass() + 1
      requires i < |descriptor.colorAttachments|
      modifies subpasses
      ensures unchanged(this)
      ensures slotActions == FinalColorActions(descriptor, colorActions, usages, lower, upper, i)
      ensures stored == storedTextures + Stored(descriptor.colorAttachments[i], slotActions)
      ensures SubpassesGrown(ss)
      ensures old(ColorsRecorded(InputLists(ss), descriptor.colorAttachments, usages, lower, upper, i)) ==>
                ColorsRecorded(InputLists(ss), descriptor.colorAttachments, usages, lower, upper, i + 1)
      ensures descriptor.colorAttachments[i].Some? ==>
                ScanPreserved(ss, ColorIndex(i), UsagesOf(usages, descriptor.colorAttachments[i].value.texture),
                              lower, upper)
    {
      ghost var ins0 := InputLists(ss);
      stored := storedTextures;
      slotActions := DontCareActions;
      if descriptor.colorAttachments[i].Some? {
        var attachment := descriptor.colorAttachments[i].value;
        slotActions, stored := LoadAndStoreActions(attachment, ColorIndex(i), UsagesOf(usages, attachment.texture),
                                                   colorActions[i].load, stored, lower, upper, ss);
        assert ListsGrown(InputLists(ss), ins0) by {
          forall m | 0 <= m < |ss|
            ensures Includes(InputLists(ss)[m], ins0[m])
          {
            assert ins0[m] == old(ss[m].inputAttachments);
          }
        }
        if ColorsRecorded(ins0, descriptor.colorAttachments, usages, lower, upper, i) {
          ColorsRecordedGrown(InputLists(ss), ins0, descriptor.colorAttachments, usages, lower, upper, i);
        }
      }
    }

    /** The colour loop of finalise: the actions of every colour slot, in
        slot order, appending each stored texture. */
    method FinaliseColors(lower: nat, upper: nat, usages: map<TextureId, seq<Usage>>, storedTextures: seq<Texture>,
                          ghost ss: seq<VulkanSubpass>)
      returns (actions: seq<AttachmentActions>, stored: seq<Texture>)
      requires Valid() && ss == subpasses && lower == FirstPass() && upper == LastPass() + 1
      modifies subpasses
      ensures unchanged(this)
      ensures ColorsFinalised(descriptor, colorActions, usages, lower, upper,
                              |descriptor.colorAttachments|, actions, storedTextures, stored)
      ensures SubpassesGrown(ss)
      ensures ColorsRecorded(InputLists(ss), descriptor.colorAttachments, usages, lower, upper,
                             |descriptor.colorAttachments|)
    {
      actions := [];
      stored := storedTextures;
      for i := 0 to |descriptor.colorAttachments|
        invariant unchanged(this)
        invariant ColorsFinalised(descriptor, colorActions, usages, lower, upper, i, actions, storedTextures, stored)
        invariant SubpassesGrown(ss)
        invariant ColorsRecorded(InputLists(ss), descriptor.colorAttachments, usages, lower, upper, i)
      {
        var slotActions;
        ghost var before := stored;
        label Slot:
        slotActions, stored := FinaliseColor(i, lower, upper, usages, stored, ss);
        forall m | 0 <= m < |ss|
          ensures Includes(ss[m].inputAttachments, old(ss[m].inputAttachments))
          ensures Includes(ss[m].preserveAttachments, old(ss[m].preserveAttachments))
          ensures old(ss[m].Valid()) ==> ss[m].Valid()
        {
          IncludesTransitive(ss[m].inputAttachments, old@Slot(ss[m].inputAttachments), old(ss[m].inputAttachments));
          IncludesTransitive(ss[m].preserveAttachments, old@Slot(ss[m].preserveAttachments),
                             old(ss[m].preserveAttachments));
        }
        ColorsFinalisedStep(descriptor, colorActions, usages, lower, upper, i, actions, storedTextures, before,
                            slotActions, stored);
        actions := actions + [slotActions];
      }
    }

    /** The depth or stencil step of finalise: the slot's actions by
        loadAndStoreActions when the slot is bound, appending the texture
        when it is stored; an empty slot keeps its actions. The reads of
        the colour slots and of the depth slot stay recorded. */
    method FinaliseSlot(slot: Option<Attachment>, slotActions: AttachmentActions, lower: nat, upper: nat,
                        usages: map<TextureId, seq<Usage>>, storedTextures: seq<Texture>, ghost ss: seq<VulkanSubpass>)
      returns (actions: AttachmentActions, stored: seq<Texture>)
      requires Valid() && ss == subpasses && lower == FirstPass() && upper == LastPass() + 1
      modifies subpasses
      ensures unchanged(this)
      ensures actions == FinalActions(slot, slotActions, usages, lower, upper)
      ensures stored == storedTextures + Stored(slot, actions)
      ensures SubpassesGrown(ss)
      ensures SlotRecorded(InputLists(ss), slot, usages, lower, upper)
      ensures slot.Some? ==>
                ScanPreserved(ss, DepthStencilIndex, UsagesOf(usages, slot.value.texture), lower, upper)
      ensures old(ColorsRecorded(InputLists(ss), descriptor.colorAttachments, usages, lower, upper,
                                 |descriptor.colorAttachments|)) ==>
                ColorsRecorded(InputLists(ss), descriptor.colorAttachments, usages, lower, upper,
                               |descriptor.colorAttachments|)
      ensures old(SlotRecorded(InputLists(ss), descriptor.depthAttachment, usages, lower, upper)) ==>
                SlotRecorded(InputLists(ss), descriptor.depthAttachment, usages, lower, upper)
    {
      ghost var ins0 := InputLists(ss);
      actions, stored := slotActions, storedTextures;
      if slot.Some? {
        actions, stored := LoadAndStoreActions(slot.value, DepthStencilIndex, UsagesOf(usages, slot.value.texture),
                                               slotActions.load, storedTextures, lower, upper, ss);
      }
      assert ListsGrown(InputLists(ss), ins0) by {
        forall m | 0 <= m < |ss|
          ensures Includes(InputLists(ss)[m], ins0[m])
        {
          assert ins0[m] == old(ss[m].inputAttachments);
        }
      }
      if ColorsRecorded(ins0, descriptor.colorAttachments, usages, lower, upper, |descriptor.colorAttachments|) {
        ColorsRecordedGrown(InputLists(ss), ins0, descriptor.colorAttachments, usages, lower, upper,
                            |descriptor.colorAttachments|);
      }
      if SlotRecorded(ins0, descriptor.depthAttachment, usages, lower, upper) && descriptor.depthAttachment.Some? {
        InputsRecordedGrown(InputLists(ss), ins0, DepthStencilIndex,
                            UsagesOf(usages, descriptor.depthAttachment.value.texture), lower, upper);
      }
    }

    /** The body of finalise before the actions are stored: the colour
        slots, then the depth slot, then the stencil slot. */
    method FinaliseAttachments(lower: nat, upper: nat, usages: map<TextureId, seq<Usage>>, storedTextures: seq<Texture>,
                               ghost ss: seq<VulkanSubpass>)
      returns (colors: seq<AttachmentActions>, depth: AttachmentActions, stencil: AttachmentActions,
               stored: seq<Texture>)
      requires Valid() && ss == subpasses && lower == FirstPass() && upper == LastPass() + 1
      modifies subpasses
      ensures unchanged(this)
      ensures |colors| == |colorActions|
      ensures forall i :: 0 <= i < |colors| ==>
        colors[i] == FinalColorActions(descriptor, colorActions, usages, lower, upper, i)
      ensures depth == FinalActions(descriptor.depthAttachment, depthActions, usages, lower, upper)
      ensures stencil == FinalActions(descriptor.stencilAttachment, stencilActions, usages, lower, upper)
      ensures stored == storedTextures
                        + StoredColors(descriptor.colorAttachments, colors, |colors|)
                        + Stored(descriptor.depthAttachment, depth)
                        + Stored(descriptor.stencilAttachment, stencil)
      ensures SubpassesGrown(ss)
      ensures AttachmentsRecorded(InputLists(ss), descriptor, usages, lower, upper)
    {
      colors, stored := FinaliseColors(lower, upper, usages, storedTextures, ss);
      label Depth:
      depth, stored := FinaliseSlot(descriptor.depthAttachment, depthActions, lower, upper, usages, stored, ss);
      forall m | 0 <= m < |ss|
        ensures Includes(ss[m].inputAttachments, old(ss[m].inputAttachments))
        ensures Includes(ss[m].preserveAttachments, old(ss[m].preserveAttachments))
        ensures old(ss[m].Valid()) ==> ss[m].Valid()
      {
        IncludesTransitive(ss[m].inputAttachments, old@Depth(ss[m].inputAttachments), old(ss[m].inputAttachments));
        IncludesTransitive(ss[m].preserveAttachments, old@Depth(ss[m].preserveAttachments),
                           old(ss[m].preserveAttachments));
      }
      label Stencil:
      stencil, stored := FinaliseSlot(descriptor.stencilAttachment, stencilActions, lower, upper, usages, stored, ss);
      forall m | 0 <= m < |ss|
        ensures Includes(ss[m].inputAttachments, old(ss[m].inputAttachments))
        ensures Includes(ss[m].preserveAttachments, old(ss[m].preserveAttachments))
        ensures old(ss[m].Valid()) ==> ss[m].Valid()
      {
        IncludesTransitive(ss[m].inputAttachments, old@Stencil(ss[m].inputAttachments), old(ss[m].inputAttachments));
        IncludesTransitive(ss[m].preserveAttachments, old@Stencil(ss[m].preserveAttachments),
                           old(ss[m].preserveAttachments));
      }
    }

    /** Stores the chosen actions of finalise; nothing else of the
        descriptor changes. */
    method SetActions(colors: seq<AttachmentActions>, depth: AttachmentActions, stencil: AttachmentActions)
      modifies this
      ensures descriptor == old(descriptor) && renderPasses == old(renderPasses) && subpasses == old(subpasses)
      ensures dependencies == old(dependencies) && clearColors == old(clearColors)
      ensures clearDepth == old(clearDepth) && clearStencil == old(clearStencil)
      ensures colorActions == colors && depthActions == depth && stencilActions == stencil
    {
      colorActions, depthActions, stencilActions := colors, depth, stencil;
    }

    /** finalise: choose the load and store actions of every colour
        attachment, then of the depth and the stencil attachment, each by
        loadAndStoreActions over the texture's uses; an empty colour slot
        gets don't-care actions. Every reading use the scans reach is
        recorded as an input attachment of its pass's subpass. */
    method Finalise(usages: map<TextureId, seq<Usage>>, storedTextures: seq<Texture>) returns (stored: seq<Texture>)
      requires Valid()
      modifies this, subpasses
      ensures descriptor == old(descriptor) && renderPasses == old(renderPasses) && subpasses == old(subpasses)
      ensures dependencies == old(dependencies) && clearColors == old(clearColors)
      ensures clearDepth == old(clearDepth) && clearStencil == old(clearStencil)
      ensures Valid()
      ensures forall i :: 0 <= i < |colorActions| ==>
        colorActions[i] == FinalColorActions(descriptor, old(colorActions), usages, FirstPass(), LastPass() + 1, i)
      ensures depthActions == FinalActions(descriptor.depthAttachment, old(depthActions), usages, FirstPass(), LastPass() + 1)
      ensures stencilActions == FinalActions(descriptor.stencilAttachment, old(stencilActions), usages,
                                             FirstPass(), LastPass() + 1)
      ensures stored == storedTextures
                        + StoredColors(descriptor.colorAttachments, colorActions, |colorActions|)
                        + Stored(descriptor.depthAttachment, depthActions)
                        + Stored(descriptor.stencilAttachment, stencilActions)
      ensures SubpassesGrown(subpasses)
      ensures AttachmentsRecorded(InputLists(subpasses), descriptor, usages, old(FirstPass()), old(LastPass()) + 1)
    {
      var colors, depth, stencil;
      var lower, upper := FirstPass(), LastPass() + 1;
      colors, depth, stencil, stored := FinaliseAttachments(lower, upper, usages, storedTextures, subpasses);
      SetActions(colors, depth, stencil);
    }

    /** descriptorMergedWithPass: the pass joins this descriptor when
        tryMerge accepts it; otherwise this descriptor is finalised, its
        stored textures appended, and a new descriptor starts with the
        pass alone. */
    method DescriptorMergedWithPass(pass: RenderPassRecord, usages: map<TextureId, seq<Usage>>,
                                    storedTextures: seq<Texture>)
      returns (r: VulkanRenderTargetDescriptor, stored: seq<Texture>)
      requires Valid() && pass.passIndex == LastPass() + 1
      modifies this, subpasses
      ensures Valid() && r.Valid()
      ensures CanMerge(old(descriptor), pass) ==>
        && r == this && stored == storedTextures
        && descriptor == MergedDescriptor(old(descriptor), pass) && renderPasses == old(renderPasses) + [pass]
      ensures !CanMerge(old(descriptor), pass) ==>
        && fresh(r) && r.descriptor == pass.renderTargetDescriptor && r.renderPasses == [pass]
        && descriptor == old(descriptor) && renderPasses == old(renderPasses)
        && (forall i :: 0 <= i < |colorActions| ==>
              colorActions[i] == FinalColorActions(descriptor, old(colorActions), usages, FirstPass(), LastPass() + 1, i))
        && depthActions == FinalActions(descriptor.depthAttachment, old(depthActions), usages, FirstPass(), LastPass() + 1)
        && stencilActions == FinalActions(descriptor.stencilAttachment, old(stencilActions), usages,
                                          FirstPass(), LastPass() + 1)
        && stored == storedTextures
                     + StoredColors(descriptor.colorAttachments, colorActions, |colorActions|)
                     + Stored(descriptor.depthAttachment, depthActions)
                     + Stored(descriptor.stencilAttachment, stencilActions)
    {
      var merged := TryMerge(pass);
      if merged {
        return this, storedTextures;
      }
      assert colorActions == old(colorActions) && depthActions == old(depthActions)
             && stencilActions == old(stencilActions);
      stored := Finalise(usages, storedTextures);
      r := new VulkanRenderTargetDescriptor(pass);
    }
  }
}

=== FILE: resource_map.dfy ===
/** Constant-time maps keyed by resource handles. Each map is a table of
    slots indexed directly by the handle's slot index; an empty slot stands
    for the invalid-handle key. A persistent map only ever holds handles of
    persistent resources, a transient map only handles of transient ones,
    and the unified map routes each call on the handle's persistence. */
module ResourceMaps {
  import opened Common

  /** A live slot: the handle stored as key and its value. */
  datatype Entry<V> = Entry(key: Resource, value: V)

  /** One call of the iterator passed to removeAll(iterating:). */
  datatype Visit<V> = Visit(key: Resource, value: V, isPersistent: bool)

  /** The live entries of a slot table, in slot order. */
  function LiveEntries<V>(slots: seq<Option<Entry<V>>>): seq<Entry<V>>
  {
    if slots == [] then []
    else
      var last := slots[|slots| - 1];
      LiveEntries(slots[..|slots| - 1]) + (if last.Some? then [last.value] else [])
  }

  /** The live entries are exactly the occupied slots. */
  lemma {:induction false} LiveEntriesMembership<V>(slots: seq<Option<Entry<V>>>, e: Entry<V>)
    ensures e in LiveEntries(slots) <==> Some(e) in slots
  {
    if slots != [] {
      LiveEntriesMembership(slots[..|slots| - 1], e);
      assert slots == slots[..|slots| - 1] + [slots[|slots| - 1]];
    }
  }

  /** When every occupied slot holds a key for its own index, the live
      entries come out in strictly ascending index order. */
  lemma {:induction false} LiveEntriesAscending<V>(slots: seq<Option<Entry<V>>>)
    requires forall i :: 0 <= i < |slots| && slots[i].Some? ==> slots[i].value.key.index == i
    ensures forall k, l :: 0 <= k < l < |LiveEntries(slots)| ==>
              LiveEntries(slots)[k].key.index < LiveEntries(slots)[l].key.index
    ensures forall k :: 0 <= k < |LiveEntries(slots)| ==> LiveEntries(slots)[k].key.index < |slots|
  {
    if slots != [] {
      var prefix := slots[..|slots| - 1];
      LiveEntriesAscending(prefix);
    }
  }

  /** The iterator calls that visit the given entries with one flag. */
  function Tagged<V>(entries: seq<Entry<V>>, isPersistent: bool): (r: seq<Visit<V>>)
    ensures |r| == |entries|
    ensures forall k :: 0 <= k < |r| ==>
              r[k] == Visit(entries[k].key, entries[k].value, isPersistent)
  {
    seq(|entries|, k requires 0 <= k < |entries| => Visit(entries[k].key, entries[k].value, isPersistent))
  }

  /** What forEachMutating leaves in a slot: the body's new value, or an empty
      slot when the body asked for the entry to be deleted. */
  function Mutated<V>(body: (Resource, V) -> (V, bool), slot: Option<Entry<V>>): Option<Entry<V>>
  {
    match slot
    case None => None
    case Some(e) =>
      var (v, delete) := body(e.key, e.value);
      if delete then None else Some(Entry(e.key, v))
  }

  /** What the value pointer of a slot points at: the value of whichever
      handle owns the slot, or nothing for uninitialised memory. */
  function SlotValue<V>(slot: Option<Entry<V>>): Option<V>
  {
    match slot
    case None => None
    case Some(e) => Some(e.value)
  }

  /** A slot after the caller of withValue wrote w through its value pointer.
      The key is left as it was, so a slot whose key is the invalid handle
      stays empty as far as every key-driven operation can tell. */
  function WrittenThrough<V>(slot: Option<Entry<V>>, w: Option<V>): Option<Entry<V>>
  {
    match slot
    case None => None
    case Some(e) => if w.Some? then Some(Entry(e.key, w.value)) else slot
  }

  /** The map for persistent resources; it grows geometrically. */
  class PersistentResourceMap<V> {
    var slots: array<Option<Entry<V>>>

    /** Every key sits at its own slot index and is persistent. */
    ghost predicate Valid()
      reads this, slots
    {
      forall i :: 0 <= i < slots.Length && slots[i].Some? ==>
        slots[i].value.key.index == i && UsesPersistentRegistry(slots[i].value.key)
    }

    constructor()
      ensures Valid() && fresh(slots) && slots.Length == 0
    {
      slots := new Option<Entry<V>>[0];
    }

    /** Grows the table: never shrinks, at least doubles when it grows, keeps
        every live entry at its slot and leaves the new slots empty. */
    method ReserveCapacity(capacity: nat)
      requires Valid()
      modifies this
      ensures Valid()
      ensures capacity <= old(slots.Length) ==> slots == old(slots)
      ensures capacity > old(slots.Length) ==>
                fresh(slots) && slots.Length == Max(capacity, 2 * old(slots.Length))
      ensures old(slots.Length) <= slots.Length
      ensures slots[..old(slots.Length)] == old(slots[..])
      ensures forall i :: old(slots.Length) <= i < slots.Length ==> slots[i].None?
    {
      if capacity <= slots.Length {
        return;
      }
      var newCapacity := Max(capacity, 2 * slots.Length);
      var oldSlots := slots;
      var newSlots := new Option<Entry<V>>[newCapacity](_ => None);
      for index := 0 to oldSlots.Length
        invariant forall i :: 0 <= i < index ==> newSlots[i] == oldSlots[i]
        invariant forall i :: index <= i < newCapacity ==> newSlots[i].None?
      {
        if oldSlots[index].Some? {
          newSlots[index] := oldSlots[index];
        }
      }
      slots := newSlots;
    }

    function Contains(r: Resource): (b: bool)
      reads this, slots
      requires UsesPersistentRegistry(r) ==> r.index < slots.Length
      ensures !UsesPersistentRegistry(r) ==> !b
      ensures b ==> slots[r.index].Some? && slots[r.index].value.key == r
    {
      UsesPersistentRegistry(r) && slots[r.index].Some? && slots[r.index].value.key == r
    }

    /** The subscript getter: the stored value when the slot holds exactly
        this handle, nothing for a stale handle or a transient one. */
    function Get(r: Resource): (v: Option<V>)
      reads this, slots
      requires UsesPersistentRegistry(r) ==> r.index < slots.Length
      ensures v.Some? <==> Contains(r)
      ensures v.Some? ==> slots[r.index] == Some(Entry(r, v.value))
    {
      if UsesPersistentRegistry(r) && slots[r.index].Some? && slots[r.index].value.key == r
      then Some(slots[r.index].value.value)
      else None
    }

    /** The subscript with a default value. */
    function GetOrDefault(r: Resource, default: V): (v: V)
      reads this, slots
      requires UsesPersistentRegistry(r) ==> r.index < slots.Length
      ensures Contains(r) ==> Some(Entry(r, v)) == slots[r.index]
      ensures !Contains(r) ==> v == default
    {
      match Get(r)
      case Some(x) => x
      case None => default
    }

    /** The subscript setter: a value stores the handle and the value in the
        handle's slot, nothing empties the slot; no other slot changes. */
    method Set(r: Resource, v: Option<V>)
      requires Valid()
      requires UsesPersistentRegistry(r) && r.index < slots.Length
      modifies slots
      ensures Valid()
      ensures Get(r) == v
      ensures Contains(r) <==> v.Some?
      ensures v.None? ==> slots[r.index].None?
      ensures forall i :: 0 <= i < slots.Length && i != r.index ==> slots[i] == old(slots[i])
    {
      match v {
        case Some(x) => slots[r.index] := Some(Entry(r, x));
        case None => slots[r.index] := None;
      }
    }

    /** Removes and returns the value stored for exactly this handle; any
        other handle, stale or transient, leaves the table as it was. */
    method RemoveValue(r: Resource) returns (v: Option<V>)
      requires Valid()
      requires UsesPersistentRegistry(r) ==> r.index < slots.Length
      modifies slots
      ensures Valid()
      ensures v == old(Get(r))
      ensures !Contains(r)
      ensures v.Some? ==> slots[r.index].None?
      ensures forall i :: 0 <= i < slots.Length && (i != r.index || v.None?) ==> slots[i] == old(slots[i])
    {
      if !UsesPersistentRegistry(r) {
        return None;
      }
      if slots[r.index].None? || slots[r.index].value.key != r {
        return None;
      }
      v := Some(slots[r.index].value.value);
      slots[r.index] := None;
    }

    method RemoveAll()
      requires Valid()
      modifies slots
      ensures Valid()
      ensures forall i :: 0 <= i < slots.Length ==> slots[i].None?
    {
      for bucket := 0 to slots.Length
        invariant forall i :: 0 <= i < bucket ==> slots[i].None?
        invariant Valid()
      {
        if slots[bucket].Some? {
          slots[bucket] := None;
        }
      }
    }

    /** Empties the table, reporting each live entry with the given
        persistence flag, in slot order. */
    method Drain(isPersistent: bool) returns (visits: seq<Visit<V>>)
      requires Valid()
      modifies slots
      ensures Valid()
      ensures visits == Tagged(LiveEntries(old(slots[..])), isPersistent)
      ensures forall i :: 0 <= i < slots.Length ==> slots[i].None?
    {
      ghost var before := slots[..];
      visits := [];
      for bucket := 0 to slots.Length
        invariant forall i :: 0 <= i < bucket ==> slots[i].None?
        invariant forall i :: bucket <= i < slots.Length ==> slots[i] == before[i]
        invariant visits == Tagged(LiveEntries(before[..bucket]), isPersistent)
        invariant Valid()
      {
        assert before[..bucket + 1][..bucket] == before[..bucket];
        if slots[bucket].Some? {
          var e := slots[bucket].value;
          visits := visits + [Visit(e.key, e.value, isPersistent)];
          slots[bucket] := None;
        }
      }
      assert before[..slots.Length] == before;
    }

    /** removeAll(iterating:) as written: every entry is reported as not
        persistent, although this table holds only persistent handles. */
    method RemoveAllIteratingAsWritten() returns (visits: seq<Visit<V>>)
      requires Valid()
      modifies slots
      ensures Valid()
      ensures visits == Tagged(LiveEntries(old(slots[..])), false)
      ensures forall k :: 0 <= k < |visits| ==>
                UsesPersistentRegistry(visits[k].key) && !visits[k].isPersistent
      ensures forall i :: 0 <= i < slots.Length ==> slots[i].None?
    {
      ghost var before := slots[..];
      visits := Drain(false);
      forall k | 0 <= k < |visits| ensures UsesPersistentRegistry(visits[k].key) {
        LiveEntriesMembership(before, LiveEntries(before)[k]);
      }
    }

    /** removeAll(iterating:) with the flag evidently intended: each entry is
        reported as persistent. */
    method RemoveAllIterating() returns (visits: seq<Visit<V>>)
      requires Valid()
      modifies slots
      ensures Valid()
      ensures visits == Tagged(LiveEntries(old(slots[..])), true)
      ensures forall k :: 0 <= k < |visits| ==>
                visits[k].isPersistent == UsesPersistentRegistry(visits[k].key)
      ensures forall i :: 0 <= i < slots.Length ==> slots[i].None?
    {
      ghost var before := slots[..];
      visits := Drain(true);
      forall k | 0 <= k < |visits| ensures UsesPersistentRegistry(visits[k].key) {
        LiveEntriesMembership(before, LiveEntries(before)[k]);
      }
    }

    /** forEach: the live entries in slot order. */
    method ForEach() returns (visited: seq<Entry<V>>)
      ensures visited == LiveEntries(slots[..])
    {
      visited := [];
      for bucket := 0 to slots.Length
        invariant visited == LiveEntries(slots[..bucket])
      {
        assert slots[..bucket + 1][..bucket] == slots[..bucket];
        if slots[bucket].Some? {
          visited := visited + [slots[bucket].value];
        }
      }
      assert slots[..slots.Length] == slots[..];
    }

    /** forEachMutating: every live entry gets the body's new value, or is
        deleted when the body sets its delete flag; empty slots stay empty. */
    method ForEachMutating(body: (Resource, V) -> (V, bool))
      requires Valid()
      modifies slots
      ensures Valid()
      ensures forall i :: 0 <= i < slots.Length ==> slots[i] == Mutated(body, old(slots[i]))
    {
      for bucket := 0 to slots.Length
        invariant forall i :: 0 <= i < bucket ==> slots[i] == Mutated(body, old(slots[i]))
        invariant forall i :: bucket <= i < slots.Length ==> slots[i] == old(slots[i])
        invariant Valid()
      {
        if slots[bucket].Some? {
          var e := slots[bucket].value;
          var (v, delete) := body(e.key, e.value);
          if delete {
            slots[bucket] := None;
          } else {
            slots[bucket] := Some(Entry(e.key, v));
          }
        }
      }
    }

    /** withValue: the action gets what the handle's slot holds (nothing for
        uninitialised memory) and whether the slot belongs to exactly this
        handle; its second result is the value it writes through the slot's
        pointer, if any. The key is never touched. */
    method WithValue<T>(r: Resource, perform: (Option<V>, bool) -> (T, Option<V>)) returns (t: T)
      requires Valid()
      requires UsesPersistentRegistry(r) && r.index < slots.Length
      modifies slots
      ensures Valid()
      ensures var out := perform(SlotValue(old(slots[r.index])), old(Contains(r)));
              && t == out.0
              && slots[r.index] == WrittenThrough(old(slots[r.index]), out.1)
              && (old(Contains(r)) && out.1.Some? ==> Get(r) == out.1)
              && (out.1.None? ==> Get(r) == old(Get(r)))
      ensures Contains(r) == old(Contains(r))
      ensures forall i :: 0 <= i < slots.Length && i != r.index ==> slots[i] == old(slots[i])
    {
      var out := perform(SlotValue(slots[r.index]), Contains(r));
      t := out.0;
      slots[r.index] := WrittenThrough(slots[r.index], out.1);
    }
  }

  /** The map for one frame context's transient resources; it grows to
      exactly the requested capacity. */
  class TransientResourceMap<V> {
    var slots: array<Option<Entry<V>>>

    /** Every key sits at its own slot index and is transient. */
    ghost predicate Valid()
      reads this, slots
    {
      forall i :: 0 <= i < slots.Length && slots[i].Some? ==>
        slots[i].value.key.index == i && !UsesPersistentRegistry(slots[i].value.key)
    }

    constructor()
      ensures Valid() && fresh(slots) && slots.Length == 0
    {
      slots := new Option<Entry<V>>[0];
    }

    /** Grows the table to exactly the requested capacity, keeping every live
        entry at its slot and leaving the new slots empty. */
    method ReserveCapacity(capacity: nat)
      requires Valid()
      modifies this
      ensures Valid()
      ensures capacity <= old(slots.Length) ==> slots == old(slots)
      ensures capacity > old(slots.Length) ==> fresh(slots) && slots.Length == capacity
      ensures old(slots.Length) <= slots.Length
      ensures slots[..old(slots.Length)] == old(slots[..])
      ensures forall i :: old(slots.Length) <= i < slots.Length ==> slots[i].None?
    {
      if capacity <= slots.Length {
        return;
      }
      var oldSlots := slots;
      var newSlots := new Option<Entry<V>>[capacity](_ => None);
      for index := 0 to oldSlots.Length
        invariant forall i :: 0 <= i < index ==> newSlots[i] == oldSlots[i]
        invariant forall i :: index <= i < capacity ==> newSlots[i].None?
      {
        if oldSlots[index].Some? {
          newSlots[index] := oldSlots[index];
        }
      }
      slots := newSlots;
    }

    function Contains(r: Resource): (b: bool)
      reads this, slots
      requires !UsesPersistentRegistry(r) ==> r.index < slots.Length
      ensures UsesPersistentRegistry(r) ==> !b
      ensures b ==> slots[r.index].Some? && slots[r.index].value.key == r
    {
      !UsesPersistentRegistry(r) && slots[r.index].Some? && slots[r.index].value.key == r
    }

    /** The subscript getter: the stored value when the slot holds exactly
        this handle, nothing for a stale handle or a persistent one. */
    function Get(r: Resource): (v: Option<V>)
      reads this, slots
      requires !UsesPersistentRegistry(r) ==> r.index < slots.Length
      ensures v.Some? <==> Contains(r)
      ensures v.Some? ==> slots[r.index] == Some(Entry(r, v.value))
    {
      if !UsesPersistentRegistry(r) && slots[r.index].Some? && slots[r.index].value.key == r
      then Some(slots[r.index].value.value)
      else None
    }

    /** The subscript with a default value. */
    function GetOrDefault(r: Resource, default: V): (v: V)
      reads this, slots
      requires !UsesPersistentRegistry(r) ==> r.index < slots.Length
      ensures Contains(r) ==> Some(Entry(r, v)) == slots[r.index]
      ensures !Contains(r) ==> v == default
    {
      match Get(r)
      case Some(x) => x
      case None => default
    }

    /** The subscript setter; only the handle's own slot changes. */
    method Set(r: Resource, v: Option<V>)
      requires Valid()
      requires !UsesPersistentRegistry(r) && r.index < slots.Length
      modifies slots
      ensures Valid()
      ensures Get(r) == v
      ensures Contains(r) <==> v.Some?
      ensures v.None? ==> slots[r.index].None?
      ensures forall i :: 0 <= i < slots.Length && i != r.index ==> slots[i] == old(slots[i])
    {
      match v {
        case Some(x) => slots[r.index] := Some(Entry(r, x));
        case None => slots[r.index] := None;
      }
    }

    /** Removes and returns the value stored for exactly this handle. */
    method RemoveValue(r: Resource) returns (v: Option<V>)
      requires Valid()
      requires !UsesPersistentRegistry(r) ==> r.index < slots.Length
      modifies slots
      ensures Valid()
      ensures v == old(Get(r))
      ensures !Contains(r)
      ensures v.Some? ==> slots[r.index].None?
      ensures forall i :: 0 <= i < slots.Length && (i != r.index || v.None?) ==> slots[i] == old(slots[i])
    {
      if UsesPersistentRegistry(r) {
        return None;
      }
      if slots[r.index].None? || slots[r.index].value.key != r {
        return None;
      }
      v := Some(slots[r.index].value.value);
      slots[r.index] := None;
    }

    method RemoveAll()
      requires Valid()
      modifies slots
      ensures Valid()
      ensures forall i :: 0 <= i < slots.Length ==> slots[i].None?
    {
      for bucket := 0 to slots.Length
        invariant forall i :: 0 <= i < bucket ==> slots[i].None?
        invariant Valid()
      {
        if slots[bucket].Some? {
          slots[bucket] := None;
        }
      }
    }

    /** removeAll(iterating:): empties the table, reporting each live entry,
        in slot order, as not persistent. */
    method RemoveAllIterating() returns (visits: seq<Visit<V>>)
      requires Valid()
      modifies slots
      ensures Valid()
      ensures visits == Tagged(LiveEntries(old(slots[..])), false)
      ensures forall i :: 0 <= i < slots.Length ==> slots[i].None?
    {
      ghost var before := slots[..];
      visits := [];
      for bucket := 0 to slots.Length
        invariant forall i :: 0 <= i < bucket ==> slots[i].None?
        invariant forall i :: bucket <= i < slots.Length ==> slots[i] == before[i]
        invariant visits == Tagged(LiveEntries(before[..bucket]), false)
        invariant Valid()
      {
        assert before[..bucket + 1][..bucket] == before[..bucket];
        if slots[bucket].Some? {
          var e := slots[bucket].value;
          visits := visits + [Visit(e.key, e.value, false)];
          slots[bucket] := None;
        }
      }
      assert before[..slots.Length] == before;
    }

    /** forEach: the live entries in slot order. */
    method ForEach() returns (visited: seq<Entry<V>>)
      ensures visited == LiveEntries(slots[..])
    {
      visited := [];
      for bucket := 0 to slots.Length
        invariant visited == LiveEntries(slots[..bucket])
      {
        assert slots[..bucket + 1][..bucket] == slots[..bucket];
        if slots[bucket].Some? {
          visited := visited + [slots[bucket].value];
        }
      }
      assert slots[..slots.Length] == slots[..];
    }

    /** forEachMutating: updates or deletes each live entry as the body says. */
    method ForEachMutating(body: (Resource, V) -> (V, bool))
      requires Valid()
      modifies slots
      ensures Valid()
      ensures forall i :: 0 <= i < slots.Length ==> slots[i] == Mutated(body, old(slots[i]))
    {
      for bucket := 0 to slots.Length
        invariant forall i :: 0 <= i < bucket ==> slots[i] == Mutated(body, old(slots[i]))
        invariant forall i :: bucket <= i < slots.Length ==> slots[i] == old(slots[i])
        invariant Valid()
      {
        if slots[bucket].Some? {
          var e := slots[bucket].value;
          var (v, delete) := body(e.key, e.value);
          if delete {
            slots[bucket] := None;
          } else {
            slots[bucket] := Some(Entry(e.key, v));
          }
        }
      }
    }

    /** withValue: the action gets what the handle's slot holds (nothing for
        uninitialised memory) and whether the slot belongs to exactly this
        handle; its second result is the value it writes through the slot's
        pointer, if any. The key is never touched. */
    method WithValue<T>(r: Resource, perform: (Option<V>, bool) -> (T, Option<V>)) returns (t: T)
      requires Valid()
      requires !UsesPersistentRegistry(r) && r.index < slots.Length
      modifies slots
      ensures Valid()
      ensures var out := perform(SlotValue(old(slots[r.index])), old(Contains(r)));
              && t == out.0
              && slots[r.index] == WrittenThrough(old(slots[r.index]), out.1)
              && (old(Contains(r)) && out.1.Some? ==> Get(r) == out.1)
              && (out.1.None? ==> Get(r) == old(Get(r)))
      ensures Contains(r) == old(Contains(r))
      ensures forall i :: 0 <= i < slots.Length && i != r.index ==> slots[i] == old(slots[i])
    {
      var out := perform(SlotValue(slots[r.index]), Contains(r));
      t := out.0;
      slots[r.index] := WrittenThrough(slots[r.index], out.1);
    }
  }

  /** The unified map: a transient and a persistent table, each call routed
      on the handle's persistence. */
  class ResourceMap<V> {
    const transientMap: TransientResourceMap<V>
    const persistentMap: PersistentResourceMap<V>

    ghost predicate Valid()
      reads this, transientMap, persistentMap, transientMap.slots, persistentMap.slots
    {
      && transientMap.Valid()
      && persistentMap.Valid()
      && transientMap.slots != persistentMap.slots
    }

    /** The handle's slot exists in the table its persistence selects. */
    predicate InRange(r: Resource)
      reads this, transientMap, persistentMap
    {
      if UsesPersistentRegistry(r) then r.index < persistentMap.slots.Length
      else r.index < transientMap.slots.Length
    }

    constructor()
      ensures Valid()
      ensures transientMap.slots.Length == 0 && persistentMap.slots.Length == 0
    {
      transientMap := new TransientResourceMap();
      persistentMap := new PersistentResourceMap();
    }

    /** prepareFrame: sizes both tables for the registries' current
        capacities, which are passed in. */
    method PrepareFrame(transientCapacity: nat, persistentCapacity: nat)
      requires Valid()
      modifies transientMap, persistentMap
      ensures Valid()
      ensures transientMap.slots.Length >= transientCapacity
      ensures persistentMap.slots.Length >= persistentCapacity
      ensures transientMap.slots.Length >= old(transientMap.slots.Length)
      ensures persistentMap.slots.Length >= old(persistentMap.slots.Length)
      ensures transientMap.slots[..old(transientMap.slots.Length)] == old(transientMap.slots[..])
      ensures persistentMap.slots[..old(persistentMap.slots.Length)] == old(persistentMap.slots[..])
    {
      transientMap.ReserveCapacity(transientCapacity);
      persistentMap.ReserveCapacity(persistentCapacity);
    }

    function Contains(r: Resource): (b: bool)
      reads this, transientMap, persistentMap, transientMap.slots, persistentMap.slots
      requires InRange(r)
      ensures UsesPersistentRegistry(r) ==> b == persistentMap.Contains(r)
      ensures !UsesPersistentRegistry(r) ==> b == transientMap.Contains(r)
    {
      if UsesPersistentRegistry(r) then persistentMap.Contains(r) else transientMap.Contains(r)
    }

    function Get(r: Resource): (v: Option<V>)
      reads this, transientMap, persistentMap, transientMap.slots, persistentMap.slots
      requires InRange(r)
      ensures UsesPersistentRegistry(r) ==> v == persistentMap.Get(r)
      ensures !UsesPersistentRegistry(r) ==> v == transientMap.Get(r)
      ensures v.Some? <==> Contains(r)
    {
      if UsesPersistentRegistry(r) then persistentMap.Get(r) else transientMap.Get(r)
    }

    /** The subscript setter: writes only the table the handle belongs to. */
    method Set(r: Resource, v: Option<V>)
      requires Valid() && InRange(r)
      modifies transientMap.slots, persistentMap.slots
      ensures Valid()
      ensures Get(r) == v
      ensures UsesPersistentRegistry(r) ==> unchanged(transientMap.slots)
      ensures !UsesPersistentRegistry(r) ==> unchanged(persistentMap.slots)
      ensures UsesPersistentRegistry(r) ==>
                forall i :: 0 <= i < persistentMap.slots.Length && i != r.index ==>
                  persistentMap.slots[i] == old(persistentMap.slots[i])
      ensures !UsesPersistentRegistry(r) ==>
                forall i :: 0 <= i < transientMap.slots.Length && i != r.index ==>
                  transientMap.slots[i] == old(transientMap.slots[i])
    {
      if UsesPersistentRegistry(r) {
        persistentMap.Set(r, v);
      } else {
        transientMap.Set(r, v);
      }
    }

    method RemoveValue(r: Resource) returns (v: Option<V>)
      requires Valid() && InRange(r)
      modifies transientMap.slots, persistentMap.slots
      ensures Valid()
      ensures v == old(Get(r))
      ensures !Contains(r)
      ensures UsesPersistentRegistry(r) ==> unchanged(transientMap.slots)
      ensures !UsesPersistentRegistry(r) ==> unchanged(persistentMap.slots)
      ensures UsesPersistentRegistry(r) ==>
                forall i :: 0 <= i < persistentMap.slots.Length && (i != r.index || v.None?) ==>
                  persistentMap.slots[i] == old(persistentMap.slots[i])
      ensures !UsesPersistentRegistry(r) ==>
                forall i :: 0 <= i < transientMap.slots.Length && (i != r.index || v.None?) ==>
                  transientMap.slots[i] == old(transientMap.slots[i])
    {
      if UsesPersistentRegistry(r) {
        v := persistentMap.RemoveValue(r);
      } else {
        v := transientMap.RemoveValue(r);
      }
    }

    method RemoveAll()
      requires Valid()
      modifies transientMap.slots, persistentMap.slots
      ensures Valid()
      ensures forall i :: 0 <= i < transientMap.slots.Length ==> transientMap.slots[i].None?
      ensures forall i :: 0 <= i < persistentMap.slots.Length ==> persistentMap.slots[i].None?
    {
      transientMap.RemoveAll();
      persistentMap.RemoveAll();
    }

    /** removeAll(iterating:): the transient entries first, then the
        persistent ones, each table in slot order. */
    method RemoveAllIterating() returns (visits: seq<Visit<V>>)
      requires Valid()
      modifies transientMap.slots, persistentMap.slots
      ensures Valid()
      ensures visits == Tagged(LiveEntries(old(transientMap.slots[..])), false)
                        + Tagged(LiveEntries(old(persistentMap.slots[..])), true)
      ensures forall k :: 0 <= k < |visits| ==>
                visits[k].isPersistent == UsesPersistentRegistry(visits[k].key)
      ensures forall i :: 0 <= i < transientMap.slots.Length ==> transientMap.slots[i].None?
      ensures forall i :: 0 <= i < persistentMap.slots.Length ==> persistentMap.slots[i].None?
    {
      ghost var transientBefore := transientMap.slots[..];
      var transientVisits := transientMap.RemoveAllIterating();
      forall k | 0 <= k < |transientVisits| ensures !UsesPersistentRegistry(transientVisits[k].key) {
        LiveEntriesMembership(transientBefore, LiveEntries(transientBefore)[k]);
      }
      var persistentVisits := persistentMap.RemoveAllIterating();
      visits := transientVisits + persistentVisits;
    }

    /** forEach: the transient entries, then the persistent ones. */
    method ForEach() returns (visited: seq<Entry<V>>)
      ensures visited == LiveEntries(transientMap.slots[..]) + LiveEntries(persistentMap.slots[..])
    {
      var transientEntries := transientMap.ForEach();
      var persistentEntries := persistentMap.ForEach();
      visited := transientEntries + persistentEntries;
    }

    method ForEachMutating(body: (Resource, V) -> (V, bool))
      requires Valid()
      modifies transientMap.slots, persistentMap.slots
      ensures Valid()
      ensures forall i :: 0 <= i < transientMap.slots.Length ==>
                transientMap.slots[i] == Mutated(body, old(transientMap.slots[i]))
      ensures forall i :: 0 <= i < persistentMap.slots.Length ==>
                persistentMap.slots[i] == Mutated(body, old(persistentMap.slots[i]))
    {
      transientMap.ForEachMutating(body);
      persistentMap.ForEachMutating(body);
    }

    /** withValue: runs the action on the slot of the handle's own table and
        stores what it writes there; the other table is untouched. */
    method WithValue<T>(r: Resource, perform: (Option<V>, bool) -> (T, Option<V>)) returns (t: T)
      requires Valid() && InRange(r)
      modifies transientMap.slots, persistentMap.slots
      ensures Valid()
      ensures UsesPersistentRegistry(r) ==>
                var out := perform(SlotValue(old(persistentMap.slots[r.index])), old(Contains(r)));
                && t == out.0
                && persistentMap.slots[r.index] == WrittenThrough(old(persistentMap.slots[r.index]), out.1)
                && unchanged(transientMap.slots)
                && forall i :: 0 <= i < persistentMap.slots.Length && i != r.index ==>
                     persistentMap.slots[i] == old(persistentMap.slots[i])
      ensures !UsesPersistentRegistry(r) ==>
                var out := perform(SlotValue(old(transientMap.slots[r.index])), old(Contains(r)));
                && t == out.0
                && transientMap.slots[r.index] == WrittenThrough(old(transientMap.slots[r.index]), out.1)
                && unchanged(persistentMap.slots)
                && forall i :: 0 <= i < transientMap.slots.Length && i != r.index ==>
                     transientMap.slots[i] == old(transientMap.slots[i])
      ensures Contains(r) == old(Contains(r))
      ensures var out := perform(SlotValue(old(if UsesPersistentRegistry(r) then persistentMap.slots[r.index]
                                               else transientMap.slots[r.index])), old(Contains(r)));
              (old(Contains(r)) && out.1.Some? ==> Get(r) == out.1) && (out.1.None? ==> Get(r) == old(Get(r)))
    {
      if UsesPersistentRegistry(r) {
        t := persistentMap.WithValue(r, perform);
      } else {
        t := transientMap.WithValue(r, perform);
      }
    }
  }

  /** A value stored under a handle is found again under that handle, and
      removing it gives it back and leaves the handle absent. */
  method SetThenRemove<V>(m: ResourceMap<V>, r: Resource, v: V) returns (got: Option<V>, removed: Option<V>)
    requires m.Valid() && m.InRange(r)
    modifies m.transientMap.slots, m.persistentMap.slots
    ensures m.Valid()
    ensures got == Some(v) && removed == Some(v)
    ensures !m.Contains(r)
  {
    m.Set(r, Some(v));
    got := m.Get(r);
    removed := m.RemoveValue(r);
  }
}

=== FILE: targets.dfy ===
/** The shader tool's compilation targets: which backend SPIRV-Cross emits for
    each target, where its intermediate and compiled files go, and how the
    Metal Shading Language version is encoded for SPIRV-Cross. */
module ShaderTargets {
  import opened Common

  /** A compilation target; the payload is the deployment target or API
      version as the user wrote it. */
  datatype Target =
    | MacOSMetal(deploymentTarget: string)
    | IOSMetal(deploymentTarget: string)
    | Vulkan(version: string)

  /** The SPIRV-Cross backend to cross-compile to. */
  datatype SpvcBackend = Msl | NoBackend

  /** The second compilation stage; only Metal targets have one. */
  datatype MetalCompiler = MetalCompiler(target: Target)

  function IsMetal(t: Target): (r: bool)
    ensures r <==> !t.Vulkan?
  {
    match t
    case MacOSMetal(_) => true
    case IOSMetal(_) => true
    case _ => false
  }

  function Backend(t: Target): (r: SpvcBackend)
    ensures r == Msl <==> IsMetal(t)
    ensures r == NoBackend <==> t.Vulkan?
  {
    match t
    case MacOSMetal(_) => Msl
    case IOSMetal(_) => Msl
    case Vulkan(_) => NoBackend
  }

  /** The preprocessor macro that tells shaders which platform they target. */
  function TargetDefine(t: Target): (r: string)
  {
    match t
    case MacOSMetal(_) => "TARGET_METAL_MACOS"
    case IOSMetal(_) => "TARGET_METAL_IOS"
    case Vulkan(_) => "TARGET_VULKAN"
  }

  /** Each platform has its own define, shared by all its deployment targets. */
  lemma TargetDefineDistinct(t: Target, u: Target)
    ensures TargetDefine(t) == TargetDefine(u) <==> SameKind(t, u)
  {
  }

  /** Two targets of the same platform, whatever their payload. */
  predicate SameKind(t: Target, u: Target) {
    (t.MacOSMetal? && u.MacOSMetal?) || (t.IOSMetal? && u.IOSMetal?) || (t.Vulkan? && u.Vulkan?)
  }

  function OutputDirectory(t: Target): (r: string)
    ensures IsMetal(t) ==> r == "Compiled"
    ensures t.Vulkan? ==> r == "Compiled/Vulkan"
  {
    match t
    case MacOSMetal(_) => "Compiled"
    case IOSMetal(_) => "Compiled"
    case Vulkan(_) => "Compiled/Vulkan"
  }

  function IntermediatesDirectory(t: Target): (r: string)
    ensures t.Vulkan? ==> r == OutputDirectory(t)
    ensures IsMetal(t) ==> r != OutputDirectory(t)
  {
    match t
    case MacOSMetal(_) => "Intermediates/Metal-macOS"
    case IOSMetal(_) => "Intermediates/Metal-iOS"
    case Vulkan(_) => OutputDirectory(t)
  }

  function SpirvDirectory(t: Target): (r: string)
    ensures t.Vulkan? ==> r == IntermediatesDirectory(t)
    ensures !t.Vulkan? ==> r == IntermediatesDirectory(t) + "/SPIRV"
  {
    match t
    case Vulkan(_) => IntermediatesDirectory(t)
    case _ => IntermediatesDirectory(t) + "/SPIRV"
  }

  /** The SPIR-V output always lies inside the target's intermediates
      directory, and the two coincide exactly for Vulkan. */
  lemma SpirvInsideIntermediates(t: Target)
    ensures IntermediatesDirectory(t) <= SpirvDirectory(t)
    ensures SpirvDirectory(t) == IntermediatesDirectory(t) <==> t.Vulkan?
  {
  }

  function Compiler(t: Target): (r: Option<MetalCompiler>)
    ensures r.None? <==> t.Vulkan?
    ensures r.Some? ==> IsMetal(r.value.target) && r.value.target == t
  {
    match t
    case Vulkan(_) => None
    case _ => Some(MetalCompiler(t))
  }

  function Description(t: Target): (r: string)
    ensures t.IOSMetal? ==> r == "Metal (iOS " + t.deploymentTarget + ")"
    ensures t.MacOSMetal? ==> r == "Metal (macOS " + t.deploymentTarget + ")"
    ensures t.Vulkan? ==> r == "Vulkan (v" + t.version + ")"
  {
    match t
    case IOSMetal(v) => "Metal (iOS " + v + ")"
    case MacOSMetal(v) => "Metal (macOS " + v + ")"
    case Vulkan(v) => "Vulkan (v" + v + ")"
  }

  /** The payload between a fixed prefix and the closing parenthesis. */
  function Payload(s: string, prefixLength: nat): string
    requires prefixLength + 1 <= |s|
  {
    s[prefixLength..|s| - 1]
  }

  /** Distinct targets are always described differently, so a description
      identifies its target. */
  lemma {:induction false} DescriptionInjective(t: Target, u: Target)
    requires Description(t) == Description(u)
    ensures t == u
  {
    var d := Description(t);
    match t {
      case IOSMetal(v) =>
        assert d[7] == 'i';
        match u {
          case IOSMetal(w) =>
            assert Payload(d, 11) == v;
            assert Payload(d, 11) == w;
          case MacOSMetal(_) =>
          case Vulkan(_) =>
        }
      case MacOSMetal(v) =>
        assert d[7] == 'm';
        match u {
          case MacOSMetal(w) =>
            assert Payload(d, 13) == v;
            assert Payload(d, 13) == w;
          case IOSMetal(_) =>
          case Vulkan(_) =>
        }
      case Vulkan(v) =>
        assert d[0] == 'V';
        match u {
          case Vulkan(w) =>
            assert Payload(d, 9) == v;
            assert Payload(d, 9) == w;
          case _ =>
        }
    }
  }

  const UInt32Limit: int := 0x1_0000_0000

  /** The MSL version number SPIRV-Cross expects: major, minor and patch as
      decimal digit pairs. The conversion to UInt32 traps outside its range,
      so the caller must stay inside it. */
  function MakeMSLVersion(major: int, minor: int, patch: int): (r: nat)
    requires 0 <= major * 10000 + minor * 100 + patch < UInt32Limit
    ensures r < UInt32Limit
  {
    major * 10000 + minor * 100 + patch
  }

  /** With minor and patch below 100, the three parts can be read back from
      the encoded version. */
  lemma {:induction false} MSLVersionRoundTrip(major: nat, minor: nat, patch: nat)
    requires minor < 100 && patch < 100
    requires major * 10000 + minor * 100 + patch < UInt32Limit
    ensures MakeMSLVersion(major, minor, patch) / 10000 == major
    ensures MakeMSLVersion(major, minor, patch) / 100 % 100 == minor
    ensures MakeMSLVersion(major, minor, patch) % 100 == patch
  {
    var r := MakeMSLVersion(major, minor, patch);
    var low := minor * 100 + patch;
    assert 0 <= low < 10000;
    DivModUnique(r, 10000, major, low);
    DivModUnique(r, 100, major * 100 + minor, patch);
    DivModUnique(major * 100 + minor, 100, major, minor);
  }

  /** The version the shader tool requests, MSL 2.1.0. */
  lemma MSLVersionUsed()
    ensures MakeMSLVersion(2, 1, 0) == 20100
  {
  }
}

=== FILE: vulkan_device.dfy ===
/** Queue-family bookkeeping of the Vulkan backend: which frame-graph
    capabilities each Vulkan queue family offers, which queues the logical
    device requests, and how a queue family is chosen for a capability. */
module VulkanDevice {

  import opened Common

  /** The frame graph's logical queue families. */
  datatype QueueFamily = GraphicsFamily | ComputeFamily | CopyFamily | PresentFamily

  /** What work a queue can run. */
  datatype QueueCapability = Render | Compute | Blit

  type QueueCapabilities = set<QueueCapability>

  /** The bits of VkQueueFlags the backend looks at. */
  datatype QueueFlag = GraphicsBit | ComputeBit | TransferBit | SparseBindingBit

  /** One entry of vkGetPhysicalDeviceQueueFamilyProperties. */
  datatype QueueFamilyProperties = QueueFamilyProperties(queueFlags: set<QueueFlag>, queueCount: nat)

  /** A queue the device asks for: (family, queue within the family). */
  datatype ActiveQueue = ActiveQueue(familyIndex: nat, queueIndex: nat)

  /** One VkDeviceQueueCreateInfo: a family and how many of its queues. */
  datatype QueueCreateInfo = QueueCreateInfo(familyIndex: nat, queueCount: nat)

  /** The capability a logical queue family stands for. */
  function CapabilitiesOfFamily(family: QueueFamily): (r: QueueCapabilities)
    ensures |r| == 1
    ensures r == {Render} <==> family == GraphicsFamily || family == PresentFamily
    ensures r == {Compute} <==> family == ComputeFamily
    ensures r == {Blit} <==> family == CopyFamily
  {
    match family
    case GraphicsFamily => {Render}
    case PresentFamily => {Render}
    case ComputeFamily => {Compute}
    case CopyFamily => {Blit}
  }

  /** The capabilities of a Vulkan queue family, from its flags: graphics
      queues render and blit, compute queues compute and blit, transfer
      queues blit. */
  function CapabilitiesForFlags(flags: set<QueueFlag>): (r: QueueCapabilities)
    ensures Render in r <==> GraphicsBit in flags
    ensures Compute in r <==> ComputeBit in flags
    ensures Blit in r <==> GraphicsBit in flags || ComputeBit in flags || TransferBit in flags
  {
    var render := if GraphicsBit in flags then {Render, Blit} else {};
    var compute := if ComputeBit in flags then {Compute, Blit} else {};
    var transfer := if TransferBit in flags then {Blit} else {};
    render + compute + transfer
  }

  /** The physical device's capability table, one entry per queue family. */
  function PhysicalDeviceCapabilities(families: seq<QueueFamilyProperties>): (r: seq<QueueCapabilities>)
    ensures |r| == |families|
    ensures forall i :: 0 <= i < |r| ==> r[i] == CapabilitiesForFlags(families[i].queueFlags)
  {
    seq(|families|, i requires 0 <= i < |families| => CapabilitiesForFlags(families[i].queueFlags))
  }

  predicate IsGraphics(families: seq<QueueFamilyProperties>, f: nat)
    requires f < |families|
  {
    GraphicsBit in families[f].queueFlags
  }

  /** Some family before n supports graphics, so the render queue is taken
      (the loop's hasRenderQueue flag after n families). */
  predicate GraphicsBefore(families: seq<QueueFamilyProperties>, n: nat)
    requires n <= |families|
  {
    n > 0 && (GraphicsBefore(families, n - 1) || IsGraphics(families, n - 1))
  }

  /** The flag is set exactly when some earlier family supports graphics. */
  lemma {:induction false} GraphicsBeforeExists(families: seq<QueueFamilyProperties>, n: nat)
    requires n <= |families|
    ensures GraphicsBefore(families, n) <==> exists g :: 0 <= g < n && IsGraphics(families, g)
  {
    if n > 0 {
      GraphicsBeforeExists(families, n - 1);
    }
  }

  /** f is the first family that supports graphics. */
  predicate IsFirstGraphics(families: seq<QueueFamilyProperties>, f: nat) {
    && f < |families|
    && IsGraphics(families, f)
    && !GraphicsBefore(families, f)
  }

  /** The queues the device should request: queue 0 of the first graphics
      family, and every queue of every family without graphics. */
  predicate Requested(families: seq<QueueFamilyProperties>, q: ActiveQueue) {
    || (IsFirstGraphics(families, q.familyIndex) && q.queueIndex == 0)
    || (q.familyIndex < |families| && !IsGraphics(families, q.familyIndex)
        && q.queueIndex < families[q.familyIndex].queueCount)
  }

  /** Queues 0 .. count - 1 of family f. */
  function FamilyQueues(f: nat, count: nat): (r: seq<ActiveQueue>)
    ensures |r| == count
    ensures forall n :: 0 <= n < count ==> r[n] == ActiveQueue(f, n)
  {
    seq(count, n requires 0 <= n < count => ActiveQueue(f, n))
  }

  /** The queues one loop iteration takes from family f. */
  function QueuesOf(families: seq<QueueFamilyProperties>, f: nat): seq<ActiveQueue>
    requires f < |families|
  {
    if !GraphicsBefore(families, f) && IsGraphics(families, f) then [ActiveQueue(f, 0)]
    else if !IsGraphics(families, f) then FamilyQueues(f, families[f].queueCount)
    else []
  }

  /** The queues taken from the first n families, in loop order. */
  function SelectedQueues(families: seq<QueueFamilyProperties>, n: nat): seq<ActiveQueue>
    requires n <= |families|
  {
    if n == 0 then [] else SelectedQueues(families, n - 1) + QueuesOf(families, n - 1)
  }

  /** The create infos of the loop as written: one per queue, each for a
      single queue of its family. */
  function InfosAsWritten(queues: seq<ActiveQueue>): (r: seq<QueueCreateInfo>)
    ensures |r| == |queues|
    ensures forall k :: 0 <= k < |r| ==> r[k] == QueueCreateInfo(queues[k].familyIndex, 1)
  {
    seq(|queues|, k requires 0 <= k < |queues| => QueueCreateInfo(queues[k].familyIndex, 1))
  }

  /** The create infos as evidently intended: one per family that
      contributes queues, asking for all of them. */
  function SelectedInfos(families: seq<QueueFamilyProperties>, n: nat): seq<QueueCreateInfo>
    requires n <= |families|
  {
    if n == 0 then []
    else
      var taken := |QueuesOf(families, n - 1)|;
      SelectedInfos(families, n - 1) + (if taken > 0 then [QueueCreateInfo(n - 1, taken)] else [])
  }

  predicate Before(a: ActiveQueue, b: ActiveQueue) {
    a.familyIndex < b.familyIndex || (a.familyIndex == b.familyIndex && a.queueIndex < b.queueIndex)
  }

  /** Strictly increasing by (family, queue), so without repetition. */
  predicate Ascending(qs: seq<ActiveQueue>) {
    forall k, l :: 0 <= k < l < |qs| ==> Before(qs[k], qs[l])
  }

  /** No two create infos name the same family, as VkDeviceCreateInfo's
      valid usage demands (Vulkan specification, "Devices and Queues",
      VkDeviceCreateInfo: the queueFamilyIndex of each element of
      pQueueCreateInfos must be unique). */
  predicate UniqueFamilies(infos: seq<QueueCreateInfo>) {
    forall k, l :: 0 <= k < l < |infos| ==> infos[k].familyIndex != infos[l].familyIndex
  }

  /** Some family without graphics has more than one queue. */
  predicate HasMultiQueueNonGraphicsFamily(families: seq<QueueFamilyProperties>) {
    exists f :: 0 <= f < |families| && !IsGraphics(families, f) && families[f].queueCount >= 2
  }

  /** One loop iteration takes exactly the requested queues of its family. */
  lemma QueuesOfAreRequested(families: seq<QueueFamilyProperties>, f: nat)
    requires f < |families|
    ensures forall q :: q in QueuesOf(families, f) <==> Requested(families, q) && q.familyIndex == f
  {
    forall q: ActiveQueue | q.familyIndex == f && !IsGraphics(families, f) && q.queueIndex < families[f].queueCount
      ensures q in QueuesOf(families, f)
    {
      assert FamilyQueues(f, families[f].queueCount)[q.queueIndex] == q;
    }
  }

  /** The selection takes exactly the requested queues of the first n
      families. */
  lemma {:induction false} SelectedQueuesAreRequested(families: seq<QueueFamilyProperties>, n: nat)
    requires n <= |families|
    ensures forall q :: q in SelectedQueues(families, n) <==> Requested(families, q) && q.familyIndex < n
  {
    if n > 0 {
      SelectedQueuesAreRequested(families, n - 1);
      QueuesOfAreRequested(families, n - 1);
      var prev, here := SelectedQueues(families, n - 1), QueuesOf(families, n - 1);
      assert SelectedQueues(families, n) == prev + here;
      forall q ensures q in prev + here <==> Requested(families, q) && q.familyIndex < n {
        assert q in prev + here <==> q in prev || q in here;
        if q.familyIndex < n - 1 {
          assert q !in here;
        } else if q.familyIndex == n - 1 {
          assert q !in prev;
        } else {
          assert q !in prev && q !in here;
        }
      }
    }
  }

  /** The selected queues come out in strictly ascending order. */
  lemma {:induction false} SelectedQueuesAscending(families: seq<QueueFamilyProperties>, n: nat)
    requires n <= |families|
    ensures Ascending(SelectedQueues(families, n))
    ensures forall q :: q in SelectedQueues(families, n) ==> q.familyIndex < n
  {
    if n > 0 {
      SelectedQueuesAscending(families, n - 1);
    }
  }

  /** The intended create infos name each contributing family once. */
  lemma {:induction false} SelectedInfosUnique(families: seq<QueueFamilyProperties>, n: nat)
    requires n <= |families|
    ensures UniqueFamilies(SelectedInfos(families, n))
    ensures forall k :: 0 <= k < |SelectedInfos(families, n)| ==> SelectedInfos(families, n)[k].familyIndex < n
  {
    if n > 0 {
      SelectedInfosUnique(families, n - 1);
      var f := n - 1;
      var taken := |QueuesOf(families, f)|;
      var prev := SelectedInfos(families, f);
      var infos := prev + (if taken > 0 then [QueueCreateInfo(f, taken)] else []);
      assert SelectedInfos(families, n) == infos;
      forall k | 0 <= k < |infos| ensures infos[k].familyIndex < n {
        if k < |prev| {
          assert infos[k] == prev[k];
        }
      }
      forall k, l | 0 <= k < l < |infos| ensures infos[k].familyIndex != infos[l].familyIndex {
        assert infos[k] == prev[k];
        if l < |prev| {
          assert infos[l] == prev[l];
        }
      }
    }
  }

  /** Each intended create info asks for exactly as many queues as the
      selection takes from its family, at least one. */
  lemma {:induction false} SelectedInfosCounts(families: seq<QueueFamilyProperties>, n: nat)
    requires n <= |families|
    ensures forall k :: 0 <= k < |SelectedInfos(families, n)| ==>
              var info := SelectedInfos(families, n)[k];
              info.familyIndex < n && info.queueCount == |QueuesOf(families, info.familyIndex)| >= 1
  {
    if n > 0 {
      SelectedInfosCounts(families, n - 1);
      var f := n - 1;
      var taken := |QueuesOf(families, f)|;
      var prev := SelectedInfos(families, f);
      var infos := prev + (if taken > 0 then [QueueCreateInfo(f, taken)] else []);
      assert SelectedInfos(families, n) == infos;
      forall k | 0 <= k < |infos|
        ensures infos[k].familyIndex < n && infos[k].queueCount == |QueuesOf(families, infos[k].familyIndex)| >= 1
      {
        if k < |prev| {
          assert infos[k] == prev[k];
        }
      }
    }
  }

  /** Every family the selection takes queues from has its create info. */
  lemma {:induction false} SelectedInfosComplete(families: seq<QueueFamilyProperties>, n: nat)
    requires n <= |families|
    ensures forall f :: 0 <= f < n && |QueuesOf(families, f)| > 0 ==>
              QueueCreateInfo(f, |QueuesOf(families, f)|) in SelectedInfos(families, n)
  {
    if n > 0 {
      SelectedInfosComplete(families, n - 1);
      var f := n - 1;
      var taken := |QueuesOf(families, f)|;
      var prev := SelectedInfos(families, f);
      var infos := prev + (if taken > 0 then [QueueCreateInfo(f, taken)] else []);
      assert SelectedInfos(families, n) == infos;
      forall g | 0 <= g < n && |QueuesOf(families, g)| > 0 ensures QueueCreateInfo(g, |QueuesOf(families, g)|) in infos {
        if g == f {
          assert infos[|prev|] == QueueCreateInfo(g, taken);
        } else {
          assert QueueCreateInfo(g, |QueuesOf(families, g)|) in prev;
        }
      }
    }
  }

  /** Selecting from more families only appends queues. */
  lemma {:induction false} SelectedQueuesPrefix(families: seq<QueueFamilyProperties>, m: nat, n: nat)
    requires m <= n <= |families|
    ensures |SelectedQueues(families, m)| <= |SelectedQueues(families, n)|
    ensures SelectedQueues(families, n)[..|SelectedQueues(families, m)|] == SelectedQueues(families, m)
  {
    if m < n {
      SelectedQueuesPrefix(families, m, n - 1);
      var prev, len := SelectedQueues(families, n - 1), |SelectedQueues(families, m)|;
      assert SelectedQueues(families, n) == prev + QueuesOf(families, n - 1);
      assert (prev + QueuesOf(families, n - 1))[..len] == prev[..len];
    }
  }

  /** The loop as written gives a family with several selected queues
      several create infos. */
  lemma {:induction false} AsWrittenRepeatsFamilies(families: seq<QueueFamilyProperties>)
    requires HasMultiQueueNonGraphicsFamily(families)
    ensures !UniqueFamilies(InfosAsWritten(SelectedQueues(families, |families|)))
  {
    var queues := SelectedQueues(families, |families|);
    var infos := InfosAsWritten(queues);
    var f :| 0 <= f < |families| && !IsGraphics(families, f) && families[f].queueCount >= 2;
    var before := SelectedQueues(families, f);
    var through := SelectedQueues(families, f + 1);
    assert through == before + FamilyQueues(f, families[f].queueCount);
    assert through[|before|] == ActiveQueue(f, 0) && through[|before| + 1] == ActiveQueue(f, 1);
    SelectedQueuesPrefix(families, f + 1, |families|);
    assert queues[|before|] == through[|before|] && queues[|before| + 1] == through[|before| + 1];
    assert infos[|before|].familyIndex == f == infos[|before| + 1].familyIndex;
  }

  /** A device with one graphics family and a two-queue compute family. */
  lemma DuplicateCreateInfoExample()
    ensures var families := [QueueFamilyProperties({GraphicsBit, ComputeBit, TransferBit}, 1),
                             QueueFamilyProperties({ComputeBit, TransferBit}, 2)];
            !UniqueFamilies(InfosAsWritten(SelectedQueues(families, 2)))
  {
    var families := [QueueFamilyProperties({GraphicsBit, ComputeBit, TransferBit}, 1),
                     QueueFamilyProperties({ComputeBit, TransferBit}, 2)];
    assert !IsGraphics(families, 1);
    AsWrittenRepeatsFamilies(families);
  }

  /** The queue-selection loop of the device initialiser as written: one
      create info per requested queue, each asking for a single queue of its
      family. */
  method SelectQueuesAsWritten(families: seq<QueueFamilyProperties>)
    returns (createInfos: seq<QueueCreateInfo>, activeQueues: seq<ActiveQueue>)
    ensures activeQueues == SelectedQueues(families, |families|)
    ensures createInfos == InfosAsWritten(activeQueues)
  {
    createInfos, activeQueues := [], [];
    var hasRenderQueue := false;
    for i := 0 to |families|
      invariant hasRenderQueue == GraphicsBefore(families, i)
      invariant activeQueues == SelectedQueues(families, i)
      invariant createInfos == InfosAsWritten(activeQueues)
    {
      var info := QueueCreateInfo(i, 1);
      if !hasRenderQueue && GraphicsBit in families[i].queueFlags {
        hasRenderQueue := true;
        createInfos := createInfos + [info];
        activeQueues := activeQueues + [ActiveQueue(i, 0)];
      } else if GraphicsBit !in families[i].queueFlags {
        ghost var before := activeQueues;
        for j := 0 to families[i].queueCount
          invariant activeQueues == before + FamilyQueues(i, j)
          invariant createInfos == InfosAsWritten(activeQueues)
        {
          createInfos := createInfos + [info];
          activeQueues := activeQueues + [ActiveQueue(i, j)];
        }
      }
    }
  }

  /** The queue selection as evidently intended: the same queues, but one
      create info per family that asks for all the queues taken from it. */
  method SelectQueues(families: seq<QueueFamilyProperties>)
    returns (createInfos: seq<QueueCreateInfo>, activeQueues: seq<ActiveQueue>)
    ensures activeQueues == SelectedQueues(families, |families|)
    ensures createInfos == SelectedInfos(families, |families|)
    ensures UniqueFamilies(createInfos)
  {
    createInfos, activeQueues := [], [];
    var hasRenderQueue := false;
    for i := 0 to |families|
      invariant hasRenderQueue == GraphicsBefore(families, i)
      invariant activeQueues == SelectedQueues(families, i)
      invariant createInfos == SelectedInfos(families, i)
    {
      if !hasRenderQueue && GraphicsBit in families[i].queueFlags {
        hasRenderQueue := true;
        createInfos := createInfos + [QueueCreateInfo(i, 1)];
        activeQueues := activeQueues + [ActiveQueue(i, 0)];
      } else if GraphicsBit !in families[i].queueFlags && families[i].queueCount > 0 {
        ghost var before := activeQueues;
        createInfos := createInfos + [QueueCreateInfo(i, families[i].queueCount)];
        for j := 0 to families[i].queueCount
          invariant activeQueues == before + FamilyQueues(i, j)
        {
          activeQueues := activeQueues + [ActiveQueue(i, j)];
        }
      }
    }
    SelectedInfosUnique(families, |families|);
  }

  /** The first family whose capabilities are exactly c (Swift's
      firstIndex(of:)). */
  function FirstIndexOf(table: seq<QueueCapabilities>, c: QueueCapabilities): (r: Option<nat>)
    ensures r.Some? ==> r.value < |table| && table[r.value] == c
                        && forall k :: 0 <= k < r.value ==> table[k] != c
    ensures r.None? <==> c !in table
  {
    if table == [] then None
    else if table[0] == c then Some(0)
    else match FirstIndexOf(table[1..], c)
      case None => None
      case Some(i) => Some(i + 1)
  }

  /** The first family whose capabilities contain c (Swift's
      firstIndex(where:)). */
  function FirstSupersetIndex(table: seq<QueueCapabilities>, c: QueueCapabilities): (r: Option<nat>)
    ensures r.Some? ==> r.value < |table| && c <= table[r.value]
                        && forall k :: 0 <= k < r.value ==> !(c <= table[k])
    ensures r.None? <==> forall k :: 0 <= k < |table| ==> !(c <= table[k])
  {
    if table == [] then None
    else if c <= table[0] then Some(0)
    else match FirstSupersetIndex(table[1..], c)
      case None => None
      case Some(i) => Some(i + 1)
  }

  /** The family to create a queue from: the first exact match of the wanted
      capabilities, else the first family offering all of them, else the first
      exact match of the required ones, else the first family offering the
      required ones. None stands for the source's fatal error. */
  function QueueFamilyIndex(table: seq<QueueCapabilities>, capabilities: QueueCapabilities,
                            required: QueueCapabilities): (r: Option<nat>)
    requires required <= capabilities
    ensures r.Some? ==> r.value < |table| && required <= table[r.value]
    ensures r.None? <==> forall k :: 0 <= k < |table| ==> !(required <= table[k])
    ensures capabilities in table ==> r == FirstIndexOf(table, capabilities)
    ensures (exists k :: 0 <= k < |table| && capabilities <= table[k]) ==>
              r.Some? && capabilities <= table[r.value]
    ensures capabilities !in table && FirstSupersetIndex(table, capabilities).Some? ==>
              r == FirstSupersetIndex(table, capabilities)
    ensures FirstSupersetIndex(table, capabilities).None? && required in table ==>
              r == FirstIndexOf(table, required)
    ensures FirstSupersetIndex(table, capabilities).None? && required !in table ==>
              r == FirstSupersetIndex(table, required)
  {
    var exact := FirstIndexOf(table, capabilities);
    if exact.Some? then exact
    else
      var superset := FirstSupersetIndex(table, capabilities);
      if superset.Some? then superset
      else
        var exactRequired := FirstIndexOf(table, required);
        if exactRequired.Some? then exactRequired
        else FirstSupersetIndex(table, required)
  }

  /** All families sharing at least one capability with the query, in
      ascending order. */
  method QueueFamilyIndices(table: seq<QueueCapabilities>, capabilities: QueueCapabilities)
    returns (indices: seq<nat>)
    ensures forall k, l :: 0 <= k < l < |indices| ==> indices[k] < indices[l]
    ensures forall i :: i in indices <==> 0 <= i < |table| && table[i] * capabilities != {}
  {
    indices := [];
    for i := 0 to |table|
      invariant forall k, l :: 0 <= k < l < |indices| ==> indices[k] < indices[l]
      invariant forall k :: 0 <= k < |indices| ==> indices[k] < i
      invariant forall j :: j in indices <==> 0 <= j < i && table[j] * capabilities != {}
    {
      if table[i] * capabilities != {} {
        indices := indices + [i];
      }
    }
  }
}

=== FILE: vulkan_image.dfy ===
/** Vulkan images of the frame graph's Vulkan backend: format classes,
    image descriptors built from texture descriptors, the descriptor
    matching used to reuse images, the sharing mode handed to
    vkCreateImage, and the image's default and attachment views with their
    cache. */
module VulkanImages {

  /** The formats the classification names, and every other format. */
  datatype VkFormat =
    | D16Unorm | D16UnormS8Uint | D24UnormS8Uint | D32Sfloat | D32SfloatS8Uint | X8D24UnormPack32
    | S8Uint
    | R16G16B16A16Sfloat
    | OtherFormat(raw: nat)

  predicate IsDepth(f: VkFormat) {
    f == D16Unorm || f == D16UnormS8Uint || f == D24UnormS8Uint || f == D32Sfloat
    || f == D32SfloatS8Uint || f == X8D24UnormPack32
  }

  predicate IsStencil(f: VkFormat) {
    f == S8Uint || f == D32SfloatS8Uint || f == D16UnormS8Uint || f == D24UnormS8Uint
  }

  predicate IsDepthStencil(f: VkFormat) {
    f == D16UnormS8Uint || f == D24UnormS8Uint || f == D32SfloatS8Uint
  }

  /** The combined depth-stencil formats are exactly those that are both
      depth and stencil formats. */
  lemma DepthStencilIsBoth(f: VkFormat)
    ensures IsDepthStencil(f) <==> IsDepth(f) && IsStencil(f)
  {
  }

  datatype TextureType =
    | Type1D | Type1DArray | Type2D | Type2DArray | Type2DMultisample | TypeCube | TypeCubeArray | Type3D

  datatype StorageMode = Shared | Managed | Private | Memoryless

  /** The frame graph's description of a texture; the pixel format is given
      already converted to its Vulkan format. */
  datatype TextureDescriptor = TextureDescriptor(
    textureType: TextureType, format: VkFormat,
    width: nat, height: nat, depth: nat,
    mipmapLevelCount: nat, arrayLength: nat, storageMode: StorageMode)

  datatype VkImageType = Image1D | Image2D | Image3D

  datatype VkImageViewType = View1D | View2D | View3D | ViewCube | View1DArray | View2DArray | ViewCubeArray

  datatype ImageCreateFlag = CubeCompatible | MutableFormat | Array2DCompatible

  datatype ImageUsage =
    | TransferSrc | TransferDst | Sampled | Storage
    | ColorAttachment | DepthStencilAttachment | TransientAttachment | InputAttachment

  datatype ImageTiling = Optimal | Linear

  datatype ImageLayout = LayoutUndefined | LayoutPreinitialized | LayoutGeneral | OtherLayout(raw: nat)

  /** How the image is shared between queue families. */
  datatype SharingMode = Exclusive | Concurrent(queueIndices: seq<nat>)

  datatype Extent3D = Extent3D(width: nat, height: nat, depth: nat)

  datatype VulkanImageDescriptor = VulkanImageDescriptor(
    flags: set<ImageCreateFlag>, imageType: VkImageType, imageViewType: VkImageViewType,
    format: VkFormat, extent: Extent3D, mipLevels: nat, arrayLayers: nat, samples: nat,
    tiling: ImageTiling, usage: set<ImageUsage>, sharingMode: SharingMode,
    initialLayout: ImageLayout)

  const UInt32Limit: nat := 0x1_0000_0000

  function ImageTypeOf(t: TextureType): VkImageType {
    match t
    case Type1D => Image1D
    case Type1DArray => Image1D
    case Type3D => Image3D
    case _ => Image2D
  }

  function ViewTypeOf(t: TextureType): VkImageViewType {
    match t
    case Type1D => View1D
    case Type1DArray => View1DArray
    case Type2D => View2D
    case Type2DArray => View2DArray
    case Type2DMultisample => View2D
    case TypeCube => ViewCube
    case TypeCubeArray => ViewCubeArray
    case Type3D => View3D
  }

  predicate IsCube(t: TextureType) {
    t == TypeCube || t == TypeCubeArray
  }

  /** The conversions to UInt32 trap outside its range, and so does the
      multiplication of a cube's layer count by six. */
  predicate FitsUInt32(d: TextureDescriptor) {
    && d.width < UInt32Limit && d.height < UInt32Limit && d.depth < UInt32Limit
    && d.mipmapLevelCount < UInt32Limit
    && (if IsCube(d.textureType) then 6 * d.arrayLength else d.arrayLength) < UInt32Limit
  }

  /** The image descriptor for a texture: cube textures are cube compatible
      and have six layers per array element, and only private storage gets
      optimal tiling. An empty usage is refused. */
  function FromTextureDescriptor(d: TextureDescriptor, usage: set<ImageUsage>, sharingMode: SharingMode,
                                 initialLayout: ImageLayout): (r: VulkanImageDescriptor)
    requires usage != {}
    requires FitsUInt32(d)
    ensures CubeCompatible in r.flags <==> IsCube(d.textureType)
    ensures r.flags <= {CubeCompatible}
    ensures r.arrayLayers == if IsCube(d.textureType) then 6 * d.arrayLength else d.arrayLength
    ensures r.arrayLayers < UInt32Limit
    ensures r.tiling == Optimal <==> d.storageMode == Private
    ensures r.samples == 1
    ensures r.usage == usage && r.usage != {}
    ensures r.sharingMode == sharingMode && r.initialLayout == initialLayout
    ensures r.format == d.format && r.mipLevels == d.mipmapLevelCount
    ensures r.extent == Extent3D(d.width, d.height, d.depth)
    ensures r.imageType == ImageTypeOf(d.textureType) && r.imageViewType == ViewTypeOf(d.textureType)
  {
    var cube := IsCube(d.textureType);
    VulkanImageDescriptor(
      if cube then {CubeCompatible} else {},
      ImageTypeOf(d.textureType), ViewTypeOf(d.textureType), d.format,
      Extent3D(d.width, d.height, d.depth), d.mipmapLevelCount,
      if cube then d.arrayLength * 6 else d.arrayLength,
      1,
      if d.storageMode == Private then Optimal else Linear,
      usage, sharingMode, initialLayout)
  }

  /** An existing image can stand in for a requested one when it has at least
      the requested creation flags and usages and agrees on everything else. */
  predicate Matches(image: VulkanImageDescriptor, request: VulkanImageDescriptor) {
    && request.flags <= image.flags
    && image.imageType == request.imageType
    && image.imageViewType == request.imageViewType
    && image.format == request.format
    && image.extent == request.extent
    && image.mipLevels == request.mipLevels
    && image.arrayLayers == request.arrayLayers
    && image.samples == request.samples
    && image.tiling == request.tiling
    && request.usage <= image.usage
    && image.sharingMode == request.sharingMode
  }

  /** Matching is a preorder, and two descriptors that match each other
      differ at most in their initial layout. */
  lemma {:induction false} MatchesPreorder(a: VulkanImageDescriptor, b: VulkanImageDescriptor, c: VulkanImageDescriptor)
    ensures Matches(a, a)
    ensures Matches(a, b) && Matches(b, c) ==> Matches(a, c)
    ensures Matches(a, b) && Matches(b, a) ==> a.(initialLayout := b.initialLayout) == b
  {
  }

  /** An image made for a texture with more usages serves a request for the
      same texture with fewer. */
  lemma WiderUsageMatches(d: TextureDescriptor, wide: set<ImageUsage>, narrow: set<ImageUsage>,
                          sharingMode: SharingMode, layoutA: ImageLayout, layoutB: ImageLayout)
    requires narrow != {} && narrow <= wide && FitsUInt32(d)
    ensures Matches(FromTextureDescriptor(d, wide, sharingMode, layoutA),
                    FromTextureDescriptor(d, narrow, sharingMode, layoutB))
    ensures wide != narrow ==> !Matches(FromTextureDescriptor(d, narrow, sharingMode, layoutB),
                                        FromTextureDescriptor(d, wide, sharingMode, layoutA))
  {
  }

  datatype VkSharingMode = SharingExclusive | SharingConcurrent

  /** The part of VkImageCreateInfo the descriptor decides. */
  datatype ImageCreateInfo = ImageCreateInfo(
    flags: set<ImageCreateFlag>, imageType: VkImageType, format: VkFormat, extent: Extent3D,
    mipLevels: nat, arrayLayers: nat, samples: nat, tiling: ImageTiling, usage: set<ImageUsage>,
    initialLayout: ImageLayout, sharingMode: VkSharingMode,
    queueFamilyIndexCount: nat, queueFamilyIndices: seq<nat>)

  /** withImageCreateInfo: concurrent sharing over a single queue family
      falls through to exclusive sharing; otherwise the queue-family list is
      passed with its length. */
  function CreateInfo(d: VulkanImageDescriptor): (r: ImageCreateInfo)
    ensures r.sharingMode == SharingConcurrent <==> d.sharingMode.Concurrent? && |d.sharingMode.queueIndices| != 1
    ensures r.sharingMode == SharingConcurrent ==>
              r.queueFamilyIndices == d.sharingMode.queueIndices && r.queueFamilyIndexCount == |r.queueFamilyIndices|
    ensures r.sharingMode == SharingExclusive ==> r.queueFamilyIndexCount == 0 && r.queueFamilyIndices == []
    ensures r.flags == d.flags && r.imageType == d.imageType && r.format == d.format
    ensures r.extent == d.extent && r.mipLevels == d.mipLevels && r.arrayLayers == d.arrayLayers
    ensures r.samples == d.samples && r.tiling == d.tiling && r.usage == d.usage
    ensures r.initialLayout == d.initialLayout
  {
    var concurrent := d.sharingMode.Concurrent? && |d.sharingMode.queueIndices| != 1;
    ImageCreateInfo(d.flags, d.imageType, d.format, d.extent, d.mipLevels, d.arrayLayers, d.samples,
                    d.tiling, d.usage, d.initialLayout,
                    if concurrent then SharingConcurrent else SharingExclusive,
                    if concurrent then |d.sharingMode.queueIndices| else 0,
                    if concurrent then d.sharingMode.queueIndices else [])
  }

  datatype Aspect = ColorAspect | DepthAspect | StencilAspect

  datatype SubresourceRange = SubresourceRange(
    aspectMask: set<Aspect>, baseMipLevel: nat, levelCount: nat, baseArrayLayer: nat, layerCount: nat)

  /** The identity swizzle is the only component mapping the modelled code
      creates. */
  datatype ComponentMapping = IdentityMapping

  datatype ViewDescriptor = ViewDescriptor(
    flags: nat, viewType: VkImageViewType, format: VkFormat, components: ComponentMapping,
    subresourceRange: SubresourceRange)

  /** The range of the image's default view: the whole image, with one
      aspect for sampling (depth for any depth format). */
  function DefaultRange(d: VulkanImageDescriptor): (r: SubresourceRange)
    ensures r.baseMipLevel == 0 && r.baseArrayLayer == 0
    ensures r.levelCount == d.mipLevels
    ensures r.layerCount == if d.imageViewType == ViewCube then 6 else d.arrayLayers
    ensures IsDepth(d.format) ==> r.aspectMask == {DepthAspect}
    ensures !IsDepth(d.format) && IsStencil(d.format) ==> r.aspectMask == {StencilAspect}
    ensures !IsDepth(d.format) && !IsStencil(d.format) ==> r.aspectMask == {ColorAspect}
    ensures |r.aspectMask| == 1
  {
    var aspect :=
      if IsDepthStencil(d.format) then {DepthAspect}
      else if IsDepth(d.format) then {DepthAspect}
      else if IsStencil(d.format) then {StencilAspect}
      else {ColorAspect};
    SubresourceRange(aspect, 0, d.mipLevels, 0, if d.imageViewType == ViewCube then 6 else d.arrayLayers)
  }

  function DefaultViewDescriptor(d: VulkanImageDescriptor): ViewDescriptor {
    ViewDescriptor(0, d.imageViewType, d.format, IdentityMapping, DefaultRange(d))
  }

  /** The range of an attachment view: one level and one layer, at the
      attachment's level and at the larger of its slice and depth plane;
      depth-stencil formats use both aspects. */
  function AttachmentRange(d: VulkanImageDescriptor, level: nat, slice: nat, depthPlane: nat): (r: SubresourceRange)
    requires level < UInt32Limit && slice < UInt32Limit && depthPlane < UInt32Limit
    ensures r.levelCount == 1 && r.layerCount == 1
    ensures r.baseMipLevel == level
    ensures r.baseArrayLayer >= slice && r.baseArrayLayer >= depthPlane
    ensures r.baseArrayLayer == slice || r.baseArrayLayer == depthPlane
    ensures IsDepthStencil(d.format) ==> r.aspectMask == {DepthAspect, StencilAspect}
    ensures !IsDepthStencil(d.format) ==> r.aspectMask == DefaultRange(d).aspectMask
  {
    var aspect :=
      if IsDepthStencil(d.format) then {DepthAspect, StencilAspect}
      else if IsDepth(d.format) then {DepthAspect}
      else if IsStencil(d.format) then {StencilAspect}
      else {ColorAspect};
    SubresourceRange(aspect, level, 1, if slice >= depthPlane then slice else depthPlane, 1)
  }

  function AttachmentViewDescriptor(d: VulkanImageDescriptor, level: nat, slice: nat, depthPlane: nat): ViewDescriptor
    requires level < UInt32Limit && slice < UInt32Limit && depthPlane < UInt32Limit
  {
    ViewDescriptor(0, View2D, d.format, IdentityMapping, AttachmentRange(d, level, slice, depthPlane))
  }

  /** A view of an image, identified by what it was created with. */
  class VulkanImageView {
    const descriptor: ViewDescriptor

    constructor(descriptor: ViewDescriptor)
      ensures this.descriptor == descriptor
    {
      this.descriptor := descriptor;
    }
  }

  class VulkanImage {
    const descriptor: VulkanImageDescriptor
    const defaultView: VulkanImageView
    var views: map<ViewDescriptor, VulkanImageView>
    var layout: ImageLayout

    /** Every cached view was created for the descriptor it is cached under. */
    ghost predicate Valid()
      reads this, views.Values
    {
      forall vd :: vd in views ==> views[vd].descriptor == vd
    }

    /** A new image starts in its initial layout with its default view and an
        empty view cache. */
    constructor(descriptor: VulkanImageDescriptor)
      ensures Valid()
      ensures this.descriptor == descriptor
      ensures defaultView.descriptor == DefaultViewDescriptor(descriptor)
      ensures views == map[] && layout == descriptor.initialLayout
    {
      this.descriptor := descriptor;
      defaultView := new VulkanImageView(DefaultViewDescriptor(descriptor));
      views := map[];
      layout := descriptor.initialLayout;
    }

    /** The view-cache subscript: a known descriptor returns its cached view;
        an unknown one creates a view and adds exactly that entry. */
    method View(vd: ViewDescriptor) returns (view: VulkanImageView)
      requires Valid()
      modifies this
      ensures Valid()
      ensures view.descriptor == vd
      ensures vd in old(views) ==> view == old(views)[vd] && views == old(views)
      ensures vd !in old(views) ==> fresh(view) && views == old(views)[vd := view]
      ensures layout == old(layout)
    {
      if vd in views {
        return views[vd];
      }
      view := new VulkanImageView(vd);
      views := views[vd := view];
    }

    /** viewForAttachment: the default view serves a 2D image at level 0,
        slice 0 and depth plane 0; anything else gets a cached one-level,
        one-layer 2D view. */
    method ViewForAttachment(level: nat, slice: nat, depthPlane: nat) returns (view: VulkanImageView)
      requires Valid()
      requires level < UInt32Limit && slice < UInt32Limit && depthPlane < UInt32Limit
      modifies this
      ensures Valid()
      ensures descriptor.imageViewType == View2D && level == 0 && slice == 0 && depthPlane == 0 ==>
                view == defaultView && views == old(views)
      ensures !(descriptor.imageViewType == View2D && level == 0 && slice == 0 && depthPlane == 0) ==>
                var vd := AttachmentViewDescriptor(descriptor, level, slice, depthPlane);
                && view.descriptor == vd
                && views.Keys == old(views.Keys) + {vd}
                && (vd in old(views) ==> view == old(views)[vd] && views == old(views))
                && (vd !in old(views) ==> fresh(view) && views == old(views)[vd := view])
      ensures layout == old(layout)
    {
      if descriptor.imageViewType == View2D && level == 0 && slice == 0 && depthPlane == 0 {
        return defaultView;
      }
      view := View(AttachmentViewDescriptor(descriptor, level, slice, depthPlane));
    }
  }
}
